=== FILE: README.md ===
# AutoLearn progress and schedule bookkeeping, in Dafny

AutoLearn turns an uploaded PDF into a summary, a quiz and a day-by-day study
plan, and keeps score of what the learner does with them. This project models
the bookkeeping half of that system as immutable datatypes and pure functions:

- **The study plan** (`ScheduleModel`, `backend/models/Schedule.js`): the plan's
  days and sessions, the progress record, `completeSession` (append a
  completion, maybe close a day and advance `currentDay`, recompute
  `percentComplete`, maybe retire the plan) and the `getCurrentStatus`
  projection.
- **Routes that change plans**:
  - idempotent session start (`ScheduleStartRoute`, `scheduleProgress.js`),
    both as intended and as written (the written route fails on every request
    that reaches a plan; see "## Findings");
  - "deactivate the pair's active plans, then insert" on both save paths, and
    the completion route (`ScheduleStore`, `progress.js` and `schedule.js`);
  - carrying a finished study session over to its plan slot
    (`ProgressRoutes`, `progress.js`), both as intended and as written (the
    written route fails on that path; see "## Findings").
- **The study streak and the running quiz average** (`UserModel`, `User.js`),
  over integer calendar-day numbers.
- **Weak-topic aggregation**:
  - per quiz, `calculateWeakTopics` and the pre-save hook (`QuizResultModel`);
  - across quizzes, the dashboard fold and the detailed topic analysis
    (`Analytics`, `analytics.js`).
- **Ledger arithmetic**: study-session duration (`StudySessionModel`), and the
  dashboard totals, average and per-date buckets (`Analytics`).
- **Boundary validators and normalisers**:
  - the brace slice, shape check and day-number defaulting of a generated plan
    (`ScheduleJson`);
  - the quiz-result field validator (`QuizResultsRoute`);
  - `cleanText` (`PdfText`).
- **Front-end helpers**:
  - quiz scoring, answer records, payload and navigation (`QuizView`);
  - `formatDuration` and the icon and colour lookups (`ScheduleView`);
  - the summary line classifier (`SummaryView`).

Shared helper modules:

- `Js` models JavaScript values, truthiness, `==`/`===` on the values used
  here, and `Math.round(p / q)` as exact half-up rounding `(2p + q) / (2q)`.
  That is exact for one division of integers (a running average). The
  percentages `Math.round((c / n) * 100)` round twice in doubles, and the model
  reads them in exact arithmetic; "## Left out" lists where the two differ.
- `JsText` models `\s`, `trim`, `split`, `join` and decimal printing.
- `Grouping` is the first-occurrence group-by behind every `obj[key]` fold.
- `StableSort` is the stable sort by an integer key behind every
  `.sort((a, b) => a.x - b.x)`.
- `SeqSets` holds small facts about distinct sequences.

Clock readings, random draws and the database's lookups are parameters:
- `now`/`today` are integers;
- `findById` is an optional position;
- `JSON.parse` and the day-date formatter are function parameters;
- each `Math.floor(Math.random() * 1000)` is a `Draw` parameter in 0..999.

Where the code and its design notes disagree, the model follows the code:
- The notes say accuracy is 100 exactly when every answer is correct, but the
  code rounds, so 199 of 200 also reports 100 (`QuizResultModel.RoundedAccuracyNotExact`).
- The notes say negative study durations are clamped, but the code does not
  clamp (`StudySessionModel.BackwardClockGoesNegative`).

## Model

| member | source | states |
|---|---|---|
| Js.RoundDiv | backend/routes/progress.js:157-160 | `Math.round(p/q)` is the integer r with 2qr <= 2p+q < 2q(r+1): the nearest integer, halves rounded up |
| Js.RoundDivMonotone | backend/routes/progress.js:157-160 | a larger numerator never rounds to a smaller result |
| Js.RoundDivBetween | backend/routes/progress.js:157-160 | a ratio lying between two integers rounds to a value between them |
| Js.RoundDivExact | backend/models/QuizResult.js:93 | an exact multiple rounds to itself |
| Js.PercentRange | backend/models/QuizResult.js:93 | a part between 0 and the whole gives a percentage in [0, 100] |
| Js.PercentOfNone | backend/models/QuizResult.js:93 | none of the whole is 0 percent |
| Js.PercentOfAll | backend/models/QuizResult.js:93 | all of the whole is 100 percent |
| Js.PercentMonotone | backend/models/Schedule.js:116-118 | more completed parts never give a smaller percentage |
| JsText.TrimStart | backend/utils/pdfParser.js:33 | the result is a suffix of the input, what is dropped is all white space, and it starts with a non-space |
| JsText.TrimEnd | backend/utils/pdfParser.js:33 | the result is a prefix, what is dropped is all white space, and it ends with a non-space |
| JsText.Trim | backend/utils/pdfParser.js:33 | no white space at either end; empty exactly when the input is all white space |
| JsText.Split | frontend/src/components/Summary.jsx:22 | one part per separator plus one, no part holds the separator, and joining the parts back gives the input |
| JsText.ParsePrinted | frontend/src/components/Schedule.jsx:80 | reading back the decimal digits printed for n gives n |
| JsText.IntToString | backend/routes/schedule.js:214 | the text a template literal prints for an integer; its partner is JsText.SignedRoundTrip, which proves that text a numeral, signed exactly when the integer is negative, that reads back as the same integer |
| JsText.SignedRoundTrip | frontend/src/components/Schedule.jsx:80 | every integer prints as a numeral that starts with '-' exactly when it is negative and reads back as the same integer |
| Grouping.GroupBy | backend/models/QuizResult.js:73-88 | the groups are buckets of the input: one per distinct key in first-occurrence order, each holding exactly that key's items in input order |
| Grouping.GroupByTotal | backend/routes/analytics.js:81-85 | summing any weight over all buckets gives the total over the input |
| Grouping.SelectHead | backend/routes/analytics.js:151-159 | a key's first item is the input's first item with that key |
| StableSort.SortBy | backend/models/QuizResult.js:94 | the result is sorted by the key, is a permutation of the input, and keeps each key's items in input order (stability) |
| StableSort.SortKeepsDistinct | backend/routes/analytics.js:186 | sorting keeps entries that had distinct names distinct |
| StableSort.SortTotal | backend/routes/analytics.js:77 | sorting keeps every sum over the entries |
| StableSort.SortTiesRanked | backend/models/QuizResult.js:94 | entries with equal accuracy keep their relative order |
| SeqSets.ElemsBound | backend/models/Schedule.js:121 | a sequence has no more distinct elements than entries |
| ScheduleModel.FindDay | backend/models/Schedule.js:97 | `find(d => d.day === day)`: the first day with that number, or none exactly when no day has it |
| ScheduleModel.CompleteSession | backend/models/Schedule.js:88-125 | appends exactly one record and keeps the earlier ones; the day is added to completedDays with currentDay := day+1 exactly when it was not there and its first plan day has at least as many records as sessions; percent is round(100·records/total); plan retired with completedAt := now once completed days reach the day count; nothing else changes |
| ScheduleModel.RetiredStaysPut | backend/models/Schedule.js:96-124 | once the completed days reach the day count, a further completion leaves currentDay and completedDays where they are and the plan retired |
| ScheduleModel.FinishedAtFirst | backend/models/Schedule.js:97-105 | a day counts as finished exactly when the first plan day with that number has enough records |
| ScheduleModel.NewScheduleInvariant | backend/models/Schedule.js:52-73 | a fresh plan satisfies the progress invariant |
| ScheduleModel.CompletePreservesInvariant | backend/models/Schedule.js:105-118 | completed days stay distinct plan day numbers and the percentage keeps tracking the record count |
| ScheduleModel.AbsentDayOnlyRecords | backend/models/Schedule.js:96-118 | a day number absent from the plan changes only completedSessions and percentComplete |
| ScheduleModel.PercentNeverDrops | backend/models/Schedule.js:113-118 | under the invariant the percentage never decreases |
| ScheduleModel.RepeatRecordsTwice | backend/models/Schedule.js:88-94 | completing the same slot twice stores two identical (day, index) records: no deduplication |
| ScheduleModel.RepeatedDayNumberNeverRetires | backend/models/Schedule.js:105-124 | a plan that reuses a day number can never be retired |
| ScheduleModel.DaySlots | backend/models/Schedule.js:99 | a day's slots are exactly its session indices, one per session |
| ScheduleModel.PlanSlots | backend/models/Schedule.js:113-115 | the valid (day, index) slots of a plan, never more than its total session count |
| ScheduleModel.PlanSlotsExact | backend/models/Schedule.js:113-115 | with distinct day numbers there are exactly as many slots as planned sessions |
| ScheduleModel.PercentWithinRange | backend/models/Schedule.js:113-118 | with distinct, valid (day, index) records the percentage stays in [0, 100] |
| ScheduleModel.EverySlotOnce | backend/models/Schedule.js:113-115 | distinct records covering every slot number exactly the planned sessions |
| ScheduleModel.PercentFullWhenEverySlotDone | backend/models/Schedule.js:113-118 | once every slot has exactly one record the percentage is exactly 100 |
| ScheduleModel.DuplicatePassesHundred | backend/models/Schedule.js:113-118 | completing a one-session plan's slot twice reports 200 percent |
| ScheduleModel.GetCurrentStatus | backend/models/Schedule.js:128-148 | reads the progress without changing it; daysRemaining = totalDays − completedDays; totalSessions is the plan's sum; isComplete iff inactive with completedAt set; nextSession is the first session of the first day numbered currentDay, or none when there is no such day or it is empty |
| ScheduleModel.FreshStatus | backend/models/Schedule.js:53-73 | a fresh plan reports day 1, 0 percent, nothing done, not complete, every day remaining |
| ScheduleModel.DaysRemainingNonNegative | backend/models/Schedule.js:142 | under the invariant daysRemaining is never negative |
| ScheduleModel.CompleteReportsRetirement | backend/models/Schedule.js:121-140 | for an active plan, the status reports complete exactly when completed days reach the day count |
| ScheduleModel.TwoDayTotal | backend/models/Schedule.js:113-115 | the worked two-day plan has three sessions |
| ScheduleModel.TwoDayScenarioFirstDay | backend/models/Schedule.js:88-118 | finishing day 1's two sessions closes day 1, moves to day 2 and reports 67 percent |
| ScheduleModel.TwoDayScenarioSecondDay | backend/models/Schedule.js:88-124 | then finishing day 2 closes the plan at 100 percent and retires it |
| UserModel.UpdateStreak | backend/models/User.js:79-108 | lastStudyDate becomes today; longestStreak never decreases and is at least currentStreak; quiz counters untouched |
| UserModel.FirstStudyStartsStreak | backend/models/User.js:85-87 | with no previous study date the streak becomes 1 |
| UserModel.NextDayExtendsStreak | backend/models/User.js:89-93 | studying the day after the last study day extends the streak by 1 |
| UserModel.SameDayKeepsStreak | backend/models/User.js:94-95 | studying again the same day leaves the streak unchanged |
| UserModel.GapResetsStreak | backend/models/User.js:96-98 | any other gap, negative ones included, resets the streak to 1 |
| UserModel.UpdateStreakIdempotent | backend/models/User.js:80-107 | a second call on the same day changes nothing |
| UserModel.ConsecutiveRunCounts | backend/models/User.js:85-105 | n consecutive study days from new stats give current and longest streak n |
| UserModel.RunExtends | backend/models/User.js:89-105 | a run of consecutive days extends an unbroken streak by its length |
| UserModel.StreakScenario | backend/models/User.js:50-105 | from the initial stats, days D, D+1, D+4 give streaks 1, 2, 1 and longest 1, 2, 2 |
| UserModel.RecordQuiz | backend/routes/progress.js:155-161 | one more quiz taken; the new average is the nearest integer to (average·count + score)/(count+1), halves up; the streak counters and last study day are what the streak rule gives for today |
| UserModel.RecordQuizAverageBetween | backend/routes/progress.js:155-160 | the new rounded running average lies between the old average and the new score |
| UserModel.RecordQuizAverageInRange | backend/routes/progress.js:155-160 | an average and a score in [0, 100] give a new average in [0, 100] |
| StudySessionModel.CompleteSession | backend/models/StudySession.js:75-84 | completed becomes true; with an end time actual is the elapsed time rounded to minutes; without one a missing or zero actual falls back to planned and a non-zero one is kept; every other field is unchanged |
| StudySessionModel.ForwardClockNonNegative | backend/models/StudySession.js:76-78 | an end time at or after the start gives a non-negative duration |
| StudySessionModel.BackwardClockGoesNegative | backend/models/StudySession.js:76-78 | an end two minutes before the start gives −2: there is no clamp |
| StudySessionModel.CompleteIdempotent | backend/models/StudySession.js:75-84 | completing twice gives the same session as completing once |
| StudySessionModel.CompleteScenario | backend/models/StudySession.js:77-78 | 125 seconds round to 2 minutes |
| StudySessionModel.DurationDifference | backend/models/StudySession.js:87-92 | actual − planned when both are non-zero, otherwise 0 |
| StudySessionModel.FallbackHasNoDifference | backend/models/StudySession.js:79-92 | a session completed by the planned fallback has difference 0 |
| QuizResultModel.NumCorrect | backend/models/QuizResult.js:85-87 | the number of correct answers lies between 0 and the answer count |
| QuizResultModel.CorrectBounds | backend/models/QuizResult.js:84-87 | counting correct answers and counting answers give 0 <= correct <= asked = count |
| QuizResultModel.TopicTable | backend/models/QuizResult.js:71-93 | one entry per distinct topic ("General" for a missing one), in first-seen order, each counting exactly that topic's answers and correct answers with the rounded accuracy; every answer's topic appears; the asked counts sum to the answer count |
| QuizResultModel.TableAsked | backend/models/QuizResult.js:84 | the per-topic asked counts sum to the bucket totals |
| QuizResultModel.CalculateWeakTopics | backend/models/QuizResult.js:70-95 | the table sorted ascending by accuracy, ties kept in first-seen order, with distinct topics, correct counts, full coverage and asked counts summing to the answer count |
| QuizResultModel.WeakTopicBounds | backend/models/QuizResult.js:84-93 | each entry has 1 <= asked, 0 <= correct <= asked and accuracy in [0, 100] |
| QuizResultModel.RoundedAccuracyNotExact | backend/models/QuizResult.js:93 | 199 correct of 200 already report 100 percent |
| QuizResultModel.PreSave | backend/models/QuizResult.js:98-103 | only weak topics ever change; they are recomputed exactly for a new document with answers; otherwise the document is left as given |
| QuizResultModel.Save | backend/models/QuizResult.js:17-56 | saving succeeds exactly when totalQuestions, correctAnswers and timeSpent are present, score is in [0, 100] and difficulty is easy, medium or hard, and stores the pre-saved document |
| QuizResultModel.SavedTopicsWellFormed | backend/models/QuizResult.js:84-103 | saved weak topics always have 1 <= asked and correct <= asked |
| ProgressRoutes.StartStudy | backend/routes/progress.js:22-35 | saved exactly when the schema accepts the body; the session keeps the body's ids, title, type and day, planned = plannedDuration, starts now, topics default to [], has no notes or ratings, and is not yet complete |
| ProgressRoutes.FindType | backend/routes/progress.js:100-102 | `findIndex` on the type: the first session of that type, or −1 when none has it |
| ProgressRoutes.SyncSchedule | backend/routes/progress.js:96-107 | the intended carry-over: without a matching day and session type the plan is unchanged; with one it completes the first session of that type on the first day with that number |
| ProgressRoutes.SyncStore | backend/routes/progress.js:87-108 | the intended carry-over: only a truthy scheduledDay touches a plan, and then only the pair's first active plan |
| ProgressRoutes.DayZeroNeverSyncs | backend/routes/progress.js:87 | scheduled day 0 or none never changes any plan |
| ProgressRoutes.SyncKeepsOneActive | backend/routes/progress.js:88-105 | carrying a session over keeps at most one active plan per pair |
| ProgressRoutes.SyncAddsOneRecord | backend/routes/progress.js:96-104 | in the intended carry-over a match adds exactly one record, for that day, at the first session index of that type |
| ProgressRoutes.Finish | backend/routes/progress.js:70-74 | endTime is set to now before completion, so actual is the rounded wall-clock delta; notes and performance are replaced only when given |
| ProgressRoutes.ClockDecidesDuration | backend/routes/progress.js:70-71 | two sessions started at the same time get the same actual duration, whatever they held before |
| ProgressRoutes.CompleteStudyAsWritten | backend/routes/progress.js:64-125 | as written: not-found and save failures write nothing; otherwise the session and the user are saved, the plans never change, and the reply fails exactly when the day is truthy and the pair has an active plan |
| ProgressRoutes.AsWrittenLosesPlanUpdate | backend/routes/progress.js:87-125 | for a session logged against an existing plan slot, the route as written fails after saving and keeps the plan, while the intended route succeeds and adds the completion record |
| ProgressRoutes.CompleteStudy | backend/routes/progress.js:64-109 | the intended route: not-found exactly when no session; a save failure exactly when the finished session breaks the schema; otherwise the finished session, the streak update and the plan sync |
| ProgressRoutes.LongNotesRejected | backend/models/StudySession.js:49-52 | notes longer than 2000 characters make the save fail |
| ProgressRoutes.CompleteStudyKeepsOneActive | backend/routes/progress.js:86-109 | completing a study session keeps at most one active plan per pair |
| ProgressRoutes.FoldScore | backend/routes/progress.js:153-161 | with a user, one more quiz and the new average is round((avg·count + score)/(count+1)); with none, nothing |
| ProgressRoutes.SubmitQuiz | backend/routes/progress.js:141-164 | succeeds exactly when the document passes the schema, storing the pre-saved document and folding the score |
| ProgressRoutes.SubmitKeepsAverageInRange | backend/routes/progress.js:155-160 | a valid submission keeps a percentage average a percentage |
| ScheduleStartRoute.StartSession | backend/routes/scheduleProgress.js:12-25 | intended route: refused exactly when both values are falsy and neither is 0; not found exactly when there is no plan; an already started pair changes nothing; otherwise one record is appended and nothing else changes |
| ScheduleStartRoute.StartSessionAsWritten | backend/routes/scheduleProgress.js:12-28 | the route as written: the same refusals for missing fields and a missing plan; every request that reaches a plan fails, because `startedSessions` is undeclared, and nothing is saved |
| ScheduleStartRoute.AsWrittenNeverStarts | backend/routes/scheduleProgress.js:16-28 | wherever the intended route starts a session, the written one answers the failure and stores nothing; on every refusal before that the two agree |
| ScheduleStartRoute.OneValueSuffices | backend/routes/scheduleProgress.js:12-14 | one truthy value, or a 0, is enough to pass the check |
| ScheduleStartRoute.ValidationExamples | backend/routes/scheduleProgress.js:12 | day 0 passes; "" with null and false with undefined are refused |
| ScheduleStartRoute.StartIdempotent | backend/routes/scheduleProgress.js:19-23 | intended route: starting the same pair twice equals starting it once |
| ScheduleStartRoute.CompositeNeverDeduplicated | backend/routes/scheduleProgress.js:19 | intended route: an object or array day is never `===` an earlier one, so it is appended every time |
| ScheduleStartRoute.StartKeepsUnique | backend/routes/scheduleProgress.js:19-21 | intended route: at most one started record per (day, sessionIndex) is kept |
| ScheduleStore.Deactivate | backend/routes/progress.js:196-199 | every plan of the pair becomes inactive, other plans keep their flag, and nothing else changes |
| ScheduleStore.FindActive | backend/routes/progress.js:88-92 | `findOne`: the first active plan of the pair, or none |
| ScheduleStore.DeactivateThenInsert | backend/routes/progress.js:196-209 | deactivating and then inserting an active plan leaves it the pair's only active one |
| ScheduleStore.ReplaceKeepsOneActive | backend/routes/schedule.js:284-285 | replacing a plan by a no-more-active version of itself keeps the property |
| ScheduleStore.SaveFromProgress | backend/routes/progress.js:185-217 | deactivation always happens; the save fails exactly when a required string is empty; otherwise the new plan is appended with defaults and its status returned |
| ScheduleStore.SaveFromProgressKeepsOneActive | backend/routes/progress.js:196-209 | a successful save leaves at most one active plan per pair |
| ScheduleStore.SavedFromProgressIsEmpty | backend/routes/progress.js:201-215 | the saved plan, with its data dropped, reports nothing planned and no next session |
| ScheduleStore.MaterialIdFor | backend/routes/schedule.js:214 | a given material id is kept; an empty one becomes "material_" followed by the time |
| ScheduleStore.GeneratedSchedule | backend/routes/schedule.js:212-227 | the plan, study tips, milestones, total hours and days needed are the reply's, or [] and 0 when it has none; the title is the request's or "Untitled Material"; hours per day default to 2, difficulty to medium, learning style to balanced; a target date is kept exactly when it is truthy, so 0 is stored as null; fresh progress, active, started now |
| ScheduleStore.SaveGenerated | backend/routes/schedule.js:204-242 | without saveToDatabase nothing changes; otherwise the pair is deactivated and the document stored exactly when the user id is non-empty |
| ScheduleStore.SaveGeneratedKeepsOneActive | backend/routes/schedule.js:206-229 | with a given material id, saving keeps at most one active plan per pair |
| ScheduleStore.ReportedSavedAsWritten | backend/routes/schedule.js:254 | the reported savedToDatabase is true exactly when a save was requested |
| ScheduleStore.ReportedSavedOverstates | backend/routes/schedule.js:212-254 | a requested save with an empty user id fails but is reported as saved |
| ScheduleStore.ReportedSaved | backend/routes/schedule.js:254 | the intended flag: true exactly when the document was stored |
| ScheduleStore.ReportedSavedMeansStored | backend/routes/schedule.js:229-254 | with the intended flag, a reported save is the store's last document |
| ScheduleStore.CompleteRoute | backend/routes/schedule.js:270-292 | refused exactly when scheduleId is falsy or day or sessionIndex is undefined; not found exactly when no plan; otherwise the plan is completed in place and its status returned |
| ScheduleStore.CompleteRouteKeepsOneActive | backend/routes/schedule.js:284-285 | completing a slot keeps at most one active plan per pair |
| ScheduleStore.DayZeroAccepted | backend/routes/schedule.js:272 | day 0 passes the body check |
| ScheduleJson.IndexOf | backend/routes/schedule.js:148 | the first position of the character, or −1 exactly when it is absent |
| ScheduleJson.LastIndexOf | backend/routes/schedule.js:149 | the last position of the character, or −1 exactly when it is absent |
| ScheduleJson.ExtractObject | backend/routes/schedule.js:148-155 | fails exactly when the text lacks '{' or '}'; otherwise the slice from the first '{' to the last '}', which starts with '{' and ends with '}' when they are in that order |
| ScheduleJson.SliceFacts | backend/routes/schedule.js:155 | the slice starts with '{' and ends with '}', or holds no brace when the arguments are swapped |
| ScheduleJson.SwappedSliceExample | backend/routes/schedule.js:155 | "}5{" yields "5": substring swaps its arguments |
| ScheduleJson.ValidateSchedule | backend/routes/schedule.js:161-173 | each refusal holds exactly when its cause does: schedule missing or not an array, empty, a null first day, or a first day with no sessions array; a first day with a sessions array yields exactly the schedule's days |
| ScheduleJson.OnlyFirstDayChecked | backend/routes/schedule.js:170-173 | a later day without sessions passes |
| ScheduleJson.Spread | backend/routes/schedule.js:180-181 | an object spreads its own members; an array its items and a string its characters, each under its decimal index and only those keys; anything else nothing |
| ScheduleJson.StringDaySpreads | backend/routes/schedule.js:180-184 | the day "ab" at position 1 becomes `{"0": "a", "1": "b", date, day: 2}` |
| ScheduleJson.NormaliseDays | backend/routes/schedule.js:176-185 | same day count and order; each day number is the original if truthy, else index+1; each date likewise; every other member is what `{...day}` spreads |
| ScheduleJson.NormaliseDayFacts | backend/routes/schedule.js:180-184 | one normalised day holds what `{...day}` spreads (index keys for a string or array day) and gets a truthy number and a date |
| ScheduleJson.NormaliseIdempotent | backend/routes/schedule.js:176-185 | normalising twice changes nothing more |
| ScheduleJson.ParseReply | backend/routes/schedule.js:29-185 | a missing filePath is refused first; then no braces, an unparsable slice, each validation refusal and a null day each give their own error; when all pass the reply succeeds, and a success carries the validated days normalised and spread as above, with every other member kept |
| QuizResultsRoute.MissingFields | backend/routes/quizResults.js:11-17 | exactly the missing fields, each once, in the order userId, materialId, materialTitle, quizData, answers, timeSpent |
| QuizResultsRoute.Validate | backend/routes/quizResults.js:19-24 | accepted exactly when no field is missing; otherwise the message joins the missing names with ", " |
| QuizResultsRoute.ZeroTimeSpentAccepted | backend/routes/quizResults.js:17 | timeSpent 0 is not missing |
| QuizResultsRoute.EmptyAnswersAccepted | backend/routes/quizResults.js:16 | an empty answers array is truthy and passes |
| QuizResultsRoute.FalsyIdReported | backend/routes/quizResults.js:12 | "", 0, null, undefined and false user ids are all reported |
| QuizResultsRoute.EmptyBodyNamesAll | backend/routes/quizResults.js:11-17 | an empty body names all six fields in checking order |
| PdfText.CollapseSpace | backend/utils/pdfParser.js:31 | the same words (maximal non-space runs) as the input, single-spaced, starting and ending with a space exactly when the input starts and ends with white space, so each run became one space |
| PdfText.CollapseFixed | backend/utils/pdfParser.js:31 | an already single-spaced string is left alone |
| PdfText.NewlineRule | backend/utils/pdfParser.js:32 | never longer than the input; no two newlines are adjacent; the first character is a newline exactly when the input's is; a newline remains exactly when there was one; every other character is kept, in order |
| PdfText.NewlineRuleKeepsLines | backend/utils/pdfParser.js:32 | the result has the same lines (maximal newline-free runs) as the input, and ends in a newline exactly when the input does; with the facts above this fixes the result, so every run of newlines became exactly one |
| PdfText.NewlineRuleIdentity | backend/utils/pdfParser.js:32 | without a newline the rule changes nothing |
| PdfText.NoNewline | backend/utils/pdfParser.js:31-32 | a single-spaced string holds no newline |
| PdfText.TrimFacts | backend/utils/pdfParser.js:33 | trimming keeps every non-space character and keeps single spacing |
| PdfText.CleanText | backend/utils/pdfParser.js:29-34 | the input's words joined by single spaces: same words, single-spaced, no newline, no white space at either end, empty exactly when the input is all white space |
| PdfText.CleanIdempotent | backend/utils/pdfParser.js:29-34 | cleaning cleaned text changes nothing |
| PdfText.BlankCleansToEmpty | backend/utils/pdfParser.js:29-34 | a mix of spaces, tabs and newlines cleans to "" |
| QuizView.Next | frontend/src/components/Quiz.jsx:34-36 | stays in range; moves forward by one except on the last question, where it stays |
| QuizView.Previous | frontend/src/components/Quiz.jsx:38-40 | stays in range; moves back by one except on the first question, where it stays |
| QuizView.Select | frontend/src/components/Quiz.jsx:27-32 | records the answer for the current question and keeps every other selection |
| QuizView.SelectKeepsRange | frontend/src/components/Quiz.jsx:27-32 | selections only ever name questions of the quiz |
| QuizView.SubmitEnabledIffAllAnswered | frontend/src/components/Quiz.jsx:233 | submit is enabled exactly when every question has a selection |
| QuizView.CalculateScore | frontend/src/components/Quiz.jsx:42-48 | the score lies in [0, length]; it is the length exactly when every selection `===` its correct answer and 0 exactly when none does |
| QuizView.UserAnswer | frontend/src/components/Quiz.jsx:117 | `selected[i] \|\| null`: the selection when present and non-empty, otherwise null |
| QuizView.BuildAnswers | frontend/src/components/Quiz.jsx:116-127 | one record per question in order with questionNumber i+1; isCorrect iff a non-empty selection equals the correct answer; unanswered gives null and false; topic defaults to "General" |
| QuizView.ScoreAgrees | frontend/src/components/Quiz.jsx:42-74 | when no correct answer is "", the saved correct count equals the shown score |
| QuizView.EmptyCorrectAnswerDisagrees | frontend/src/components/Quiz.jsx:45-123 | a "" correct answer selected as "" scores 1 on screen but 0 in the saved record |
| QuizView.PayloadQuizData | frontend/src/components/Quiz.jsx:74-85 | totalQuestions is the length, correctAnswers the count of correct records, score is round(100·correct/length), and the backend accepts it |
| QuizView.SecondsSpent | frontend/src/components/Quiz.jsx:113 | `Math.floor(ms / 1000)`: whole seconds elapsed |
| QuizView.FlaggedFields | frontend/src/components/Quiz.jsx:64-66 | exactly the names whose value is null, undefined or an empty array, none when nothing is flagged |
| QuizView.NothingFlaggedForAQuiz | frontend/src/components/Quiz.jsx:53-66 | with the fallbacks and a non-empty quiz no field is flagged |
| QuizView.EmptyAnswersFlagged | frontend/src/components/Quiz.jsx:61-65 | an empty answers array is flagged |
| ScheduleView.FormatDuration | frontend/src/components/Schedule.jsx:77-81 | for m >= 0, 'h' appears iff m >= 60, 'm' iff m < 60 or there is a remainder, and a space iff both parts are shown |
| ScheduleView.FormatRoundTrip | frontend/src/components/Schedule.jsx:77-81 | reading the printed "Hh Mm", "Hh" or "Mm" back gives the minutes, so hours = ⌊m/60⌋ and mins = m mod 60 |
| ScheduleView.FormatInjective | frontend/src/components/Schedule.jsx:77-81 | different non-negative durations print differently |
| ScheduleView.FormatExamples | frontend/src/components/Schedule.jsx:80 | 0 → "0m", 90 → "1h 30m", 120 → "2h" |
| ScheduleView.NegativeLosesHours | frontend/src/components/Schedule.jsx:78-80 | −90 prints "-30m", like −30 |
| ScheduleView.TypeIcon | frontend/src/components/Schedule.jsx:67-70 | the books icon exactly for a string that is not a session type |
| ScheduleView.IconsDistinct | frontend/src/components/Schedule.jsx:68 | the four session types get four different icons |
| ScheduleView.PriorityColor | frontend/src/components/Schedule.jsx:72-75 | grey exactly for a priority other than high, medium or low |
| SummaryView.StripMarks | frontend/src/components/Summary.jsx:26 | every '#' and '*' is removed and nothing else |
| SummaryView.Classify | frontend/src/components/Summary.jsx:25-36 | heading iff the heading pattern matches; bullet iff not a heading and the trimmed line starts with '-' or '•'; a paragraph keeps the line; nothing iff the line is all white space |
| SummaryView.FormatSummary | frontend/src/components/Summary.jsx:21-37 | one slot per '\n'-separated line, in order |
| SummaryView.SlotsCoverText | frontend/src/components/Summary.jsx:22-23 | the lines join back to the summary |
| SummaryView.IndentedBulletKept | frontend/src/components/Summary.jsx:29-30 | an indented bullet keeps its indentation and marker |
| SummaryView.FirstColumnMarkerStripped | frontend/src/components/Summary.jsx:29-30 | a first-column marker and the white space after it go |
| SummaryView.HeadingAndBulletExclusive | frontend/src/components/Summary.jsx:25-31 | no line is both a heading and a bullet |
| Analytics.TotalWithin | backend/routes/analytics.js:51-53 | a sum of n values in [lo, hi] lies in [lo·n, hi·n] |
| Analytics.ZeroActualCountsPlanned | backend/routes/analytics.js:46 | a zero actual duration counts the planned one |
| Analytics.CompletedCount | backend/routes/analytics.js:49 | never more than the session count; all iff every session completed, 0 iff none |
| Analytics.AverageQuizScore | backend/routes/analytics.js:51-107 | 0 with no quizzes, otherwise round(sum/count), in [0, 100] when every score is |
| Analytics.AverageBounds | backend/routes/analytics.js:51-107 | scores in [0, 100] give an average in [0, 100] |
| Analytics.StudyTimeByDay | backend/routes/analytics.js:81-118 | one bucket per distinct date in first-seen order, each the minutes of that date's sessions, and the buckets sum to totalStudyTime |
| Analytics.DashTable | backend/routes/analytics.js:56-76 | one row per distinct topic over all quizzes' weak topics, each summing that topic's asked and correct counts with the rounded accuracy, listed in the order the topics first occur |
| Analytics.DashboardWeakTopics | backend/routes/analytics.js:71-78 | at most 5 rows, sorted ascending by accuracy, distinct topics, each a true sum, no dropped row weaker than a kept one, and rows of equal accuracy in the order their topics first occur |
| Analytics.AttemptsOf | backend/routes/analytics.js:148-170 | one attempt per answer with its topic ("General" default), correctness, time and the quiz date |
| Analytics.DetailedAnalysis | backend/routes/analytics.js:141-186 | over the newest 20 quizzes, one report per topic, sorted by accuracy: totalQuestions and accuracy from that topic's answers, needsReview iff 10·correct < 7·total, rounded average time, lastSeen the first mention's date, trend the last min(5, n) attempts; reports of equal accuracy in the order their topics first occur |

## Left out

- I/O and services: the model language calls, PDF extraction, uploads,
  Express request handling and Mongo persistence are plumbing. Their results
  are parameters (a reply string, a `parse` function, a found position).
- `JSON.parse` and the code-fence regexes before the brace slice
  (backend/routes/schedule.js:141-145,158) are modelled as a `parse`
  parameter over the sliced text; fence stripping is not modelled.
- Wall-clock and timezone arithmetic: local-midnight truncation, daylight
  saving days, `daysElapsed`, `daysAvailable` and per-day date strings. Days
  are integer day numbers; day dates come from a `dateFor` parameter.
- Floating point: fractional study hours (backend/routes/progress.js:81), the
  one-decimal hour rounding (backend/routes/analytics.js:104,117) and
  fractional numbers in general. All numbers are integers, and NaN is not
  modelled.
- Percentages in doubles: the source computes `Math.round((c / n) * 100)`,
  which rounds twice. The model rounds `100c/n` exactly, halves up. The two
  differ only where `100c/n` is exactly a half: 23 of 40 is 57.5, the double
  product is 57.49999999999999, and the source reports 57 where the model
  reports 58. The members below carry this difference.
- ScheduleModel.CompleteSession: percentComplete is the exact-rounding
  percentage, so on an exact half it can be one above the source's.
- QuizResultModel.CalculateWeakTopics: accuracy is the exact-rounding
  percentage, as above; the ordering by accuracy can differ with it.
- QuizView.PayloadQuizData: the score is the exact-rounding percentage, as
  above (23 of 40 gives 58 here and 57 in the source).
- Analytics.DashboardWeakTopics: accuracy is the exact-rounding percentage, as
  above, and it inherits the two key limitations of Analytics.DashTable.
- Inherited object keys: the topic folds test `if (!stats[topic])` on a plain
  object. For a topic named like an `Object.prototype` member ("constructor",
  "toString", "__proto__"…) that test finds the inherited value, so no entry
  is created, the counters are written onto the inherited object, and
  `Object.values` never lists the topic. The model treats every topic name as
  an ordinary key. The members below carry this difference.
- QuizResultModel.TopicTable: a topic with an inherited name gets no entry in
  the source, so its coverage and asked-count promises hold only for other
  names. Integer-like topic names ("2") are also listed first by
  `Object.values` in the source; the model keeps first-occurrence order for
  every name.
- QuizResultModel.TableAsked: the asked counts sum to the answer count only
  when no topic has an inherited name.
- QuizResultModel.CalculateWeakTopics: the same two key limitations as
  QuizResultModel.TopicTable apply.
- Analytics.DashTable: the same two key limitations apply; accuracy is the
  exact-rounding percentage.
- Analytics.DetailedAnalysis: the same two key limitations apply; for an
  inherited name the source's `recentTrend.push` throws and the route answers
  500. Accuracy is the exact-rounding percentage.
- ProgressRoutes.SyncSchedule: models the intended carry-over. As written, the
  route reads `schedule.scheduleData.schedule`
  (backend/routes/progress.js:96), which the plan schema does not define, so
  the read throws. ProgressRoutes.CompleteStudyAsWritten models that; see
  "## Findings".
- ProgressRoutes.SyncStore: the intended carry-over, as for
  ProgressRoutes.SyncSchedule; the route as written never changes a plan.
- ProgressRoutes.SyncAddsOneRecord: holds for the intended carry-over; the
  route as written adds no record.
- ProgressRoutes.CompleteStudy: the intended route. As written, a truthy day
  with an active plan ends in a 500 after both saves
  (ProgressRoutes.CompleteStudyAsWritten).
- QuizResultModel.Save: a body with no `quizData` at all, or with no score, is
  not representable. The score is a number and the difficulty a string, where
  "" stands for a missing one and is rejected.
- ProgressRoutes.SubmitQuiz: the same representation limit as
  QuizResultModel.Save applies.
- ScheduleStartRoute.StartSession: models the intended start. As written,
  `schedule.progress.startedSessions` (backend/routes/scheduleProgress.js:19)
  names a path the plan schema does not declare, so `.some` throws and the
  route answers 500; ScheduleStartRoute.StartSessionAsWritten models that.
- ScheduleStartRoute.StartIdempotent: holds of the intended start only; the
  route as written stores no start record.
- ScheduleStartRoute.CompositeNeverDeduplicated: holds of the intended start
  only, as above.
- ScheduleStartRoute.StartKeepsUnique: holds of the intended start only, as
  above.
- ScheduleStore.SaveFromProgress: body values that Mongoose cannot cast to
  the schema's types (a non-numeric `availableHoursPerDay`, say) make
  `save()` reject. The model's settings are typed, so only empty required
  strings fail here.
- ScheduleStore.SaveGenerated: generated values that Mongoose cannot cast
  (`"duration": "60 min"`, `"day": "one"`, an unparseable `targetDate`) make
  `save()` reject, and the rejection is swallowed like the empty user id. The
  model's plan and dates are typed, so only an empty user id fails here.
- ScheduleJson.Spread: a string spreads one key per UTF-16 code unit in
  JavaScript and one per character here; they differ for characters outside
  the Basic Multilingual Plane.
- ScheduleJson.NormaliseDays: the same code-unit difference as
  ScheduleJson.Spread applies to string days.
- ScheduleModel.Progress: `startedSessions` is not declared by the schema
  (backend/models/Schedule.js:52-69). It is modelled as an extra list.
- ScheduleModel.CompleteSession: requires a plan with at least one session.
  The source divides by the session total with no guard.
- ScheduleStore.CompleteRoute: a non-number day or index, and a plan without
  sessions, end in `OutsideModel`. Mongoose casting and division by zero are
  not modelled.
- ScheduleStore.SaveFromProgress: an absent `materialId` or title is modelled
  as "".
- ScheduleStore.SaveGenerated: `User.getOrCreate` is not defined by the user
  model, so the stats update after the save is not modelled. Its failure is
  swallowed after the document is stored.
- Concurrency: racing read-modify-write cycles on one plan are not modelled.
- QuizResultsRoute.Validate: the document built from the raw body after
  validation is not modelled.
- QuizView.BuildAnswers: a question with no `correctAnswer` (undefined) is
  not modelled. Questions carry strings.
- QuizView.CheckedFields: material id and title props are strings; other
  prop types are not modelled. Each random fallback is a separate `Draw`.
- ScheduleView.TypeIcon: JavaScript's inherited prototype keys
  (`icons["toString"]`) are not modelled.
- ScheduleView.PriorityColor: the same inherited-key limitation applies.
- Rendering: JSX, hooks, the dashboard charts and the app wiring are left out.

## Findings

| source | as written | input that shows it | evidently intended | confidence | as-written member | corrected member |
|---|---|---|---|---|---|---|
| backend/routes/progress.js:87-125 | the carry-over reads `schedule.scheduleData.schedule`, a path the plan schema lacks, so it throws; the catch answers 500 after the session and user saves, and the plan is never updated | a session with `scheduledDay: 1` whose user and material have an active plan | find the day in the plan's `schedule` and complete the matching slot | not executed | ProgressRoutes.CompleteStudyAsWritten | ProgressRoutes.CompleteStudy |
| backend/routes/scheduleProgress.js:19-21 | `schedule.progress.startedSessions.some(...)` reads a path the plan schema does not declare, so it throws; the catch answers 500 and no start is ever recorded | `day: 1, sessionIndex: 0` for any existing plan | declare `startedSessions` in the progress schema, then skip or append the start record | not executed | ScheduleStartRoute.StartSessionAsWritten | ScheduleStartRoute.StartSession |
| backend/routes/schedule.js:212-254 | `savedToDatabase: !!savedSchedule` is true once the document object is built, even when its save then fails and the error is swallowed | `saveToDatabase` true with `userId: ""` (the schema's `required` rejects it) | report a save only when the document was stored | not executed | ScheduleStore.ReportedSavedAsWritten | ScheduleStore.ReportedSaved |

=== FILE: analytics.dfy ===
/**
 * The analytics folds (backend/routes/analytics.js): the dashboard's totals,
 * its per-date study-time buckets and its top-five weak topics, and the
 * detailed per-topic analysis of the newest quizzes. The queries' results
 * arrive as sequences already in the order the queries sort them (newest first).
 */
module Analytics {
  import opened Js
  import opened Grouping
  import opened StableSort
  import Study = StudySessionModel
  import Q = QuizResultModel

  function Min(a: int, b: int): int {
    if a <= b then a else b
  }

  /** Every weight of `s` lies between `lo` and `hi`, so their sum lies between `lo` and `hi` times the length. */
  lemma {:induction false} TotalWithin<V>(s: seq<V>, w: V -> int, lo: int, hi: int)
    requires forall i :: 0 <= i < |s| ==> lo <= w(s[i]) <= hi
    ensures lo * |s| <= Total(s, w) <= hi * |s|
  {
    if |s| > 0 {
      var p := s[..|s| - 1];
      assert forall i :: 0 <= i < |p| ==> p[i] == s[i];
      TotalWithin(p, w, lo, hi);
    }
  }

  // ---------------------------------------------------------------
  // Dashboard totals
  // ---------------------------------------------------------------

  /** A logged session and the `YYYY-MM-DD` date of its creation. */
  datatype Logged = Logged(session: Study.StudySession, date: string)

  /** `duration.actual || duration.planned || 0`: the minutes a session counts for. */
  function Minutes(l: Logged): int {
    if Study.HasActual(l.session) then l.session.actual.value else l.session.planned
  }

  /** `sessions.reduce((sum, s) => sum + minutes(s), 0)`. */
  function TotalStudyTime(sessions: seq<Logged>): int {
    Total(sessions, Minutes)
  }

  /** A recorded duration of 0 counts as the planned duration. */
  lemma ZeroActualCountsPlanned(l: Logged)
    requires l.session.actual == Some(0)
    ensures Minutes(l) == l.session.planned
  {
  }

  /** `sessions.filter(s => s.completed).length`. */
  function CompletedCount(sessions: seq<Logged>): (n: nat)
    ensures n <= |sessions|
    ensures n == |sessions| <==> forall i :: 0 <= i < |sessions| ==> sessions[i].session.completed
    ensures n == 0 <==> forall i :: 0 <= i < |sessions| ==> !sessions[i].session.completed
  {
    if |sessions| == 0 then 0
    else
      var p := sessions[..|sessions| - 1];
      var n := CompletedCount(p);
      assert forall i :: 0 <= i < |p| ==> p[i] == sessions[i];
      n + if sessions[|sessions| - 1].session.completed then 1 else 0
  }

  function Score(q: Q.QuizDoc): int {
    q.quizData.score
  }

  /** `Math.round(sum of scores / count)`, or 0 without quizzes. */
  function AverageQuizScore(quizzes: seq<Q.QuizDoc>): (a: int)
    ensures |quizzes| == 0 ==> a == 0
    ensures |quizzes| > 0 ==>
      2 * |quizzes| * a <= 2 * Total(quizzes, Score) + |quizzes| < 2 * |quizzes| * (a + 1)
    ensures (forall i :: 0 <= i < |quizzes| ==> 0 <= Score(quizzes[i]) <= 100) ==> 0 <= a <= 100
  {
    if |quizzes| == 0 then 0
    else
      AverageBounds(quizzes);
      RoundDiv(Total(quizzes, Score), |quizzes|)
  }

  lemma AverageBounds(quizzes: seq<Q.QuizDoc>)
    requires |quizzes| > 0
    ensures (forall i :: 0 <= i < |quizzes| ==> 0 <= Score(quizzes[i]) <= 100) ==>
      0 <= RoundDiv(Total(quizzes, Score), |quizzes|) <= 100
  {
    if forall i :: 0 <= i < |quizzes| ==> 0 <= Score(quizzes[i]) <= 100 {
      TotalWithin(quizzes, Score, 0, 100);
      RoundDivBetween(Total(quizzes, Score), |quizzes|, 0, 100);
    }
  }

  // ---------------------------------------------------------------
  // Study time by day
  // ---------------------------------------------------------------

  datatype DayTotal = DayTotal(date: string, minutes: int)

  function DateOf(l: Logged): string {
    l.date
  }

  function DayDate(d: DayTotal): string {
    d.date
  }

  function DayMinutes(d: DayTotal): int {
    d.minutes
  }

  /**
   * `studyTimeByDay` as `Object.entries` lists it: one entry per distinct date,
   * in the order the dates first occur, each holding that date's minutes; the
   * entries add up to the dashboard's total study time.
   */
  function StudyTimeByDay(sessions: seq<Logged>): (r: seq<DayTotal>)
    ensures DistinctBy(r, DayDate)
    ensures forall i :: 0 <= i < |r| ==>
      Select(sessions, DateOf, r[i].date) != [] && r[i].minutes == Total(Select(sessions, DateOf, r[i].date), Minutes)
    ensures forall j :: 0 <= j < |sessions| ==> sessions[j].date in Project(r, DayDate)
    ensures forall i, j :: 0 <= i < j < |r| ==>
      FirstPos(sessions, DateOf, r[i].date) < FirstPos(sessions, DateOf, r[j].date)
    ensures Total(r, DayMinutes) == TotalStudyTime(sessions)
  {
    var g := GroupBy(sessions, DateOf);
    var r := DayTotals(g);
    ByDayFacts(sessions, g, r);
    MappedTotal(g, r, Minutes, DayMinutes);
    GroupByTotal(sessions, DateOf, Minutes);
    r
  }

  function DayTotals(g: seq<Group<string, Logged>>): (r: seq<DayTotal>)
    ensures |r| == |g| && forall i :: 0 <= i < |g| ==> r[i] == DayTotal(g[i].key, Total(g[i].items, Minutes))
  {
    seq(|g|, i requires 0 <= i < |g| => DayTotal(g[i].key, Total(g[i].items, Minutes)))
  }

  lemma ByDayFacts(sessions: seq<Logged>, g: seq<Group<string, Logged>>, r: seq<DayTotal>)
    requires Buckets(sessions, DateOf, g) && r == DayTotals(g)
    ensures DistinctBy(r, DayDate)
    ensures forall i :: 0 <= i < |r| ==>
      Select(sessions, DateOf, r[i].date) != [] && r[i].minutes == Total(Select(sessions, DateOf, r[i].date), Minutes)
    ensures forall j :: 0 <= j < |sessions| ==> sessions[j].date in Project(r, DayDate)
    ensures forall i, j :: 0 <= i < j < |r| ==>
      FirstPos(sessions, DateOf, r[i].date) < FirstPos(sessions, DateOf, r[j].date)
  {
    ByDayDistinct(sessions, g, r);
    ByDaySums(sessions, g, r);
    ByDayCovers(sessions, g, r);
    ByDayOrder(sessions, g, r);
  }

  lemma ByDayDistinct(sessions: seq<Logged>, g: seq<Group<string, Logged>>, r: seq<DayTotal>)
    requires Buckets(sessions, DateOf, g) && r == DayTotals(g)
    ensures DistinctBy(r, DayDate)
  {
    forall i, j | 0 <= i < j < |r| ensures r[i].date != r[j].date {
      assert g[i].key != g[j].key;
    }
  }

  lemma ByDaySums(sessions: seq<Logged>, g: seq<Group<string, Logged>>, r: seq<DayTotal>)
    requires Buckets(sessions, DateOf, g) && r == DayTotals(g)
    ensures forall i :: 0 <= i < |r| ==>
      Select(sessions, DateOf, r[i].date) != [] && r[i].minutes == Total(Select(sessions, DateOf, r[i].date), Minutes)
  {
    forall i | 0 <= i < |r|
      ensures Select(sessions, DateOf, r[i].date) != [] && r[i].minutes == Total(Select(sessions, DateOf, r[i].date), Minutes)
    {
      assert g[i].items == Select(sessions, DateOf, g[i].key) && g[i].items != [];
    }
  }

  lemma ByDayCovers(sessions: seq<Logged>, g: seq<Group<string, Logged>>, r: seq<DayTotal>)
    requires Buckets(sessions, DateOf, g) && r == DayTotals(g)
    ensures forall j :: 0 <= j < |sessions| ==> sessions[j].date in Project(r, DayDate)
  {
    forall j | 0 <= j < |sessions| ensures sessions[j].date in Project(r, DayDate) {
      assert DateOf(sessions[j]) in Keys(g);
      var m :| 0 <= m < |g| && Keys(g)[m] == DateOf(sessions[j]);
      assert Project(r, DayDate)[m] == sessions[j].date;
    }
  }

  lemma ByDayOrder(sessions: seq<Logged>, g: seq<Group<string, Logged>>, r: seq<DayTotal>)
    requires Buckets(sessions, DateOf, g) && r == DayTotals(g)
    ensures forall i, j :: 0 <= i < j < |r| ==>
      FirstPos(sessions, DateOf, r[i].date) < FirstPos(sessions, DateOf, r[j].date)
  {
    forall i, j | 0 <= i < j < |r|
      ensures FirstPos(sessions, DateOf, r[i].date) < FirstPos(sessions, DateOf, r[j].date)
    {
      assert FirstPos(sessions, DateOf, g[i].key) < FirstPos(sessions, DateOf, g[j].key);
    }
  }

  // ---------------------------------------------------------------
  // Dashboard weak topics
  // ---------------------------------------------------------------

  /** Every quiz's weak-topic entries, quiz by quiz, in order. */
  function AllWeakTopics(quizzes: seq<Q.QuizDoc>): seq<Q.TopicStat> {
    if |quizzes| == 0 then [] else AllWeakTopics(quizzes[..|quizzes| - 1]) + quizzes[|quizzes| - 1].weakTopics
  }

  /** Every stored quiz's entries are well formed (the pre-save hook guarantees it). */
  predicate AllWellFormed(quizzes: seq<Q.QuizDoc>) {
    forall i :: 0 <= i < |quizzes| ==> Q.WellFormedTopics(quizzes[i].weakTopics)
  }

  lemma {:induction false} FlattenWellFormed(quizzes: seq<Q.QuizDoc>)
    requires AllWellFormed(quizzes)
    ensures Q.WellFormedTopics(AllWeakTopics(quizzes))
  {
    if |quizzes| > 0 {
      var p := quizzes[..|quizzes| - 1];
      FlattenWellFormed(p);
      var a: seq<Q.TopicStat> := AllWeakTopics(p);
      var b: seq<Q.TopicStat> := quizzes[|quizzes| - 1].weakTopics;
      var ab := a + b;
      forall i | 0 <= i < |ab| ensures 1 <= ab[i].questionsAsked && ab[i].questionsCorrect <= ab[i].questionsAsked {
        if i >= |a| {
          assert ab[i] == b[i - |a|];
        } else {
          assert ab[i] == a[i];
        }
      }
    }
  }

  function Correct(t: Q.TopicStat): int {
    t.questionsCorrect
  }

  /** A dashboard entry: summed counts across quizzes, and the accuracy they give. */
  datatype DashTopic = DashTopic(topic: string, accuracy: int, questionsAsked: int)

  function DashName(d: DashTopic): string {
    d.topic
  }

  function DashAccuracy(d: DashTopic): int {
    d.accuracy
  }

  /** `d` sums every entry for its topic: asked and correct added up, accuracy rounded from the sums. */
  predicate Summarises(flat: seq<Q.TopicStat>, d: DashTopic) {
    var mine := Select(flat, Q.TopicName, d.topic);
    && mine != []
    && d.questionsAsked == Total(mine, Q.Asked) > 0
    && d.accuracy == Percent(Total(mine, Correct), d.questionsAsked)
  }

  /** Well-formed entries ask at least one question each, so a bucket asks at least as many questions as it has entries. */
  lemma {:induction false} AskedAtLeastEntries(items: seq<Q.TopicStat>)
    requires Q.WellFormedTopics(items)
    ensures Total(items, Q.Asked) >= |items|
  {
    if |items| > 0 {
      var p := items[..|items| - 1];
      assert Q.WellFormedTopics(p) by {
        forall i | 0 <= i < |p| ensures 1 <= p[i].questionsAsked && p[i].questionsCorrect <= p[i].questionsAsked {
          assert p[i] == items[i];
        }
      }
      AskedAtLeastEntries(p);
    }
  }

  /** Every entry of a bucket drawn from well-formed entries is well formed. */
  lemma BucketWellFormed(flat: seq<Q.TopicStat>, k: string)
    requires Q.WellFormedTopics(flat)
    ensures Q.WellFormedTopics(Select(flat, Q.TopicName, k))
  {
    var mine := Select(flat, Q.TopicName, k);
    SelectMembers(flat, Q.TopicName, k);
    forall i | 0 <= i < |mine| ensures 1 <= mine[i].questionsAsked && mine[i].questionsCorrect <= mine[i].questionsAsked {
      assert mine[i] in flat;
    }
  }

  /** One dashboard row from one topic's bucket. */
  function DashOf(g: Group<string, Q.TopicStat>): (d: DashTopic)
    requires g.items != [] && Q.WellFormedTopics(g.items)
    ensures d.topic == g.key && d.questionsAsked > 0
  {
    AskedAtLeastEntries(g.items);
    var asked := Total(g.items, Q.Asked);
    DashTopic(g.key, Percent(Total(g.items, Correct), asked), asked)
  }

  function DashRows(g: seq<Group<string, Q.TopicStat>>): (u: seq<DashTopic>)
    requires forall i :: 0 <= i < |g| ==> g[i].items != [] && Q.WellFormedTopics(g[i].items)
    ensures |u| == |g| && forall i :: 0 <= i < |g| ==> u[i] == DashOf(g[i])
  {
    seq(|g|, i requires 0 <= i < |g| => DashOf(g[i]))
  }

  /** `Object.values(allWeakTopics).map(...)` before sorting: one row per topic, sums across every quiz. */
  function DashTable(quizzes: seq<Q.QuizDoc>): (u: seq<DashTopic>)
    requires AllWellFormed(quizzes)
    ensures DistinctBy(u, DashName)
    ensures forall i :: 0 <= i < |u| ==> Summarises(AllWeakTopics(quizzes), u[i])
    ensures forall j :: 0 <= j < |AllWeakTopics(quizzes)| ==> AllWeakTopics(quizzes)[j].topic in Project(u, DashName)
    ensures forall i, j :: 0 <= i < j < |u| ==>
      FirstPos(AllWeakTopics(quizzes), Q.TopicName, u[i].topic) < FirstPos(AllWeakTopics(quizzes), Q.TopicName, u[j].topic)
  {
    var flat := AllWeakTopics(quizzes);
    FlattenWellFormed(quizzes);
    var g := GroupBy(flat, Q.TopicName);
    forall i | 0 <= i < |g| ensures g[i].items != [] && Q.WellFormedTopics(g[i].items) {
      BucketWellFormed(flat, g[i].key);
    }
    var u := DashRows(g);
    DashFacts(flat, g, u);
    u
  }

  lemma DashFacts(flat: seq<Q.TopicStat>, g: seq<Group<string, Q.TopicStat>>, u: seq<DashTopic>)
    requires Buckets(flat, Q.TopicName, g)
    requires forall i :: 0 <= i < |g| ==> g[i].items != [] && Q.WellFormedTopics(g[i].items)
    requires u == DashRows(g)
    ensures DistinctBy(u, DashName)
    ensures forall i :: 0 <= i < |u| ==> Summarises(flat, u[i])
    ensures forall j :: 0 <= j < |flat| ==> flat[j].topic in Project(u, DashName)
    ensures forall i, j :: 0 <= i < j < |u| ==> FirstPos(flat, Q.TopicName, u[i].topic) < FirstPos(flat, Q.TopicName, u[j].topic)
  {
    DashDistinct(flat, g, u);
    forall i, j | 0 <= i < j < |u| ensures FirstPos(flat, Q.TopicName, u[i].topic) < FirstPos(flat, Q.TopicName, u[j].topic) {
      assert FirstPos(flat, Q.TopicName, g[i].key) < FirstPos(flat, Q.TopicName, g[j].key);
    }
    forall i | 0 <= i < |u| ensures Summarises(flat, u[i]) {
      assert g[i].items == Select(flat, Q.TopicName, g[i].key);
    }
    DashCovers(flat, g, u);
  }

  lemma DashDistinct(flat: seq<Q.TopicStat>, g: seq<Group<string, Q.TopicStat>>, u: seq<DashTopic>)
    requires Buckets(flat, Q.TopicName, g)
    requires forall i :: 0 <= i < |g| ==> g[i].items != [] && Q.WellFormedTopics(g[i].items)
    requires u == DashRows(g)
    ensures DistinctBy(u, DashName)
  {
    forall i, j | 0 <= i < j < |u| ensures u[i].topic != u[j].topic {
      assert g[i].key != g[j].key;
    }
  }

  lemma DashCovers(flat: seq<Q.TopicStat>, g: seq<Group<string, Q.TopicStat>>, u: seq<DashTopic>)
    requires Buckets(flat, Q.TopicName, g)
    requires forall i :: 0 <= i < |g| ==> g[i].items != [] && Q.WellFormedTopics(g[i].items)
    requires u == DashRows(g)
    ensures forall j :: 0 <= j < |flat| ==> flat[j].topic in Project(u, DashName)
  {
    forall j | 0 <= j < |flat| ensures flat[j].topic in Project(u, DashName) {
      assert Q.TopicName(flat[j]) in Keys(g);
      var m :| 0 <= m < |g| && Keys(g)[m] == Q.TopicName(flat[j]);
      assert Project(u, DashName)[m] == flat[j].topic;
    }
  }

  const TOP_WEAK := 5

  /** Rows of equal accuracy appear in the order their topics first occur among the quizzes' weak topics. */
  predicate DashTiesInFirstSeenOrder(flat: seq<Q.TopicStat>, r: seq<DashTopic>) {
    forall i, j :: 0 <= i < j < |r| && r[i].accuracy == r[j].accuracy ==>
      FirstPos(flat, Q.TopicName, r[i].topic) < FirstPos(flat, Q.TopicName, r[j].topic)
  }

  /**
   * The dashboard's weak topics: the rows sorted ascending by accuracy and cut
   * to the first five, so every topic left out is at least as accurate as
   * every topic shown.
   */
  function DashboardWeakTopics(quizzes: seq<Q.QuizDoc>): (r: seq<DashTopic>)
    requires AllWellFormed(quizzes)
    ensures |r| == Min(TOP_WEAK, |DashTable(quizzes)|)
    ensures SortedBy(r, DashAccuracy)
    ensures DistinctBy(r, DashName)
    ensures forall i :: 0 <= i < |r| ==> Summarises(AllWeakTopics(quizzes), r[i])
    ensures forall t :: t in DashTable(quizzes) && t !in r ==> forall i :: 0 <= i < |r| ==> r[i].accuracy <= t.accuracy
    ensures |DashTable(quizzes)| <= TOP_WEAK ==> multiset(r) == multiset(DashTable(quizzes))
    ensures DashTiesInFirstSeenOrder(AllWeakTopics(quizzes), r)
  {
    var u := DashTable(quizzes);
    var sorted := SortBy(u, DashAccuracy);
    SortKeepsDistinct(u, DashAccuracy, DashName);
    var r := sorted[..Min(TOP_WEAK, |sorted|)];
    TopFacts(AllWeakTopics(quizzes), u, sorted, r);
    DashTies(AllWeakTopics(quizzes), u, r);
    r
  }

  /** The sort is stable, so rows that tie keep the table's first-seen order, also in the cut. */
  lemma DashTies(flat: seq<Q.TopicStat>, u: seq<DashTopic>, r: seq<DashTopic>)
    requires forall i, j :: 0 <= i < j < |u| ==> FirstPos(flat, Q.TopicName, u[i].topic) < FirstPos(flat, Q.TopicName, u[j].topic)
    requires r == SortBy(u, DashAccuracy)[..Min(TOP_WEAK, |u|)]
    ensures DashTiesInFirstSeenOrder(flat, r)
  {
    var rank := (t: DashTopic) => FirstPos(flat, Q.TopicName, t.topic);
    SortTiesRanked(u, DashAccuracy, rank);
    var sorted := SortBy(u, DashAccuracy);
    assert TiesRanked(sorted, DashAccuracy, rank);
    forall i, j | 0 <= i < j < |r| && r[i].accuracy == r[j].accuracy
      ensures FirstPos(flat, Q.TopicName, r[i].topic) < FirstPos(flat, Q.TopicName, r[j].topic)
    {
      assert r[i] == sorted[i] && r[j] == sorted[j];
      assert DashAccuracy(sorted[i]) == DashAccuracy(sorted[j]);
      assert rank(sorted[i]) < rank(sorted[j]);
    }
  }

  lemma TopFacts(flat: seq<Q.TopicStat>, u: seq<DashTopic>, sorted: seq<DashTopic>, r: seq<DashTopic>)
    requires forall i :: 0 <= i < |u| ==> Summarises(flat, u[i])
    requires SortedBy(sorted, DashAccuracy) && multiset(sorted) == multiset(u) && DistinctBy(sorted, DashName)
    requires |sorted| == |u| && r == sorted[..Min(TOP_WEAK, |sorted|)]
    ensures SortedBy(r, DashAccuracy) && DistinctBy(r, DashName)
    ensures forall i :: 0 <= i < |r| ==> Summarises(flat, r[i])
    ensures forall t :: t in u && t !in r ==> forall i :: 0 <= i < |r| ==> r[i].accuracy <= t.accuracy
    ensures |u| <= TOP_WEAK ==> multiset(r) == multiset(u)
  {
    forall i | 0 <= i < |r| ensures Summarises(flat, r[i]) {
      assert r[i] == sorted[i];
      assert r[i] in multiset(u);
    }
    forall t | t in u && t !in r ensures forall i :: 0 <= i < |r| ==> r[i].accuracy <= t.accuracy {
      assert t in multiset(sorted);
      DroppedNoWeaker(sorted, r, t);
    }
    if |u| <= TOP_WEAK {
      assert r == sorted;
    }
  }

  /** A row the cut drops sits after every kept row, so it is at least as accurate. */
  lemma DroppedNoWeaker(sorted: seq<DashTopic>, r: seq<DashTopic>, t: DashTopic)
    requires SortedBy(sorted, DashAccuracy) && r == sorted[..Min(TOP_WEAK, |sorted|)]
    requires t in sorted && t !in r
    ensures forall i :: 0 <= i < |r| ==> r[i].accuracy <= t.accuracy
  {
    var m :| 0 <= m < |sorted| && sorted[m] == t;
    assert m >= |r|;
    forall i | 0 <= i < |r| ensures r[i].accuracy <= t.accuracy {
      assert r[i] == sorted[i];
      assert DashAccuracy(sorted[i]) <= DashAccuracy(sorted[m]);
    }
  }

  // ---------------------------------------------------------------
  // Detailed topic analysis
  // ---------------------------------------------------------------

  /** One answer as the detailed analysis sees it, with its quiz's completion time. */
  datatype Attempt = Attempt(topic: string, correct: bool, timeTaken: int, date: int)

  /** A quiz's answers as attempts, topics defaulted to "General". */
  function AttemptsOf(q: Q.QuizDoc): (r: seq<Attempt>)
    ensures |r| == |q.answers|
    ensures forall i :: 0 <= i < |r| ==>
      r[i] == Attempt(Q.TopicOf(q.answers[i]), q.answers[i].isCorrect, q.answers[i].timeTaken, q.completedAt)
  {
    seq(|q.answers|, i requires 0 <= i < |q.answers| =>
      Attempt(Q.TopicOf(q.answers[i]), q.answers[i].isCorrect, q.answers[i].timeTaken, q.completedAt))
  }

  /** Every answer of every quiz, quiz by quiz. */
  function Attempts(quizzes: seq<Q.QuizDoc>): seq<Attempt> {
    if |quizzes| == 0 then [] else Attempts(quizzes[..|quizzes| - 1]) + AttemptsOf(quizzes[|quizzes| - 1])
  }

  const QUIZ_LIMIT := 20
  const TREND_LENGTH := 5

  /** `.limit(20)` on the newest-first query. */
  function Recent(quizzes: seq<Q.QuizDoc>): seq<Q.QuizDoc> {
    quizzes[..Min(QUIZ_LIMIT, |quizzes|)]
  }

  function AttemptTopic(a: Attempt): string {
    a.topic
  }

  function AttemptPoint(a: Attempt): int {
    if a.correct then 1 else 0
  }

  function AttemptTime(a: Attempt): int {
    a.timeTaken
  }

  datatype TrendPoint = TrendPoint(date: int, correct: bool)

  datatype TopicReport = TopicReport(
    topic: string,
    accuracy: int,
    totalQuestions: int,
    averageTimeTaken: int,
    needsReview: bool,
    lastSeen: int,
    trend: seq<TrendPoint>)

  function ReportAccuracy(e: TopicReport): int {
    e.accuracy
  }

  function ReportName(e: TopicReport): string {
    e.topic
  }

  function Trend(items: seq<Attempt>): (t: seq<TrendPoint>)
    ensures |t| == |items| && forall i :: 0 <= i < |items| ==> t[i] == TrendPoint(items[i].date, items[i].correct)
  {
    seq(|items|, i requires 0 <= i < |items| => TrendPoint(items[i].date, items[i].correct))
  }

  /** One topic's report from its bucket: `recentTrend.slice(-5)` keeps the last five attempts. */
  function ReportOf(g: Group<string, Attempt>): TopicReport
    requires g.items != []
  {
    var n := |g.items|;
    var c := Total(g.items, AttemptPoint);
    TopicReport(g.key, Percent(c, n), n, RoundDiv(Total(g.items, AttemptTime), n), 10 * c < 7 * n,
      g.items[0].date, Trend(g.items[n - Min(TREND_LENGTH, n)..]))
  }

  /**
   * `e` is what the attempts say about its topic: the count, the rounded accuracy,
   * review needed exactly when under 70 percent are right, the date of the first
   * (newest) attempt, and the last five attempts in fold order.
   */
  predicate Reports(attempts: seq<Attempt>, e: TopicReport) {
    var mine := Select(attempts, AttemptTopic, e.topic);
    var n := |mine|;
    var c := Total(mine, AttemptPoint);
    && n >= 1 && e.totalQuestions == n
    && e.accuracy == Percent(c, n)
    && (e.needsReview <==> 10 * c < 7 * n)
    && e.averageTimeTaken == RoundDiv(Total(mine, AttemptTime), n)
    && FirstPos(attempts, AttemptTopic, e.topic) < |attempts|
    && e.lastSeen == attempts[FirstPos(attempts, AttemptTopic, e.topic)].date
    && |e.trend| == Min(TREND_LENGTH, n)
    && forall k :: 0 <= k < |e.trend| ==>
         e.trend[k] == TrendPoint(mine[n - |e.trend| + k].date, mine[n - |e.trend| + k].correct)
  }

  function ReportRows(g: seq<Group<string, Attempt>>): (u: seq<TopicReport>)
    requires forall i :: 0 <= i < |g| ==> g[i].items != []
    ensures |u| == |g| && forall i :: 0 <= i < |g| ==> u[i] == ReportOf(g[i])
  {
    seq(|g|, i requires 0 <= i < |g| => ReportOf(g[i]))
  }

  lemma ReportOfReports(attempts: seq<Attempt>, g: Group<string, Attempt>)
    requires g.items != [] && g.items == Select(attempts, AttemptTopic, g.key)
    ensures Reports(attempts, ReportOf(g))
  {
    SelectHead(attempts, AttemptTopic, g.key);
  }

  lemma ReportFacts(attempts: seq<Attempt>, g: seq<Group<string, Attempt>>, u: seq<TopicReport>)
    requires Buckets(attempts, AttemptTopic, g) && u == ReportRows(g)
    ensures DistinctBy(u, ReportName)
    ensures forall i :: 0 <= i < |u| ==> Reports(attempts, u[i])
    ensures forall j :: 0 <= j < |attempts| ==> attempts[j].topic in Project(u, ReportName)
    ensures forall i, j :: 0 <= i < j < |u| ==> FirstPos(attempts, AttemptTopic, u[i].topic) < FirstPos(attempts, AttemptTopic, u[j].topic)
  {
    ReportDistinct(attempts, g, u);
    forall i, j | 0 <= i < j < |u| ensures FirstPos(attempts, AttemptTopic, u[i].topic) < FirstPos(attempts, AttemptTopic, u[j].topic) {
      assert FirstPos(attempts, AttemptTopic, g[i].key) < FirstPos(attempts, AttemptTopic, g[j].key);
    }
    forall i | 0 <= i < |u| ensures Reports(attempts, u[i]) {
      ReportOfReports(attempts, g[i]);
    }
    ReportCovers(attempts, g, u);
  }

  lemma ReportDistinct(attempts: seq<Attempt>, g: seq<Group<string, Attempt>>, u: seq<TopicReport>)
    requires Buckets(attempts, AttemptTopic, g) && u == ReportRows(g)
    ensures DistinctBy(u, ReportName)
  {
    forall i, j | 0 <= i < j < |u| ensures u[i].topic != u[j].topic {
      assert g[i].key != g[j].key;
    }
  }

  lemma ReportCovers(attempts: seq<Attempt>, g: seq<Group<string, Attempt>>, u: seq<TopicReport>)
    requires Buckets(attempts, AttemptTopic, g) && u == ReportRows(g)
    ensures forall j :: 0 <= j < |attempts| ==> attempts[j].topic in Project(u, ReportName)
  {
    forall j | 0 <= j < |attempts| ensures attempts[j].topic in Project(u, ReportName) {
      assert AttemptTopic(attempts[j]) in Keys(g);
      var m :| 0 <= m < |g| && Keys(g)[m] == AttemptTopic(attempts[j]);
      assert Project(u, ReportName)[m] == attempts[j].topic;
    }
  }

  /**
   * `GET /weak-topics/:userId`: the answers of the newest twenty quizzes grouped
   * by topic, one report per topic, sorted ascending by accuracy.
   */
  function DetailedAnalysis(quizzes: seq<Q.QuizDoc>): (r: seq<TopicReport>)
    ensures SortedBy(r, ReportAccuracy)
    ensures DistinctBy(r, ReportName)
    ensures forall i :: 0 <= i < |r| ==> Reports(Attempts(Recent(quizzes)), r[i])
    ensures forall j :: 0 <= j < |Attempts(Recent(quizzes))| ==> Attempts(Recent(quizzes))[j].topic in Project(r, ReportName)
    ensures ReportTiesInFirstSeenOrder(Attempts(Recent(quizzes)), r)
  {
    var attempts := Attempts(Recent(quizzes));
    var g := GroupBy(attempts, AttemptTopic);
    var u := ReportRows(g);
    ReportFacts(attempts, g, u);
    var r := SortBy(u, ReportAccuracy);
    SortKeepsDistinct(u, ReportAccuracy, ReportName);
    SortedReports(attempts, u, r);
    ReportTies(attempts, u);
    r
  }

  /** Reports of equal accuracy appear in the order their topics first occur among the attempts. */
  predicate ReportTiesInFirstSeenOrder(attempts: seq<Attempt>, r: seq<TopicReport>) {
    forall i, j :: 0 <= i < j < |r| && r[i].accuracy == r[j].accuracy ==>
      FirstPos(attempts, AttemptTopic, r[i].topic) < FirstPos(attempts, AttemptTopic, r[j].topic)
  }

  /** The sort is stable, so reports that tie keep the grouping's first-seen order. */
  lemma ReportTies(attempts: seq<Attempt>, u: seq<TopicReport>)
    requires forall i, j :: 0 <= i < j < |u| ==> FirstPos(attempts, AttemptTopic, u[i].topic) < FirstPos(attempts, AttemptTopic, u[j].topic)
    ensures ReportTiesInFirstSeenOrder(attempts, SortBy(u, ReportAccuracy))
  {
    var rank := (e: TopicReport) => FirstPos(attempts, AttemptTopic, e.topic);
    SortTiesRanked(u, ReportAccuracy, rank);
    var r := SortBy(u, ReportAccuracy);
    assert TiesRanked(r, ReportAccuracy, rank);
    forall i, j | 0 <= i < j < |r| && r[i].accuracy == r[j].accuracy
      ensures FirstPos(attempts, AttemptTopic, r[i].topic) < FirstPos(attempts, AttemptTopic, r[j].topic)
    {
      assert ReportAccuracy(r[i]) == ReportAccuracy(r[j]);
      assert rank(r[i]) < rank(r[j]);
    }
  }

  lemma SortedReports(attempts: seq<Attempt>, u: seq<TopicReport>, r: seq<TopicReport>)
    requires multiset(r) == multiset(u)
    requires forall i :: 0 <= i < |u| ==> Reports(attempts, u[i])
    requires forall j :: 0 <= j < |attempts| ==> attempts[j].topic in Project(u, ReportName)
    ensures forall i :: 0 <= i < |r| ==> Reports(attempts, r[i])
    ensures forall j :: 0 <= j < |attempts| ==> attempts[j].topic in Project(r, ReportName)
  {
    forall i | 0 <= i < |r| ensures Reports(attempts, r[i]) {
      assert r[i] in multiset(u);
    }
    forall j | 0 <= j < |attempts| ensures attempts[j].topic in Project(r, ReportName) {
      var m :| 0 <= m < |u| && Project(u, ReportName)[m] == attempts[j].topic;
      assert u[m] in multiset(r);
      var i :| 0 <= i < |r| && r[i] == u[m];
      assert Project(r, ReportName)[i] == attempts[j].topic;
    }
  }
}

=== FILE: clean_text.dfy ===
/**
 * `cleanText` (backend/utils/pdfParser.js): every run of white space becomes
 * one space, runs of newlines become one newline, and the ends are trimmed.
 * White space is JavaScript's `\s`, the same set `trim` uses.
 */
module PdfText {
  import opened JsText

  /** The characters of `s` that are not white space, in order. */
  function NonSpace(s: string): string {
    if |s| == 0 then "" else (if IsSpace(s[0]) then "" else [s[0]]) + NonSpace(s[1..])
  }

  /**
   * The words of `s`: its maximal runs of non-white-space characters, in order.
   * Two characters belong to one word exactly when no white space separates them.
   */
  function Words(s: string): (ws: seq<string>)
    ensures |s| > 0 && !IsSpace(s[0]) ==> |ws| > 0
    decreases |s|
  {
    if |s| == 0 then []
    else if IsSpace(s[0]) then Words(s[1..])
    else
      var rest := Words(s[1..]);
      if |s| > 1 && !IsSpace(s[1]) then [[s[0]] + rest[0]] + rest[1..]
      else [[s[0]]] + rest
  }

  /** How one more character in front changes the words: a space adds none, a letter starts or extends the first word. */
  lemma {:induction false} ConsWords(ch: char, x: string)
    ensures Words([ch] + x) ==
      if IsSpace(ch) then Words(x)
      else if |x| > 0 && !IsSpace(x[0]) then [[ch] + Words(x)[0]] + Words(x)[1..]
      else [[ch]] + Words(x)
  {
    var s := [ch] + x;
    assert s[0] == ch && s[1..] == x;
    if |x| > 0 {
      assert s[1] == x[0];
    }
  }

  /** White space in front adds no word. */
  lemma {:induction false} WordsSpacePrefix(head: string, t: string)
    requires AllSpace(head)
    ensures Words(head + t) == Words(t)
  {
    if |head| > 0 {
      assert head + t == [head[0]] + (head[1..] + t);
      ConsWords(head[0], head[1..] + t);
      WordsSpacePrefix(head[1..], t);
    } else {
      assert head + t == t;
    }
  }

  /** White space behind adds no word and does not split the last one. */
  lemma {:induction false} WordsSpaceSuffix(m: string, tail: string)
    requires AllSpace(tail)
    ensures Words(m + tail) == Words(m)
  {
    if |m| > 0 {
      var m' := m[1..];
      assert m + tail == [m[0]] + (m' + tail);
      assert m == [m[0]] + m';
      ConsWords(m[0], m' + tail);
      ConsWords(m[0], m');
      WordsSpaceSuffix(m', tail);
      if |m'| > 0 {
        assert (m' + tail)[0] == m'[0];
      } else {
        assert m' + tail == tail;
      }
    } else {
      assert m + tail == tail;
      WordsSpacePrefix(tail, []);
      assert tail + [] == tail;
    }
  }

  /** Dropping leading white space keeps the words. */
  lemma {:induction false} WordsTrimStart(s: string)
    ensures Words(TrimStart(s)) == Words(s)
  {
    if |s| > 0 && IsSpace(s[0]) {
      assert s == [s[0]] + s[1..];
      ConsWords(s[0], s[1..]);
      WordsTrimStart(s[1..]);
    }
  }

  /** The only white space is the plain space, and no two white-space characters are adjacent. */
  predicate SingleSpaced(s: string) {
    && (forall i :: 0 <= i < |s| && IsSpace(s[i]) ==> s[i] == ' ')
    && (forall i :: 0 <= i < |s| - 1 ==> !(IsSpace(s[i]) && IsSpace(s[i + 1])))
  }

  lemma {:induction false} NonSpaceAppend(a: string, b: string)
    ensures NonSpace(a + b) == NonSpace(a) + NonSpace(b)
  {
    if |a| > 0 {
      assert (a + b)[0] == a[0];
      assert (a + b)[1..] == a[1..] + b;
      NonSpaceAppend(a[1..], b);
    } else {
      assert a + b == b;
    }
  }

  lemma {:induction false} NonSpaceEmpty(s: string)
    ensures NonSpace(s) == [] <==> AllSpace(s)
  {
    if |s| > 0 {
      NonSpaceEmpty(s[1..]);
      if IsSpace(s[0]) {
        assert AllSpace(s) <==> AllSpace(s[1..]) by {
          if AllSpace(s[1..]) {
            forall i | 0 <= i < |s| ensures IsSpace(s[i]) {
              if i > 0 { assert s[i] == s[1..][i - 1]; }
            }
          }
          if AllSpace(s) {
            forall i | 0 <= i < |s| - 1 ensures IsSpace(s[1..][i]) {
              assert s[1..][i] == s[i + 1];
            }
          }
        }
      }
    }
  }

  /** Dropping leading white space loses no other character. */
  lemma {:induction false} NonSpaceTrimStart(s: string)
    ensures NonSpace(TrimStart(s)) == NonSpace(s)
  {
    var t := TrimStart(s);
    var k := |s| - |t|;
    var head := s[..k];
    assert t == s[k..];
    assert s == head + t;
    assert AllSpace(head);
    NonSpaceAppend(head, t);
    NonSpaceEmpty(head);
  }

  /** Putting a character in front of a single-spaced string. */
  lemma ConsSingleSpaced(ch: char, c: string)
    requires SingleSpaced(c)
    requires IsSpace(ch) ==> ch == ' ' && (c == [] || !IsSpace(c[0]))
    ensures SingleSpaced([ch] + c)
  {
    var r := [ch] + c;
    forall i | 1 <= i < |r| ensures r[i] == c[i - 1] {
    }
  }

  lemma ConsNonSpace(ch: char, c: string)
    ensures NonSpace([ch] + c) == (if IsSpace(ch) then "" else [ch]) + NonSpace(c)
  {
    assert ([ch] + c)[0] == ch;
    assert ([ch] + c)[1..] == c;
  }

  /**
   * `.replace(/\s+/g, ' ')`: each run of white space becomes one space. The result
   * has the same words as the input, one plain space wherever the input had a run
   * of white space, including at either end, and no other white space.
   */
  function CollapseSpace(s: string): (r: string)
    ensures |r| == 0 <==> |s| == 0
    ensures |s| > 0 ==> (IsSpace(r[0]) <==> IsSpace(s[0]))
    ensures |s| > 0 ==> (IsSpace(r[|r| - 1]) <==> IsSpace(s[|s| - 1]))
    ensures SingleSpaced(r)
    ensures Words(r) == Words(s)
    ensures NonSpace(r) == NonSpace(s)
    decreases |s|
  {
    if |s| == 0 then ""
    else if IsSpace(s[0]) then
      var rest := TrimStart(s[1..]);
      var c := CollapseSpace(rest);
      SpaceStep(s, rest, c);
      [' '] + c
    else
      var c := CollapseSpace(s[1..]);
      LetterStep(s, c);
      [s[0]] + c
  }

  /** What `CollapseSpace` promises about its input `s` and result `r`. */
  predicate Collapsed(s: string, r: string) {
    && (|r| == 0 <==> |s| == 0)
    && (|s| > 0 ==> (IsSpace(r[0]) <==> IsSpace(s[0])))
    && (|s| > 0 ==> (IsSpace(r[|r| - 1]) <==> IsSpace(s[|s| - 1])))
    && SingleSpaced(r)
    && Words(r) == Words(s)
    && NonSpace(r) == NonSpace(s)
  }

  /** A run of white space at the front becomes one space in front of the collapsed rest. */
  lemma SpaceStep(s: string, rest: string, c: string)
    requires |s| > 0 && IsSpace(s[0]) && rest == TrimStart(s[1..])
    requires Collapsed(rest, c)
    ensures Collapsed(s, [' '] + c)
  {
    NonSpaceTrimStart(s[1..]);
    ConsSingleSpaced(' ', c);
    ConsNonSpace(' ', c);
    ConsNonSpace(s[0], s[1..]);
    assert s == [s[0]] + s[1..];
    ConsWords(' ', c);
    ConsWords(s[0], s[1..]);
    WordsTrimStart(s[1..]);
    CollapseLastSpace(s, rest);
  }

  /** A non-space character at the front is kept in front of the collapsed rest. */
  lemma LetterStep(s: string, c: string)
    requires |s| > 0 && !IsSpace(s[0])
    requires Collapsed(s[1..], c)
    ensures Collapsed(s, [s[0]] + c)
  {
    ConsSingleSpaced(s[0], c);
    ConsNonSpace(s[0], c);
    ConsNonSpace(s[0], s[1..]);
    assert s == [s[0]] + s[1..];
    ConsWords(s[0], c);
    ConsWords(s[0], s[1..]);
  }

  /** A string that starts with white space ends with it exactly when the rest, trimmed at the front, is empty or does. */
  lemma {:induction false} CollapseLastSpace(s: string, rest: string)
    requires |s| > 0 && IsSpace(s[0]) && rest == TrimStart(s[1..])
    ensures IsSpace(s[|s| - 1]) <==> rest == [] || IsSpace(rest[|rest| - 1])
  {
    var x := s[1..];
    if |s| > 1 {
      assert x[|x| - 1] == s[|s| - 1];
      if rest == [] {
        assert x[..|x| - |rest|] == x;
        assert IsSpace(x[..|x| - |rest|][|x| - 1]);
      } else {
        assert rest[|rest| - 1] == x[|x| - |rest|..][|rest| - 1] == x[|x| - 1];
      }
    }
  }

  /** Any slice of a single-spaced string is single-spaced. */
  lemma SliceSingleSpaced(s: string, a: nat, b: nat)
    requires SingleSpaced(s) && a <= b <= |s|
    ensures SingleSpaced(s[a..b])
  {
    var t := s[a..b];
    forall i | 0 <= i < |t| ensures t[i] == s[a + i] {
    }
  }

  lemma TrimStartFixed(s: string)
    requires s == [] || !IsSpace(s[0])
    ensures TrimStart(s) == s
  {
  }

  /** A lone space before a non-space is kept as it is. */
  lemma CollapseLoneSpace(s: string)
    requires |s| > 0 && IsSpace(s[0]) && (|s| == 1 || !IsSpace(s[1]))
    ensures CollapseSpace(s) == " " + CollapseSpace(s[1..])
  {
    var tail := s[1..];
    assert tail == [] || !IsSpace(tail[0]);
    TrimStartFixed(tail);
  }

  /** A non-space character is copied and the collapse goes on after it. */
  lemma CollapseLetter(s: string)
    requires |s| > 0 && !IsSpace(s[0])
    ensures CollapseSpace(s) == [s[0]] + CollapseSpace(s[1..])
  {
  }

  /** A string that is already single-spaced is left alone by the collapse. */
  lemma {:induction false} CollapseFixed(s: string)
    requires SingleSpaced(s)
    ensures CollapseSpace(s) == s
  {
    if |s| > 0 {
      var tail := s[1..];
      SliceSingleSpaced(s, 1, |s|);
      CollapseFixed(tail);
      assert s == [s[0]] + tail;
      if IsSpace(s[0]) {
        assert s[0] == ' ';
        assert |s| == 1 || !IsSpace(s[1]);
        CollapseLoneSpace(s);
      } else {
        CollapseLetter(s);
      }
    }
  }

  /** The characters of `s` other than the newline, in order. */
  function Unnewlined(s: string): string {
    if |s| == 0 then "" else (if s[0] == '\n' then "" else [s[0]]) + Unnewlined(s[1..])
  }

  /**
   * The lines of `s`: its maximal runs of characters other than the newline, in
   * order. Empty lines are not counted, so runs of newlines separate alike.
   */
  function Lines(s: string): (ls: seq<string>)
    ensures |s| > 0 && s[0] != '\n' ==> |ls| > 0
    decreases |s|
  {
    if |s| == 0 then []
    else if s[0] == '\n' then Lines(s[1..])
    else
      var rest := Lines(s[1..]);
      if |s| > 1 && s[1] != '\n' then [[s[0]] + rest[0]] + rest[1..]
      else [[s[0]]] + rest
  }

  /** How one more character in front changes the lines: a newline adds none, anything else starts or extends the first line. */
  lemma {:induction false} ConsLines(ch: char, x: string)
    ensures Lines([ch] + x) ==
      if ch == '\n' then Lines(x)
      else if |x| > 0 && x[0] != '\n' then [[ch] + Lines(x)[0]] + Lines(x)[1..]
      else [[ch]] + Lines(x)
  {
    var s := [ch] + x;
    assert s[0] == ch && s[1..] == x;
    if |x| > 0 {
      assert s[1] == x[0];
    }
  }

  /** Leading newlines dropped: what is left is a suffix, and everything before it was a newline. */
  function DropNewlines(s: string): (r: string)
    ensures |r| <= |s| && r == s[|s| - |r|..]
    ensures forall i :: 0 <= i < |s| - |r| ==> s[i] == '\n'
    ensures r == [] || r[0] != '\n'
    ensures Unnewlined(r) == Unnewlined(s)
    ensures Lines(r) == Lines(s)
    decreases |s|
  {
    if |s| > 0 && s[0] == '\n' then
      var r := DropNewlines(s[1..]);
      ConsLines('\n', s[1..]);
      assert s == [s[0]] + s[1..];
      r
    else s
  }

  /**
   * `.replace(/\n+/g, '\n')`: every run of newlines becomes one. Every other
   * character is kept in order, and a newline survives exactly when there was one.
   */
  function NewlineRule(s: string): (r: string)
    ensures |r| <= |s|
    ensures forall i :: 0 <= i < |r| - 1 ==> !(r[i] == '\n' && r[i + 1] == '\n')
    ensures |s| > 0 ==> |r| > 0 && (r[0] == '\n' <==> s[0] == '\n')
    ensures Unnewlined(r) == Unnewlined(s)
    ensures '\n' in r <==> '\n' in s
    decreases |s|
  {
    if |s| == 0 then ""
    else if s[0] == '\n' then
      var r := "\n" + NewlineRule(DropNewlines(s[1..]));
      assert r[0] == '\n' && r[1..] == NewlineRule(DropNewlines(s[1..]));
      r
    else
      var rest := NewlineRule(s[1..]);
      var r := [s[0]] + rest;
      assert r[1..] == rest;
      assert '\n' in s <==> '\n' in s[1..] by {
        assert s == [s[0]] + s[1..];
      }
      r
  }

  /**
   * The newline rule keeps the lines and whether the text ends in a newline.
   * With the facts in its contract this fixes the result: "a\nb\nc" cannot
   * become "a\nbc".
   */
  lemma {:induction false} NewlineRuleKeepsLines(s: string)
    ensures Lines(NewlineRule(s)) == Lines(s)
    ensures |s| > 0 ==> (NewlineRule(s)[|NewlineRule(s)| - 1] == '\n' <==> s[|s| - 1] == '\n')
    decreases |s|
  {
    if |s| > 0 {
      if s[0] == '\n' {
        var d := DropNewlines(s[1..]);
        var t := NewlineRule(d);
        assert NewlineRule(s) == "\n" + t;
        NewlineRuleKeepsLines(d);
        LinesAfterNewline(s, t);
        if |s| > 1 {
          DropNewlinesLast(s[1..]);
          assert s[1..][|s| - 2] == s[|s| - 1];
        }
        LastAfterNewline(s, d, t);
      } else {
        var rest := NewlineRule(s[1..]);
        assert NewlineRule(s) == [s[0]] + rest;
        NewlineRuleKeepsLines(s[1..]);
        RuleAfterOther(s, rest);
      }
    }
  }

  /** A newline in front of text with the same lines as the input's tail gives the input's lines. */
  lemma {:induction false} LinesAfterNewline(s: string, t: string)
    requires |s| > 0 && s[0] == '\n' && Lines(t) == Lines(s[1..])
    ensures Lines("\n" + t) == Lines(s)
  {
    assert s == [s[0]] + s[1..];
    assert "\n" + t == ['\n'] + t;
    ConsLines('\n', s[1..]);
    ConsLines('\n', t);
  }

  /** The last character survives dropping the leading newlines, unless nothing but newlines was there. */
  lemma DropNewlinesLast(x: string)
    requires |x| > 0
    ensures |DropNewlines(x)| > 0 ==> DropNewlines(x)[|DropNewlines(x)| - 1] == x[|x| - 1]
    ensures |DropNewlines(x)| == 0 ==> x[|x| - 1] == '\n'
  {
  }

  /** A leading newline, then the rule applied to what follows the run it starts, ends as the input ends. */
  lemma {:induction false} LastAfterNewline(s: string, d: string, t: string)
    requires |s| > 0 && s[0] == '\n' && |t| <= |d|
    requires |s| > 1 ==> |d| > 0 ==> d[|d| - 1] == s[|s| - 1]
    requires |s| > 1 ==> |d| == 0 ==> s[|s| - 1] == '\n'
    requires |s| == 1 ==> |d| == 0
    requires |d| > 0 ==> |t| > 0 && (t[|t| - 1] == '\n' <==> d[|d| - 1] == '\n')
    ensures ("\n" + t)[|t|] == '\n' <==> s[|s| - 1] == '\n'
  {
    if |t| > 0 {
      assert ("\n" + t)[|t|] == t[|t| - 1];
    }
  }

  /** Another character, then the rule applied to the rest, keeps the lines and the last character's kind. */
  lemma {:induction false} RuleAfterOther(s: string, rest: string)
    requires |s| > 0 && s[0] != '\n' && Lines(rest) == Lines(s[1..])
    requires |rest| > 0 <==> |s| > 1
    requires |s| > 1 ==> (rest[0] == '\n' <==> s[1] == '\n') && (rest[|rest| - 1] == '\n' <==> s[|s| - 1] == '\n')
    ensures Lines([s[0]] + rest) == Lines(s)
    ensures ([s[0]] + rest)[|rest|] == '\n' <==> s[|s| - 1] == '\n'
  {
    assert s == [s[0]] + s[1..];
    ConsLines(s[0], s[1..]);
    ConsLines(s[0], rest);
    if |s| > 1 {
      assert s[1..][0] == s[1] && ([s[0]] + rest)[|rest|] == rest[|rest| - 1];
    }
  }

  /** Without a newline in its input, the newline rule changes nothing. */
  lemma {:induction false} NewlineRuleIdentity(s: string)
    requires '\n' !in s
    ensures NewlineRule(s) == s
  {
    if |s| > 0 {
      assert '\n' !in s[1..] by {
        forall i | 0 <= i < |s| - 1 ensures s[1..][i] != '\n' {
          assert s[1..][i] == s[i + 1];
        }
      }
      NewlineRuleIdentity(s[1..]);
      assert s == [s[0]] + s[1..];
    }
  }

  /** A single-spaced string holds no newline: a newline is white space other than the space. */
  lemma NoNewline(s: string)
    requires SingleSpaced(s)
    ensures '\n' !in s
  {
    forall i | 0 <= i < |s| ensures s[i] != '\n' {
      if s[i] == '\n' {
        assert IsSpace(s[i]);
      }
    }
  }

  /** `trim` keeps a middle slice between two all-white-space ends. */
  lemma TrimSlice(s: string) returns (k: nat)
    ensures k + |Trim(s)| <= |s|
    ensures Trim(s) == s[k..k + |Trim(s)|]
    ensures AllSpace(s[..k]) && AllSpace(s[k + |Trim(s)|..])
  {
    var t := TrimStart(s);
    var r := TrimEnd(t);
    k := |s| - |t|;
    assert Trim(s) == r;
    assert t == s[k..];
    assert s[k..k + |r|] == t[..|r|];
    assert s[k + |r|..] == t[|r|..];
  }

  /** Surrounding white space adds no non-white-space character. */
  lemma NonSpaceFramed(head: string, mid: string, tail: string)
    requires AllSpace(head) && AllSpace(tail)
    ensures NonSpace(head + mid + tail) == NonSpace(mid)
  {
    NonSpaceAppend(head + mid, tail);
    NonSpaceAppend(head, mid);
    NonSpaceEmpty(head);
    NonSpaceEmpty(tail);
  }

  /** `trim` keeps every non-white-space character and keeps a string single-spaced. */
  lemma TrimFacts(s: string)
    ensures NonSpace(Trim(s)) == NonSpace(s)
    ensures SingleSpaced(s) ==> SingleSpaced(Trim(s))
  {
    var k := TrimSlice(s);
    var r := Trim(s);
    var e := k + |r|;
    TrimKeepsNonSpace(s, k, e);
    if SingleSpaced(s) {
      SliceSingleSpaced(s, k, e);
    }
  }

  lemma TrimKeepsNonSpace(s: string, k: nat, e: nat)
    requires k <= e <= |s| && AllSpace(s[..k]) && AllSpace(s[e..])
    ensures NonSpace(s[k..e]) == NonSpace(s)
  {
    assert s == s[..k] + s[k..e] + s[e..];
    NonSpaceFramed(s[..k], s[k..e], s[e..]);
  }

  /** `trim` keeps the words. */
  lemma {:induction false} WordsTrim(s: string)
    ensures Words(Trim(s)) == Words(s)
  {
    WordsTrimStart(s);
    WordsTrimEnd(TrimStart(s));
  }

  /** Dropping trailing white space keeps the words. */
  lemma {:induction false} WordsTrimEnd(s: string)
    ensures Words(TrimEnd(s)) == Words(s)
    decreases |s|
  {
    if |s| > 0 && IsSpace(s[|s| - 1]) {
      var p := s[..|s| - 1];
      assert s == p + [s[|s| - 1]];
      WordsSpaceSuffix(p, [s[|s| - 1]]);
      WordsTrimEnd(p);
    }
  }

  /** A string with no white space at either end is its own trim. */
  lemma TrimFixed(s: string)
    requires s == [] || (!IsSpace(s[0]) && !IsSpace(s[|s| - 1]))
    ensures Trim(s) == s
  {
    assert TrimStart(s) == s;
    assert TrimEnd(s) == s;
  }

  /**
   * `cleanText(text)`: the result is single-spaced (so no newline survives),
   * has no white space at either end, keeps every other character in order,
   * and is empty exactly when the input is all white space.
   */
  function CleanText(text: string): (r: string)
    ensures SingleSpaced(r)
    ensures '\n' !in r
    ensures r == [] || (!IsSpace(r[0]) && !IsSpace(r[|r| - 1]))
    ensures Words(r) == Words(text)
    ensures NonSpace(r) == NonSpace(text)
    ensures r == [] <==> AllSpace(text)
  {
    var c := CollapseSpace(text);
    NoNewline(c);
    NewlineRuleIdentity(c);
    var n := NewlineRule(c);
    TrimFacts(n);
    NoNewline(Trim(n));
    NonSpaceEmpty(text);
    NonSpaceEmpty(Trim(n));
    WordsTrim(n);
    Trim(n)
  }

  /** Cleaning cleaned text changes nothing. */
  lemma CleanIdempotent(text: string)
    ensures CleanText(CleanText(text)) == CleanText(text)
  {
    var t := CleanText(text);
    CollapseFixed(t);
    NewlineRuleIdentity(t);
    TrimFixed(t);
  }

  /** Only white space, of any kind, cleans to the empty string. */
  lemma BlankCleansToEmpty()
    ensures CleanText(" \n\t \r\n") == ""
  {
    var s := " \n\t \r\n";
    assert AllSpace(s) by {
      assert s[0] == ' ' && s[1] == '\n' && s[2] == '\t' && s[3] == ' ' && s[4] == '\r' && s[5] == '\n';
    }
  }
}

=== FILE: grouping.dfy ===
/**
 * The "bucket by key" fold the source writes again and again:
 *
 *   for each item: if (!acc[key(item)]) acc[key(item)] = fresh; update acc[key(item)]
 *   ... Object.values(acc)
 *
 * Every accumulator update in the source (`++`, `+=`, `push`) is a fold over the
 * items of one bucket, so a bucket is modelled by the items that reached it.
 * Buckets appear in the order their key first occurs, which is JavaScript's
 * property order for keys that are not integer-like.
 */
module Grouping {

  datatype Group<K, V> = Group(key: K, items: seq<V>)

  function Keys<K, V>(g: seq<Group<K, V>>): (ks: seq<K>)
    ensures |ks| == |g|
    ensures forall i :: 0 <= i < |g| ==> ks[i] == g[i].key
  {
    seq(|g|, i requires 0 <= i < |g| => g[i].key)
  }

  /** The items of `s` whose key is `k`, in their original order. */
  function Select<K(==), V>(s: seq<V>, key: V -> K, k: K): seq<V> {
    if |s| == 0 then []
    else Select(s[..|s| - 1], key, k) + (if key(s[|s| - 1]) == k then [s[|s| - 1]] else [])
  }

  /** Position of the first item of `s` with key `k`, or `|s|` if there is none. */
  function FirstPos<K(==), V>(s: seq<V>, key: V -> K, k: K): (p: nat)
    ensures p <= |s|
    ensures forall j :: 0 <= j < p ==> key(s[j]) != k
    ensures p < |s| ==> key(s[p]) == k
  {
    if |s| == 0 then 0
    else if key(s[0]) == k then 0
    else FirstPos(s[1..], key, k) + 1
  }

  predicate DistinctKeys<K(==), V>(g: seq<Group<K, V>>) {
    forall i, j :: 0 <= i < j < |g| ==> g[i].key != g[j].key
  }

  /** `g` is the bucket list the fold builds from `s`. */
  predicate Buckets<K(==), V(==)>(s: seq<V>, key: V -> K, g: seq<Group<K, V>>) {
    && DistinctKeys(g)
    && (forall i :: 0 <= i < |g| ==> g[i].items == Select(s, key, g[i].key) && g[i].items != [])
    && (forall j :: 0 <= j < |s| ==> key(s[j]) in Keys(g))
    && (forall i, j :: 0 <= i < j < |g| ==> FirstPos(s, key, g[i].key) < FirstPos(s, key, g[j].key))
  }

  /** Index of the bucket with key `k`, or `|g|` when there is none yet (`!acc[k]`). */
  function Find<K(==), V>(g: seq<Group<K, V>>, k: K): (i: nat)
    ensures i <= |g|
    ensures i < |g| ==> g[i].key == k
    ensures i == |g| ==> k !in Keys(g)
  {
    if |g| == 0 then 0
    else if g[0].key == k then 0
    else
      assert Keys(g) == [g[0].key] + Keys(g[1..]);
      Find(g[1..], k) + 1
  }

  /** One step of the fold: the item joins its bucket, opening a new one at the end if needed. */
  function Add<K(==), V>(g: seq<Group<K, V>>, x: V, key: V -> K): seq<Group<K, V>> {
    var i := Find(g, key(x));
    if i < |g| then g[i := Group(g[i].key, g[i].items + [x])]
    else g + [Group(key(x), [x])]
  }

  /** The whole fold, item by item from the left. */
  function GroupBy<K(==), V(==)>(s: seq<V>, key: V -> K): (g: seq<Group<K, V>>)
    ensures Buckets(s, key, g)
  {
    if |s| == 0 then []
    else
      var g := GroupBy(s[..|s| - 1], key);
      AddLast(s, key, g);
      Add(g, s[|s| - 1], key)
  }

  /** The fold's last step, stated on the whole sequence. */
  lemma AddLast<K, V>(s: seq<V>, key: V -> K, g: seq<Group<K, V>>)
    requires |s| > 0 && Buckets(s[..|s| - 1], key, g)
    ensures Buckets(s, key, Add(g, s[|s| - 1], key))
  {
    AddPreservesBuckets(s[..|s| - 1], s[|s| - 1], key, g);
    assert s[..|s| - 1] + [s[|s| - 1]] == s;
  }

  lemma SelectSnoc<K, V>(p: seq<V>, x: V, key: V -> K, k: K)
    ensures Select(p + [x], key, k) == Select(p, key, k) + (if key(x) == k then [x] else [])
  {
    assert (p + [x])[..|p|] == p;
  }

  lemma {:induction false} SelectNone<K, V>(p: seq<V>, key: V -> K, k: K)
    requires forall j :: 0 <= j < |p| ==> key(p[j]) != k
    ensures Select(p, key, k) == []
  {
    if |p| > 0 {
      SelectNone(p[..|p| - 1], key, k);
    }
  }

  /** Nothing selected means no item has the key. */
  lemma {:induction false} SelectEmpty<K, V>(s: seq<V>, key: V -> K, k: K)
    requires Select(s, key, k) == []
    ensures FirstPos(s, key, k) == |s|
  {
    if |s| > 0 {
      var p := s[..|s| - 1];
      SelectEmpty(p, key, k);
      assert s == p + [s[|s| - 1]];
      FirstPosSnoc(p, s[|s| - 1], key, k);
    }
  }

  /** The first selected item is the first item with the key. */
  lemma {:induction false} SelectHead<K, V>(s: seq<V>, key: V -> K, k: K)
    requires Select(s, key, k) != []
    ensures FirstPos(s, key, k) < |s|
    ensures Select(s, key, k)[0] == s[FirstPos(s, key, k)]
  {
    var p := s[..|s| - 1];
    var x := s[|s| - 1];
    assert s == p + [x];
    FirstPosSnoc(p, x, key, k);
    if Select(p, key, k) != [] {
      SelectHead(p, key, k);
    } else {
      SelectEmpty(p, key, k);
    }
  }

  /** Selected items come from the sequence and carry the key. */
  lemma {:induction false} SelectMembers<K, V>(s: seq<V>, key: V -> K, k: K)
    ensures forall x :: x in Select(s, key, k) ==> x in s && key(x) == k
  {
    if |s| > 0 {
      var p := s[..|s| - 1];
      SelectMembers(p, key, k);
      assert s == p + [s[|s| - 1]];
      forall x | x in p ensures x in s {
        var i :| 0 <= i < |p| && p[i] == x;
        assert s[i] == x;
      }
    }
  }

  lemma {:induction false} FirstPosSnoc<K, V>(p: seq<V>, x: V, key: V -> K, k: K)
    ensures FirstPos(p + [x], key, k) ==
      if FirstPos(p, key, k) < |p| then FirstPos(p, key, k)
      else if key(x) == k then |p| else |p| + 1
  {
    if |p| > 0 {
      assert (p + [x])[1..] == p[1..] + [x];
      FirstPosSnoc(p[1..], x, key, k);
    }
  }

  lemma AddPreservesBuckets<K, V>(p: seq<V>, x: V, key: V -> K, g: seq<Group<K, V>>)
    requires Buckets(p, key, g)
    ensures Buckets(p + [x], key, Add(g, x, key))
  {
    var i := Find(g, key(x));
    if i < |g| {
      JoinBucket(p, x, key, g, i);
    } else {
      OpenBucket(p, x, key, g);
    }
  }

  /** Every existing bucket key already occurs in `p`. */
  lemma BucketKeyOccurs<K, V>(p: seq<V>, key: V -> K, g: seq<Group<K, V>>, m: nat)
    requires Buckets(p, key, g) && m < |g|
    ensures FirstPos(p, key, g[m].key) < |p|
  {
    if FirstPos(p, key, g[m].key) == |p| {
      SelectNone(p, key, g[m].key);
    }
  }

  lemma CoversAfter<K, V>(p: seq<V>, x: V, key: V -> K, g: seq<Group<K, V>>, g': seq<Group<K, V>>)
    requires forall j :: 0 <= j < |p| ==> key(p[j]) in Keys(g)
    requires |g| <= |g'| && forall m :: 0 <= m < |g| ==> g'[m].key == g[m].key
    requires key(x) in Keys(g')
    ensures forall j :: 0 <= j < |p + [x]| ==> key((p + [x])[j]) in Keys(g')
  {
    var s := p + [x];
    forall j | 0 <= j < |s| ensures key(s[j]) in Keys(g') {
      if j < |p| {
        assert s[j] == p[j];
        var m :| 0 <= m < |g| && Keys(g)[m] == key(p[j]);
        assert Keys(g')[m] == key(p[j]);
      }
    }
  }

  lemma JoinBucket<K, V>(p: seq<V>, x: V, key: V -> K, g: seq<Group<K, V>>, i: nat)
    requires Buckets(p, key, g)
    requires i < |g| && g[i].key == key(x)
    ensures Buckets(p + [x], key, g[i := Group(g[i].key, g[i].items + [x])])
  {
    var s := p + [x];
    var g' := g[i := Group(g[i].key, g[i].items + [x])];
    assert Keys(g')[i] == key(x);
    CoversAfter(p, x, key, g, g');
    forall m | 0 <= m < |g'| ensures g'[m].items == Select(s, key, g'[m].key) {
      SelectSnoc(p, x, key, g[m].key);
    }
    forall m | 0 <= m < |g'| ensures FirstPos(s, key, g'[m].key) == FirstPos(p, key, g[m].key) {
      BucketKeyOccurs(p, key, g, m);
      FirstPosSnoc(p, x, key, g[m].key);
    }
  }

  lemma OpenBucket<K, V>(p: seq<V>, x: V, key: V -> K, g: seq<Group<K, V>>)
    requires Buckets(p, key, g)
    requires key(x) !in Keys(g)
    ensures Buckets(p + [x], key, g + [Group(key(x), [x])])
  {
    var s := p + [x];
    var g' := g + [Group(key(x), [x])];
    forall m | 0 <= m < |g| ensures g[m].key != key(x) {
      assert Keys(g)[m] == g[m].key;
    }
    assert DistinctKeys(g');
    assert Keys(g')[|g|] == key(x);
    CoversAfter(p, x, key, g, g');
    OpenBucketItems(p, x, key, g);
    OpenBucketOrder(p, x, key, g);
  }

  lemma OpenBucketItems<K, V>(p: seq<V>, x: V, key: V -> K, g: seq<Group<K, V>>)
    requires Buckets(p, key, g)
    requires forall m :: 0 <= m < |g| ==> g[m].key != key(x)
    ensures forall m :: 0 <= m < |g| + 1 ==>
      (g + [Group(key(x), [x])])[m].items == Select(p + [x], key, (g + [Group(key(x), [x])])[m].key)
  {
    var g' := g + [Group(key(x), [x])];
    forall m | 0 <= m < |g'| ensures g'[m].items == Select(p + [x], key, g'[m].key) {
      SelectSnoc(p, x, key, g'[m].key);
      if m == |g| {
        forall j | 0 <= j < |p| ensures key(p[j]) != key(x) {
          var n :| 0 <= n < |g| && Keys(g)[n] == key(p[j]);
        }
        SelectNone(p, key, key(x));
      }
    }
  }

  lemma OpenBucketOrder<K, V>(p: seq<V>, x: V, key: V -> K, g: seq<Group<K, V>>)
    requires Buckets(p, key, g)
    requires forall m :: 0 <= m < |g| ==> g[m].key != key(x)
    ensures forall i, j :: 0 <= i < j < |g| + 1 ==>
      FirstPos(p + [x], key, (g + [Group(key(x), [x])])[i].key) <
      FirstPos(p + [x], key, (g + [Group(key(x), [x])])[j].key)
  {
    var g' := g + [Group(key(x), [x])];
    forall m | 0 <= m < |g'|
      ensures FirstPos(p + [x], key, g'[m].key) == if m < |g| then FirstPos(p, key, g[m].key) else |p|
      ensures m < |g| ==> FirstPos(p, key, g[m].key) < |p|
    {
      FirstPosSnoc(p, x, key, g'[m].key);
      if m < |g| {
        BucketKeyOccurs(p, key, g, m);
      } else {
        forall j | 0 <= j < |p| ensures key(p[j]) != key(x) {
          var n :| 0 <= n < |g| && Keys(g)[n] == key(p[j]);
        }
      }
    }
  }

  /** Sum of a weight over a sequence. */
  function Total<V>(s: seq<V>, w: V -> int): int {
    if |s| == 0 then 0 else Total(s[..|s| - 1], w) + w(s[|s| - 1])
  }

  /** Sum of a weight over every item of every bucket. */
  function BucketTotal<K, V>(g: seq<Group<K, V>>, w: V -> int): int {
    if |g| == 0 then 0 else Total(g[0].items, w) + BucketTotal(g[1..], w)
  }

  lemma {:induction false} TotalAppend<V>(a: seq<V>, b: seq<V>, w: V -> int)
    ensures Total(a + b, w) == Total(a, w) + Total(b, w)
  {
    if |b| > 0 {
      assert (a + b)[..|a + b| - 1] == a + b[..|b| - 1];
      TotalAppend(a, b[..|b| - 1], w);
    } else {
      assert a + b == a;
    }
  }

  lemma {:induction false} BucketTotalUpdate<K, V>(g: seq<Group<K, V>>, i: nat, x: V, w: V -> int)
    requires i < |g|
    ensures BucketTotal(g[i := Group(g[i].key, g[i].items + [x])], w) == BucketTotal(g, w) + w(x)
  {
    var g' := g[i := Group(g[i].key, g[i].items + [x])];
    TotalAppend(g[i].items, [x], w);
    if i > 0 {
      assert g'[1..] == g[1..][i - 1 := Group(g[i].key, g[i].items + [x])];
      BucketTotalUpdate(g[1..], i - 1, x, w);
    } else {
      assert g'[1..] == g[1..];
    }
  }

  lemma {:induction false} BucketTotalSnoc<K, V>(g: seq<Group<K, V>>, grp: Group<K, V>, w: V -> int)
    ensures BucketTotal(g + [grp], w) == BucketTotal(g, w) + Total(grp.items, w)
  {
    if |g| == 0 {
      assert g + [grp] == [grp];
      assert ([grp])[1..] == [];
    } else {
      assert (g + [grp])[1..] == g[1..] + [grp];
      BucketTotalSnoc(g[1..], grp, w);
    }
  }

  /** A list with one entry per bucket, each weighing what its bucket's items weigh, weighs the bucket total. */
  lemma {:induction false} MappedTotal<K, V, T>(g: seq<Group<K, V>>, u: seq<T>, w: V -> int, wt: T -> int)
    requires |u| == |g| && forall i :: 0 <= i < |g| ==> wt(u[i]) == Total(g[i].items, w)
    ensures Total(u, wt) == BucketTotal(g, w)
  {
    if |g| > 0 {
      MappedTotal(g[1..], u[1..], w, wt);
      TotalAppend([u[0]], u[1..], wt);
      assert u == [u[0]] + u[1..];
      assert [u[0]][..0] == [];
    }
  }

  lemma AddTotal<K, V>(g: seq<Group<K, V>>, x: V, key: V -> K, w: V -> int)
    ensures BucketTotal(Add(g, x, key), w) == BucketTotal(g, w) + w(x)
  {
    var i := Find(g, key(x));
    if i < |g| {
      BucketTotalUpdate(g, i, x, w);
    } else {
      BucketTotalSnoc(g, Group(key(x), [x]), w);
      assert Total([x], w) == w(x) by { assert ([x])[..0] == []; }
    }
  }

  /** Splitting into buckets loses and duplicates nothing: the bucket totals add up to the overall total. */
  lemma {:induction false} GroupByTotal<K, V>(s: seq<V>, key: V -> K, w: V -> int)
    ensures BucketTotal(GroupBy(s, key), w) == Total(s, w)
  {
    if |s| > 0 {
      var p := s[..|s| - 1];
      var x := s[|s| - 1];
      GroupByTotal(p, key, w);
      assert GroupBy(s, key) == Add(GroupBy(p, key), x, key);
      AddTotal(GroupBy(p, key), x, key, w);
    }
  }
}

=== FILE: js.dfy ===
/**
 * JavaScript value semantics that the rest of the model leans on:
 * optional and error-carrying results, the truthiness of request-body
 * values, and `Math.round` of a non-negative or negative ratio.
 */
module Js {

  datatype Option<+T> = None | Some(value: T) {
    /** `value || fallback` for a value that is either present or absent. */
    function GetOr(fallback: T): T {
      match this
      case Some(v) => v
      case None => fallback
    }
  }

  datatype Result<+T, +E> = Ok(value: T) | Err(error: E)

  /**
   * A primitive value as it arrives in a parsed JSON request body.
   * `Composite` stands for any array or object; `size` is an array's length.
   * Numbers are integral here; fractional numbers are not modelled.
   */
  datatype JsValue =
    | Undefined
    | Null
    | Bool(b: bool)
    | Num(n: int)
    | Str(s: string)
    | Composite(size: nat)

  /** JavaScript truthiness: `false`, `0`, `""`, `null` and `undefined` are falsy; arrays and objects never are. */
  predicate Truthy(v: JsValue) {
    match v
    case Undefined => false
    case Null => false
    case Bool(b) => b
    case Num(n) => n != 0
    case Str(s) => s != ""
    case Composite(_) => true
  }

  /** `v == null`: loose equality with null holds for exactly null and undefined. */
  predicate IsNullish(v: JsValue) {
    v.Undefined? || v.Null?
  }

  /**
   * `a === b` between a stored value and a freshly parsed one: primitives compare
   * by value, while a parsed array or object is a new reference equal to nothing stored.
   */
  predicate StrictEquals(a: JsValue, b: JsValue) {
    !a.Composite? && !b.Composite? && a == b
  }

  /**
   * `Math.round(p / q)` for a positive divisor: the nearest integer, halves rounded
   * towards positive infinity. Dafny's `/` floors for a positive divisor, which is
   * what makes this right for negative `p` as well.
   */
  function RoundDiv(p: int, q: int): (r: int)
    requires q > 0
    ensures 2 * q * r <= 2 * p + q < 2 * q * (r + 1)
  {
    (2 * p + q) / (2 * q)
  }

  /**
   * The percentage every counter in the system reports, read in exact arithmetic:
   * the nearest integer to `100 * part / whole`, halves rounded up. The source writes
   * `Math.round((part / whole) * 100)` in doubles, which agrees except where the exact
   * value is a half: there the double product can land just below it and round down.
   */
  function Percent(part: int, whole: int): int
    requires whole > 0
  {
    RoundDiv(100 * part, whole)
  }

  lemma MulLeft(a: int, b: int, c: int)
    requires a >= 0 && b <= c
    ensures a * b <= a * c
  {
  }

  /** Rounding is monotone in the numerator. */
  lemma RoundDivMonotone(p1: int, p2: int, q: int)
    requires q > 0 && p1 <= p2
    ensures RoundDiv(p1, q) <= RoundDiv(p2, q)
  {
    var r1, r2 := RoundDiv(p1, q), RoundDiv(p2, q);
    if r2 < r1 {
      MulLeft(2 * q, r2 + 1, r1);
      assert false;
    }
  }

  /** Rounding a ratio between 0 and 1 of its divisor stays between 0 and k. */
  lemma RoundDivRange(p: int, q: int, k: nat)
    requires q > 0 && 0 <= p <= k * q
    ensures 0 <= RoundDiv(p, q) <= k
  {
    var r := RoundDiv(p, q);
    if r < 0 {
      MulLeft(2 * q, r + 1, 0);
      assert false;
    }
    if r > k {
      MulLeft(2 * q, k + 1, r);
      assert false;
    }
  }

  /** Rounding a ratio that lies between two integers stays between them. */
  lemma RoundDivBetween(p: int, q: int, lo: int, hi: int)
    requires q > 0 && lo * q <= p <= hi * q
    ensures lo <= RoundDiv(p, q) <= hi
  {
    var r := RoundDiv(p, q);
    if r < lo {
      MulLeft(2 * q, r + 1, lo);
      assert false;
    }
    if r > hi {
      MulLeft(2 * q, hi + 1, r);
      assert false;
    }
  }

  /** Rounding an exact multiple gives the multiple back. */
  lemma RoundDivExact(k: int, q: int)
    requires q > 0
    ensures RoundDiv(k * q, q) == k
  {
    var r := RoundDiv(k * q, q);
    if r < k {
      MulLeft(2 * q, r + 1, k);
      assert false;
    }
    if r > k {
      MulLeft(2 * q, k + 1, r);
      assert false;
    }
  }

  lemma PercentRange(part: int, whole: int)
    requires whole > 0 && 0 <= part <= whole
    ensures 0 <= Percent(part, whole) <= 100
  {
    RoundDivRange(100 * part, whole, 100);
  }

  lemma PercentOfNone(whole: int)
    requires whole > 0
    ensures Percent(0, whole) == 0
  {
    RoundDivExact(0, whole);
  }

  lemma PercentOfAll(whole: int)
    requires whole > 0
    ensures Percent(whole, whole) == 100
  {
    RoundDivExact(100, whole);
  }

  lemma PercentMonotone(a: int, b: int, whole: int)
    requires whole > 0 && a <= b
    ensures Percent(a, whole) <= Percent(b, whole)
  {
    RoundDivMonotone(100 * a, 100 * b, whole);
  }
}

=== FILE: js_text.dfy ===
/**
 * String primitives of the JavaScript runtime that the model needs: the `\s`
 * character class (which `String.prototype.trim` shares), `trim`, `split` on
 * one character, and the decimal printing of integers inside template strings.
 */
module JsText {

  /** The characters JavaScript's `\s` and `trim` treat as white space. */
  predicate IsSpace(c: char) {
    || c == '\t' || c == '\n' || c == '\U{000B}' || c == '\U{000C}' || c == '\r' || c == ' '
    || c == '\U{00A0}' || c == '\U{1680}' || ('\U{2000}' <= c <= '\U{200A}')
    || c == '\U{2028}' || c == '\U{2029}' || c == '\U{202F}' || c == '\U{205F}'
    || c == '\U{3000}' || c == '\U{FEFF}'
  }

  predicate AllSpace(s: string) {
    forall i :: 0 <= i < |s| ==> IsSpace(s[i])
  }

  /** `s.trimStart()`: the suffix left after dropping leading white space. */
  function TrimStart(s: string): (r: string)
    ensures |r| <= |s| && r == s[|s| - |r|..]
    ensures AllSpace(s[..|s| - |r|])
    ensures r == [] || !IsSpace(r[0])
  {
    if |s| == 0 || !IsSpace(s[0]) then s
    else
      var r := TrimStart(s[1..]);
      assert s[1..][..|s| - 1 - |r|] == s[1..|s| - |r|];
      r
  }

  /** `s.trimEnd()`: the prefix left after dropping trailing white space. */
  function TrimEnd(s: string): (r: string)
    ensures |r| <= |s| && r == s[..|r|]
    ensures AllSpace(s[|r|..])
    ensures r == [] || !IsSpace(r[|r| - 1])
  {
    if |s| == 0 || !IsSpace(s[|s| - 1]) then s
    else
      var r := TrimEnd(s[..|s| - 1]);
      assert s[..|s| - 1][|r|..] + [s[|s| - 1]] == s[|r|..];
      r
  }

  /** `s.trim()`. */
  function Trim(s: string): (r: string)
    ensures r == [] || (!IsSpace(r[0]) && !IsSpace(r[|r| - 1]))
    ensures r == [] <==> AllSpace(s)
  {
    TrimEmptyIffSpace(s);
    TrimEnd(TrimStart(s))
  }

  lemma TrimEmptyIffSpace(s: string)
    ensures TrimEnd(TrimStart(s)) == [] <==> AllSpace(s)
  {
    var t := TrimStart(s);
    var r := TrimEnd(t);
    if r == [] {
      assert |t| == 0;
      assert s[..|s|] == s;
    } else {
      assert r[0] == t[0];
      var k := |s| - |t|;
      assert s[k] == t[0];
      assert !IsSpace(s[k]);
      assert !AllSpace(s);
    }
  }

  predicate StartsWith(s: string, prefix: string) {
    |prefix| <= |s| && s[..|prefix|] == prefix
  }

  predicate EndsWith(s: string, suffix: string) {
    |suffix| <= |s| && s[|s| - |suffix|..] == suffix
  }

  /** Number of occurrences of `c` in `s`. */
  function Count(s: string, c: char): nat {
    if |s| == 0 then 0 else (if s[0] == c then 1 else 0) + Count(s[1..], c)
  }

  /** `parts.join(sep)` for a one-character separator. */
  function Join(parts: seq<string>, sep: char): string {
    if |parts| == 0 then ""
    else if |parts| == 1 then parts[0]
    else parts[0] + [sep] + Join(parts[1..], sep)
  }

  /** `s.split(sep)` for a one-character separator. */
  function Split(s: string, sep: char): (parts: seq<string>)
    ensures |parts| == Count(s, sep) + 1
    ensures forall i :: 0 <= i < |parts| ==> sep !in parts[i]
    ensures Join(parts, sep) == s
  {
    if sep !in s then
      assert Count(s, sep) == 0 by { NoOccurrence(s, sep); }
      [s]
    else
      var i := FirstIndex(s, sep);
      var rest := Split(s[i + 1..], sep);
      assert s == s[..i] + [sep] + s[i + 1..];
      CountSplit(s, i, sep);
      [s[..i]] + rest
  }

  function FirstIndex(s: string, c: char): (i: nat)
    requires c in s
    ensures i < |s| && s[i] == c && c !in s[..i]
  {
    if s[0] == c then 0 else FirstIndex(s[1..], c) + 1
  }

  lemma {:induction false} NoOccurrence(s: string, c: char)
    requires c !in s
    ensures Count(s, c) == 0
  {
    if |s| > 0 {
      assert c !in s[1..];
      NoOccurrence(s[1..], c);
    }
  }

  lemma {:induction false} CountAppend(a: string, b: string, c: char)
    ensures Count(a + b, c) == Count(a, c) + Count(b, c)
  {
    if |a| == 0 {
      assert a + b == b;
    } else {
      assert (a + b)[1..] == a[1..] + b;
      CountAppend(a[1..], b, c);
    }
  }

  lemma CountSplit(s: string, i: nat, c: char)
    requires i < |s| && s[i] == c && c !in s[..i]
    ensures Count(s, c) == Count(s[i + 1..], c) + 1
  {
    assert s == s[..i] + ([c] + s[i + 1..]);
    CountAppend(s[..i], [c] + s[i + 1..], c);
    NoOccurrence(s[..i], c);
    assert ([c] + s[i + 1..])[1..] == s[i + 1..];
  }

  /** The decimal digit for `d`. */
  function DigitChar(d: nat): (c: char)
    requires d < 10
    ensures '0' <= c <= '9'
  {
    "0123456789"[d]
  }

  predicate IsDigit(c: char) {
    '0' <= c <= '9'
  }

  function DigitValue(c: char): nat
    requires IsDigit(c)
  {
    (c - '0') as nat
  }

  /** The decimal numeral JavaScript prints for a non-negative integer. */
  function NatToString(n: nat): (s: string)
    ensures |s| > 0
    ensures forall i :: 0 <= i < |s| ==> IsDigit(s[i])
    ensures s[0] == '0' ==> n == 0
  {
    if n < 10 then [DigitChar(n)]
    else NatToString(n / 10) + [DigitChar(n % 10)]
  }

  /** The value of a string of decimal digits. */
  function ParseDigits(s: string): nat
    requires forall i :: 0 <= i < |s| ==> IsDigit(s[i])
  {
    if |s| == 0 then 0 else 10 * ParseDigits(s[..|s| - 1]) + DigitValue(s[|s| - 1])
  }

  /** Printing and reading back a non-negative integer are inverse. */
  lemma {:induction false} ParsePrinted(n: nat)
    ensures ParseDigits(NatToString(n)) == n
  {
    if n >= 10 {
      var s := NatToString(n);
      assert s[..|s| - 1] == NatToString(n / 10);
      ParsePrinted(n / 10);
    }
  }

  /** The numeral JavaScript prints for any integer, with a leading '-' when negative. */
  function IntToString(n: int): (s: string)
    ensures n >= 0 ==> s == NatToString(n)
    ensures n < 0 ==> s == "-" + NatToString(-n)
  {
    if n >= 0 then NatToString(n) else "-" + NatToString(-n)
  }

  /** A numeral as `Number(s)` reads one back: an optional leading '-' followed by decimal digits. */
  predicate IsNumeral(s: string) {
    if |s| > 0 && s[0] == '-' then |s| > 1 && forall i :: 1 <= i < |s| ==> IsDigit(s[i])
    else |s| > 0 && forall i :: 0 <= i < |s| ==> IsDigit(s[i])
  }

  /** The value of a numeral: the digits' value, negated after a leading '-'. */
  function ParseSigned(s: string): int
    requires IsNumeral(s)
  {
    if s[0] == '-' then
      assert forall i :: 0 <= i < |s[1..]| ==> s[1..][i] == s[i + 1];
      -(ParseDigits(s[1..]) as int)
    else ParseDigits(s)
  }

  /** Every integer prints as a numeral that starts with '-' exactly when it is negative and reads back as itself. */
  lemma {:induction false} SignedRoundTrip(n: int)
    ensures IsNumeral(IntToString(n))
    ensures IntToString(n)[0] == '-' <==> n < 0
    ensures ParseSigned(IntToString(n)) == n
  {
    var s := IntToString(n);
    if n >= 0 {
      assert IsDigit(s[0]);
      ParsePrinted(n);
    } else {
      assert s[1..] == NatToString(-n);
      ParsePrinted(-n);
    }
  }
}

=== FILE: progress_routes.dfy ===
/**
 * The progress routes (backend/routes/progress.js): starting and completing a
 * logged study session, carrying a completed session over to the matching
 * slot of the user's active plan, and submitting a quiz. Lookups are passed
 * in as their outcome, "now" as a millisecond timestamp and "today" as a
 * calendar day number.
 */
module ProgressRoutes {
  import opened Js
  import opened ScheduleModel
  import opened ScheduleStore
  import Study = StudySessionModel
  import Users = UserModel
  import Quiz = QuizResultModel

  // ---------------------------------------------------------------
  // POST /api/progress/session/start
  // ---------------------------------------------------------------

  datatype StartError = StartInvalid

  /**
   * Build the session from the body and save it. `plannedDuration` is required
   * by the schema; `topics` defaults to the empty list.
   */
  function StartStudy(userId: string, materialId: string, materialTitle: string, sessionType: string,
                      scheduledDay: Option<int>, plannedDuration: Option<int>, topics: Option<seq<string>>,
                      now: int): (r: Result<Study.StudySession, StartError>)
    ensures r.Ok? <==>
      userId != "" && materialId != "" && materialTitle != "" && Study.IsSessionType(sessionType) && plannedDuration.Some?
    ensures r.Ok? ==> (
      var s := r.value;
      && s.userId == userId && s.materialId == materialId && s.materialTitle == materialTitle && s.sessionType == sessionType
      && s.scheduledDay == scheduledDay && s.planned == plannedDuration.value && s.startTime == now
      && s.topics == (if topics.Some? then topics.value else [])
      && s.actual.None? && s.endTime.None? && !s.completed && s.notes.None? && s.performance.None?
      && Study.Valid(s))
  {
    if plannedDuration.None? then Err(StartInvalid)
    else
      var s := Study.StudySession(userId, materialId, materialTitle, sessionType, scheduledDay,
        plannedDuration.value, None, now, None, false, topics.GetOr([]), None, None);
      if Study.Valid(s) then Ok(s) else Err(StartInvalid)
  }

  // ---------------------------------------------------------------
  // Carrying a completed session over to the plan
  // ---------------------------------------------------------------

  /** `k` is the first session of type `t`: what `findIndex(s => s.type === t)` returns when it finds one. */
  predicate FirstOfType(sessions: seq<PlanSession>, t: string, k: int) {
    0 <= k < |sessions| && sessions[k].sessionType == t && forall m :: 0 <= m < k ==> sessions[m].sessionType != t
  }

  /** `findIndex(s => s.type === t)`. */
  function FindType(sessions: seq<PlanSession>, t: string): (k: int)
    ensures -1 <= k < |sessions|
    ensures k >= 0 ==> FirstOfType(sessions, t, k)
    ensures k == -1 ==> forall m :: 0 <= m < |sessions| ==> sessions[m].sessionType != t
  {
    if |sessions| == 0 then -1
    else if sessions[0].sessionType == t then 0
    else
      var k := FindType(sessions[1..], t);
      if k == -1 then -1 else k + 1
  }

  /** The first day numbered `day` has a session of type `t`. */
  predicate PlanHasSlot(plan: seq<Day>, day: int, t: string) {
    exists i, m :: 0 <= i < |plan| && FirstNumbered(plan, day, i) && 0 <= m < |plan[i].sessions| && plan[i].sessions[m].sessionType == t
  }

  /**
   * Find the day by number, then the first of its sessions with the logged
   * type, and complete that slot; with no such day or session, nothing changes.
   * This is the intended carry-over: the route looks the days up under
   * `scheduleData`, a path the plan does not have (see `CompleteStudyAsWritten`),
   * and this looks them up in the plan's own days.
   */
  function SyncSchedule(s: Schedule, day: int, t: string, now: int): (r: Schedule)
    ensures !PlanHasSlot(s.plan, day, t) ==> r == s
    ensures PlanHasSlot(s.plan, day, t) ==> (
      && TotalSessions(s.plan) > 0
      && exists i, k :: FirstNumbered(s.plan, day, i) && FirstOfType(s.plan[i].sessions, t, k)
                        && r == CompleteSession(s, day, k, now))
  {
    var i := FindDay(s.plan, day);
    if i == |s.plan| then s
    else
      var k := FindType(s.plan[i].sessions, t);
      if k == -1 then
        assert !PlanHasSlot(s.plan, day, t) by {
          forall i', m | FirstNumbered(s.plan, day, i') && 0 <= m < |s.plan[i'].sessions|
            ensures s.plan[i'].sessions[m].sessionType != t
          {
            FirstNumberedUnique(s.plan, day, i, i');
          }
        }
        s
      else
        DayWithinTotal(s.plan, i);
        CompleteSession(s, day, k, now)
  }

  /** `if (session.scheduledDay)`: a present, non-zero day number. */
  predicate ScheduledDayTruthy(sess: Study.StudySession) {
    sess.scheduledDay.Some? && sess.scheduledDay.value != 0
  }

  /** The intended schedule half of completing a session: the pair's first active plan is synced, nothing else changes. */
  function SyncStore(store: seq<Schedule>, sess: Study.StudySession, now: int): (r: seq<Schedule>)
    ensures |r| == |store|
    ensures !ScheduledDayTruthy(sess) ==> r == store
    ensures ScheduledDayTruthy(sess) ==>
      var i := FindActive(store, sess.userId, sess.materialId);
      r == if i < |store| then store[i := SyncSchedule(store[i], sess.scheduledDay.value, sess.sessionType, now)] else store
  {
    if !ScheduledDayTruthy(sess) then store
    else
      var i := FindActive(store, sess.userId, sess.materialId);
      if i < |store| then store[i := SyncSchedule(store[i], sess.scheduledDay.value, sess.sessionType, now)] else store
  }

  /** A session logged against day 0, or against no day, never touches a plan. */
  lemma DayZeroNeverSyncs(store: seq<Schedule>, sess: Study.StudySession, now: int)
    requires sess.scheduledDay == Some(0) || sess.scheduledDay.None?
    ensures SyncStore(store, sess, now) == store
  {
  }

  /** Syncing keeps at most one active plan per pair: a plan only ever retires. */
  lemma SyncKeepsOneActive(store: seq<Schedule>, sess: Study.StudySession, now: int)
    requires AtMostOneActive(store)
    ensures AtMostOneActive(SyncStore(store, sess, now))
  {
    if ScheduledDayTruthy(sess) {
      var i := FindActive(store, sess.userId, sess.materialId);
      if i < |store| {
        ReplaceKeepsOneActive(store, i, SyncSchedule(store[i], sess.scheduledDay.value, sess.sessionType, now));
      }
    }
  }

  /** When the plan has a matching slot, exactly one completion record is added, for the first matching session. */
  lemma SyncAddsOneRecord(s: Schedule, day: int, t: string, now: int)
    requires PlanHasSlot(s.plan, day, t)
    ensures var r := SyncSchedule(s, day, t, now);
      && |r.progress.completedSessions| == |s.progress.completedSessions| + 1
      && r.progress.completedSessions[..|s.progress.completedSessions|] == s.progress.completedSessions
      && var c := r.progress.completedSessions[|s.progress.completedSessions|];
         c.day == day && c.completedAt == now && FirstOfType(s.plan[FindDay(s.plan, day)].sessions, t, c.sessionIndex)
  {
    var r := SyncSchedule(s, day, t, now);
    var i, k :| FirstNumbered(s.plan, day, i) && FirstOfType(s.plan[i].sessions, t, k) && r == CompleteSession(s, day, k, now);
    FirstNumberedUnique(s.plan, day, i, FindDay(s.plan, day));
  }

  // ---------------------------------------------------------------
  // POST /api/progress/session/complete
  // ---------------------------------------------------------------

  datatype CompleteError = SessionNotFound | SaveFailed | ScheduleReadFailed

  datatype StudyCompleted = StudyCompleted(session: Study.StudySession, user: Option<Users.Stats>, store: seq<Schedule>)

  /**
   * The session as the route leaves it before saving: the end time is set to
   * now first, so the duration comes from the clock; notes and ratings replace
   * the stored ones only when the body's values are truthy (an empty note does not).
   */
  function Finish(sess: Study.StudySession, notes: string, performance: Option<Study.Performance>, now: int): (r: Study.StudySession)
    ensures r.completed && r.endTime == Some(now) && r.actual.Some?
    ensures -Study.MS_PER_MINUTE < 2 * (r.actual.value * Study.MS_PER_MINUTE - (now - sess.startTime)) <= Study.MS_PER_MINUTE
    ensures r.notes == if notes != "" then Some(notes) else sess.notes
    ensures r.performance == if performance.Some? then performance else sess.performance
    ensures r.(actual := sess.actual, endTime := sess.endTime, completed := sess.completed,
               notes := sess.notes, performance := sess.performance) == sess
  {
    var done := Study.CompleteSession(sess.(endTime := Some(now)));
    var withNotes := if notes != "" then done.(notes := Some(notes)) else done;
    if performance.Some? then withNotes.(performance := performance) else withNotes
  }

  /** Two sessions that differ only in a stored duration finish with the same one: the clock decides. */
  lemma ClockDecidesDuration(a: Study.StudySession, b: Study.StudySession, notes: string,
                             performance: Option<Study.Performance>, now: int)
    requires a.startTime == b.startTime
    ensures Finish(a, notes, performance, now).actual == Finish(b, notes, performance, now).actual
  {
  }

  /** A plan the completed session would be carried over to: a truthy day and an active plan for the pair. */
  predicate ReachesPlan(store: seq<Schedule>, sess: Study.StudySession) {
    ScheduledDayTruthy(sess) && FindActive(store, sess.userId, sess.materialId) < |store|
  }

  /**
   * What a completion request leaves behind as the route is written: the reply,
   * the session as saved (if it was), the user's stats and the plans.
   */
  datatype CompleteEffect = CompleteEffect(
    reply: Result<Study.StudySession, CompleteError>,
    saved: Option<Study.StudySession>,
    user: Option<Users.Stats>,
    store: seq<Schedule>)

  /**
   * The route as written. The session and the user are saved first; then, for a
   * truthy day with an active plan, the route reads `schedule.scheduleData.schedule`.
   * The plan schema has no `scheduleData` path, so that read is `undefined.schedule`,
   * which throws, and the catch answers 500. The plan is never changed.
   */
  function CompleteStudyAsWritten(found: Option<Study.StudySession>, notes: string, performance: Option<Study.Performance>,
                                  user: Option<Users.Stats>, store: seq<Schedule>, now: int, today: int): (r: CompleteEffect)
    ensures r.store == store
    ensures found.None? ==> r == CompleteEffect(Err(SessionNotFound), None, user, store)
    ensures found.Some? && !Study.Valid(Finish(found.value, notes, performance, now)) ==>
      r == CompleteEffect(Err(SaveFailed), None, user, store)
    ensures found.Some? && Study.Valid(Finish(found.value, notes, performance, now)) ==> (
      var s := Finish(found.value, notes, performance, now);
      && r.saved == Some(s)
      && r.user == (if user.Some? then Some(Users.UpdateStreak(user.value, today)) else None)
      && (r.reply.Ok? <==> !ReachesPlan(store, s))
      && (r.reply.Ok? ==> r.reply.value == s)
      && (r.reply.Err? ==> r.reply.error == ScheduleReadFailed))
  {
    if found.None? then CompleteEffect(Err(SessionNotFound), None, user, store)
    else
      var s := Finish(found.value, notes, performance, now);
      if !Study.Valid(s) then CompleteEffect(Err(SaveFailed), None, user, store)
      else
        var u := if user.Some? then Some(Users.UpdateStreak(user.value, today)) else None;
        var reply := if ReachesPlan(store, s) then Err(ScheduleReadFailed) else Ok(s);
        CompleteEffect(reply, Some(s), u, store)
  }

  /**
   * The discrepancy: a valid session logged against a plan slot that exists. As
   * written the request fails after both saves and the plan keeps its records; the
   * intended route succeeds and the plan gains one completion record.
   */
  lemma AsWrittenLosesPlanUpdate(sess: Study.StudySession, notes: string, performance: Option<Study.Performance>,
                                 user: Option<Users.Stats>, store: seq<Schedule>, now: int, today: int)
    requires Study.Valid(Finish(sess, notes, performance, now))
    requires ReachesPlan(store, sess)
    requires PlanHasSlot(store[FindActive(store, sess.userId, sess.materialId)].plan, sess.scheduledDay.value, sess.sessionType)
    ensures var w := CompleteStudyAsWritten(Some(sess), notes, performance, user, store, now, today);
      && w.reply == Err(ScheduleReadFailed) && w.saved.Some? && w.store == store
    ensures var c := CompleteStudy(Some(sess), notes, performance, user, store, now, today);
      var i := FindActive(store, sess.userId, sess.materialId);
      && c.Ok? && c.value.session == Finish(sess, notes, performance, now)
      && |c.value.store[i].progress.completedSessions| == |store[i].progress.completedSessions| + 1
  {
    var s := Finish(sess, notes, performance, now);
    assert ReachesPlan(store, s);
    var i := FindActive(store, sess.userId, sess.materialId);
    SyncAddsOneRecord(store[i], sess.scheduledDay.value, sess.sessionType, now);
  }

  /**
   * The intended route: complete the session, save it, give the user (if any) a
   * streak update, then sync the plan. A save that fails validation ends the
   * request with nothing else written.
   */
  function CompleteStudy(found: Option<Study.StudySession>, notes: string, performance: Option<Study.Performance>,
                         user: Option<Users.Stats>, store: seq<Schedule>, now: int, today: int): (r: Result<StudyCompleted, CompleteError>)
    ensures r == Err(SessionNotFound) <==> found.None?
    ensures r == Err(SaveFailed) <==> found.Some? && !Study.Valid(Finish(found.value, notes, performance, now))
    ensures r.Ok? ==> (
      && r.value.session == Finish(found.value, notes, performance, now) && Study.Valid(r.value.session)
      && (user.None? ==> r.value.user.None?)
      && (user.Some? ==> r.value.user == Some(Users.UpdateStreak(user.value, today)))
      && r.value.store == SyncStore(store, r.value.session, now))
  {
    if found.None? then Err(SessionNotFound)
    else
      var s := Finish(found.value, notes, performance, now);
      if !Study.Valid(s) then Err(SaveFailed)
      else
        var u := if user.Some? then Some(Users.UpdateStreak(user.value, today)) else None;
        Ok(StudyCompleted(s, u, SyncStore(store, s, now)))
  }

  /** A note longer than the schema's limit makes the save fail. */
  lemma LongNotesRejected(sess: Study.StudySession, notes: string, performance: Option<Study.Performance>,
                          user: Option<Users.Stats>, store: seq<Schedule>, now: int, today: int)
    requires |notes| > Study.MAX_NOTES
    ensures CompleteStudy(Some(sess), notes, performance, user, store, now, today) == Err(SaveFailed)
  {
  }

  /** Completing a session keeps at most one active plan per pair. */
  lemma CompleteStudyKeepsOneActive(found: Option<Study.StudySession>, notes: string, performance: Option<Study.Performance>,
                                    user: Option<Users.Stats>, store: seq<Schedule>, now: int, today: int)
    requires AtMostOneActive(store)
    ensures var r := CompleteStudy(found, notes, performance, user, store, now, today);
      r.Ok? ==> AtMostOneActive(r.value.store)
  {
    var r := CompleteStudy(found, notes, performance, user, store, now, today);
    if r.Ok? {
      SyncKeepsOneActive(store, r.value.session, now);
    }
  }

  // ---------------------------------------------------------------
  // POST /api/progress/quiz/submit
  // ---------------------------------------------------------------

  datatype Submitted = Submitted(doc: Quiz.QuizDoc, user: Option<Users.Stats>)

  /**
   * The user half of a submission: one more quiz taken, the running average
   * recomputed from the old sum and the new score and rounded, and a streak update.
   */
  function FoldScore(user: Option<Users.Stats>, score: int, today: int): (r: Option<Users.Stats>)
    ensures r.Some? <==> user.Some?
    ensures r.Some? ==> (
      var before := user.value;
      var after := r.value;
      && after.totalQuizzesTaken == before.totalQuizzesTaken + 1
      && 2 * after.totalQuizzesTaken * after.averageQuizScore
         <= 2 * (before.averageQuizScore * before.totalQuizzesTaken + score) + after.totalQuizzesTaken
         < 2 * after.totalQuizzesTaken * (after.averageQuizScore + 1)
      && after.lastStudyDay == Some(today))
  {
    if user.Some? then Some(Users.RecordQuiz(user.value, score, today)) else None
  }

  /** Save the new result, then fold its score into the user's running average. */
  function SubmitQuiz(doc: Quiz.QuizDoc, user: Option<Users.Stats>, today: int): (r: Result<Submitted, string>)
    ensures r.Ok? <==> Quiz.ValidDoc(doc)
    ensures r.Ok? ==> r.value.doc == Quiz.PreSave(doc, true)
    ensures r.Ok? ==> r.value.user == FoldScore(user, doc.quizData.score, today)
  {
    var saved := Quiz.Save(doc, true);
    if saved.Err? then Err(saved.error)
    else Ok(Submitted(saved.value, FoldScore(user, doc.quizData.score, today)))
  }

  /** A user whose running average is a percentage keeps one after a valid submission. */
  lemma SubmitKeepsAverageInRange(doc: Quiz.QuizDoc, st: Users.Stats, today: int)
    requires Quiz.ValidDoc(doc) && 0 <= st.averageQuizScore <= 100
    ensures var r := SubmitQuiz(doc, Some(st), today);
      r.Ok? && r.value.user.Some? && 0 <= r.value.user.value.averageQuizScore <= 100
  {
    Users.RecordQuizAverageInRange(st, doc.quizData.score, today);
  }
}

=== FILE: quiz_result.dfy ===
/**
 * One stored quiz attempt (backend/models/QuizResult.js): its answers, the
 * per-topic statistics derived from them, the pre-save hook that derives
 * them, and the schema's constraints on the summary.
 */
module QuizResultModel {
  import opened Js
  import opened Grouping
  import opened StableSort

  /** An answered question. An empty `topic` stands for a missing one. */
  datatype Answer = Answer(
    questionNumber: int,
    question: string,
    selectedAnswer: Option<string>,
    correctAnswer: string,
    isCorrect: bool,
    topic: string,
    timeTaken: nat)

  const DEFAULT_TOPIC := "General"

  /** `answer.topic || 'General'`. */
  function TopicOf(a: Answer): string {
    if a.topic == "" then DEFAULT_TOPIC else a.topic
  }

  function CorrectPoint(a: Answer): int {
    if a.isCorrect then 1 else 0
  }

  function OnePoint(a: Answer): int {
    1
  }

  /** How many of `answers` are marked correct. */
  function NumCorrect(answers: seq<Answer>): (n: int)
    ensures 0 <= n <= |answers|
  {
    CorrectBounds(answers);
    Total(answers, CorrectPoint)
  }

  lemma {:induction false} CorrectBounds(answers: seq<Answer>)
    ensures 0 <= Total(answers, CorrectPoint) <= |answers|
    ensures Total(answers, OnePoint) == |answers|
  {
    if |answers| > 0 {
      CorrectBounds(answers[..|answers| - 1]);
    }
  }

  datatype TopicStat = TopicStat(topic: string, questionsAsked: nat, questionsCorrect: nat, accuracy: int)

  function Accuracy(t: TopicStat): int {
    t.accuracy
  }

  function TopicName(t: TopicStat): string {
    t.topic
  }

  function Asked(t: TopicStat): int {
    t.questionsAsked
  }

  /** The statistics of one topic's bucket. */
  function StatOf(g: Group<string, Answer>): TopicStat
    requires g.items != []
  {
    var correct := NumCorrect(g.items);
    TopicStat(g.key, |g.items|, correct, Percent(correct, |g.items|))
  }

  /** `t` is what the answers say about topic `t.topic`. */
  predicate Describes(answers: seq<Answer>, t: TopicStat) {
    var mine := Select(answers, TopicOf, t.topic);
    && t.questionsAsked == |mine| >= 1
    && t.questionsCorrect == NumCorrect(mine)
    && t.accuracy == Percent(t.questionsCorrect, t.questionsAsked)
  }

  function StatsOf(g: seq<Group<string, Answer>>): (u: seq<TopicStat>)
    requires forall i :: 0 <= i < |g| ==> g[i].items != []
    ensures |u| == |g| && forall i :: 0 <= i < |g| ==> u[i] == StatOf(g[i])
  {
    seq(|g|, i requires 0 <= i < |g| => StatOf(g[i]))
  }

  /** `Object.values(topicStats).map(...)` before sorting: one entry per topic, in first-occurrence order. */
  function TopicTable(answers: seq<Answer>): (u: seq<TopicStat>)
    ensures DistinctBy(u, TopicName)
    ensures forall i :: 0 <= i < |u| ==> Describes(answers, u[i])
    ensures forall i, j :: 0 <= i < j < |u| ==>
      FirstPos(answers, TopicOf, u[i].topic) < FirstPos(answers, TopicOf, u[j].topic)
    ensures forall j :: 0 <= j < |answers| ==> TopicOf(answers[j]) in Project(u, TopicName)
    ensures Total(u, Asked) == |answers|
  {
    var g := GroupBy(answers, TopicOf);
    TableFacts(answers, g);
    GroupByTotal(answers, TopicOf, OnePoint);
    CorrectBounds(answers);
    TableAsked(g, StatsOf(g));
    StatsOf(g)
  }

  lemma TableFacts(answers: seq<Answer>, g: seq<Group<string, Answer>>)
    requires Buckets(answers, TopicOf, g)
    ensures var u := StatsOf(g);
      && DistinctBy(u, TopicName)
      && (forall i :: 0 <= i < |u| ==> Describes(answers, u[i]))
      && (forall i, j :: 0 <= i < j < |u| ==>
           FirstPos(answers, TopicOf, u[i].topic) < FirstPos(answers, TopicOf, u[j].topic))
      && (forall j :: 0 <= j < |answers| ==> TopicOf(answers[j]) in Project(u, TopicName))
  {
    var u := StatsOf(g);
    TableDescribes(answers, g, u);
    TableCovers(answers, g, u);
  }

  lemma TableDescribes(answers: seq<Answer>, g: seq<Group<string, Answer>>, u: seq<TopicStat>)
    requires Buckets(answers, TopicOf, g)
    requires u == StatsOf(g)
    ensures forall i :: 0 <= i < |u| ==> Describes(answers, u[i])
  {
    forall i | 0 <= i < |u| ensures Describes(answers, u[i]) {
      assert u[i] == StatOf(g[i]);
      assert g[i].items == Select(answers, TopicOf, g[i].key);
    }
  }

  lemma TableCovers(answers: seq<Answer>, g: seq<Group<string, Answer>>, u: seq<TopicStat>)
    requires Buckets(answers, TopicOf, g)
    requires u == StatsOf(g)
    ensures forall j :: 0 <= j < |answers| ==> TopicOf(answers[j]) in Project(u, TopicName)
  {
    forall j | 0 <= j < |answers| ensures TopicOf(answers[j]) in Project(u, TopicName) {
      var i :| 0 <= i < |g| && Keys(g)[i] == TopicOf(answers[j]);
      assert u[i] == StatOf(g[i]);
      assert Project(u, TopicName)[i] == TopicOf(answers[j]);
    }
  }

  lemma {:induction false} TableAsked(g: seq<Group<string, Answer>>, u: seq<TopicStat>)
    requires forall i :: 0 <= i < |g| ==> g[i].items != []
    requires |u| == |g| && forall i :: 0 <= i < |g| ==> u[i] == StatOf(g[i])
    ensures Total(u, Asked) == BucketTotal(g, OnePoint)
  {
    if |g| > 0 {
      TableAsked(g[1..], u[1..]);
      CorrectBounds(g[0].items);
      TotalAppend([u[0]], u[1..], Asked);
      assert u == [u[0]] + u[1..];
      assert [u[0]] == [] + [u[0]];
    }
  }

  /** Entries of equal accuracy appear in the order their topics first occur among the answers. */
  predicate TiesInFirstSeenOrder(answers: seq<Answer>, r: seq<TopicStat>) {
    forall i, j :: 0 <= i < j < |r| && r[i].accuracy == r[j].accuracy ==>
      FirstPos(answers, TopicOf, r[i].topic) < FirstPos(answers, TopicOf, r[j].topic)
  }

  /**
   * `calculateWeakTopics`: one entry per distinct topic (a missing topic counts as
   * "General"), sorted ascending by accuracy, ties kept in the order the topics
   * first occur among the answers.
   */
  function CalculateWeakTopics(answers: seq<Answer>): (r: seq<TopicStat>)
    ensures SortedBy(r, Accuracy)
    ensures TiesInFirstSeenOrder(answers, r)
    ensures DistinctBy(r, TopicName)
    ensures forall i :: 0 <= i < |r| ==> Describes(answers, r[i])
    ensures forall j :: 0 <= j < |answers| ==> TopicOf(answers[j]) in Project(r, TopicName)
    ensures Total(r, Asked) == |answers|
  {
    var u := TopicTable(answers);
    SortFacts(answers, u);
    SortBy(u, Accuracy)
  }

  lemma SortFacts(answers: seq<Answer>, u: seq<TopicStat>)
    requires u == TopicTable(answers)
    ensures var r := SortBy(u, Accuracy);
      && TiesInFirstSeenOrder(answers, r)
      && DistinctBy(r, TopicName)
      && (forall i :: 0 <= i < |r| ==> Describes(answers, r[i]))
      && (forall j :: 0 <= j < |answers| ==> TopicOf(answers[j]) in Project(r, TopicName))
      && Total(r, Asked) == |answers|
  {
    var r := SortBy(u, Accuracy);
    SortKeepsDistinct(u, Accuracy, TopicName);
    var rank := (t: TopicStat) => FirstPos(answers, TopicOf, t.topic);
    SortTiesRanked(u, Accuracy, rank);
    assert TiesRanked(r, Accuracy, rank);
    SortTotal(u, Accuracy, Asked);
    forall i | 0 <= i < |r| ensures Describes(answers, r[i]) {
      assert r[i] in multiset(u);
    }
    SortCovers(answers, u, r);
  }

  lemma SortCovers(answers: seq<Answer>, u: seq<TopicStat>, r: seq<TopicStat>)
    requires forall j :: 0 <= j < |answers| ==> TopicOf(answers[j]) in Project(u, TopicName)
    requires multiset(r) == multiset(u)
    ensures forall j :: 0 <= j < |answers| ==> TopicOf(answers[j]) in Project(r, TopicName)
  {
    forall j | 0 <= j < |answers| ensures TopicOf(answers[j]) in Project(r, TopicName) {
      var m :| 0 <= m < |u| && Project(u, TopicName)[m] == TopicOf(answers[j]);
      assert u[m] in multiset(r);
      var i :| 0 <= i < |r| && r[i] == u[m];
      assert Project(r, TopicName)[i] == TopicOf(answers[j]);
    }
  }

  /** Every derived entry is a sane count and a percentage that hits 0 and 100 at the extremes. */
  lemma WeakTopicBounds(answers: seq<Answer>, i: nat)
    requires i < |CalculateWeakTopics(answers)|
    ensures var t := CalculateWeakTopics(answers)[i];
      && 1 <= t.questionsAsked
      && 0 <= t.questionsCorrect <= t.questionsAsked
      && 0 <= t.accuracy <= 100
      && (t.questionsCorrect == 0 ==> t.accuracy == 0)
      && (t.questionsCorrect == t.questionsAsked ==> t.accuracy == 100)
  {
    var t := CalculateWeakTopics(answers)[i];
    PercentRange(t.questionsCorrect, t.questionsAsked);
    PercentOfNone(t.questionsAsked);
    PercentOfAll(t.questionsAsked);
  }

  /** Rounding means 100 does not imply every answer was right: 199 of 200 already rounds to 100. */
  lemma RoundedAccuracyNotExact()
    ensures Percent(199, 200) == 100
  {
  }

  /**
   * The summary block the schema validates. The two counts are required by the
   * schema but nothing before `save()` checks them, so a body may leave them out.
   */
  datatype QuizData = QuizData(totalQuestions: Option<int>, correctAnswers: Option<int>, score: int, difficulty: string)

  datatype QuizDoc = QuizDoc(
    userId: string,
    materialId: string,
    materialTitle: string,
    quizData: QuizData,
    answers: seq<Answer>,
    weakTopics: seq<TopicStat>,
    timeSpent: Option<int>,
    completedAt: int)

  predicate IsDifficulty(d: string) {
    d in {"easy", "medium", "hard"}
  }

  /** The schema's validators on the summary: both counts present, a score between 0 and 100 and a known difficulty. */
  predicate ValidQuizData(q: QuizData) {
    q.totalQuestions.Some? && q.correctAnswers.Some? && 0 <= q.score <= 100 && IsDifficulty(q.difficulty)
  }

  /** The schema's validators on the whole document: a valid summary and a present `timeSpent`. */
  predicate ValidDoc(doc: QuizDoc) {
    ValidQuizData(doc.quizData) && doc.timeSpent.Some?
  }

  /** The pre-save hook: weak topics are derived only for a new document with answers. */
  function PreSave(doc: QuizDoc, isNew: bool): (r: QuizDoc)
    ensures r.(weakTopics := doc.weakTopics) == doc
    ensures isNew && |doc.answers| > 0 ==> r.weakTopics == CalculateWeakTopics(doc.answers)
    ensures !(isNew && |doc.answers| > 0) ==> r == doc
  {
    if isNew && |doc.answers| > 0 then doc.(weakTopics := CalculateWeakTopics(doc.answers)) else doc
  }

  /** Saving: validation first, then the hook. */
  function Save(doc: QuizDoc, isNew: bool): (r: Result<QuizDoc, string>)
    ensures r.Ok? <==> ValidDoc(doc)
    ensures r.Ok? ==> r.value == PreSave(doc, isNew)
  {
    if ValidDoc(doc) then Ok(PreSave(doc, isNew)) else Err("Validation failed")
  }

  /** Weak-topic entries as every stored document holds them: at least one question each, no more correct than asked. */
  predicate WellFormedTopics(ts: seq<TopicStat>) {
    forall i :: 0 <= i < |ts| ==> 1 <= ts[i].questionsAsked && ts[i].questionsCorrect <= ts[i].questionsAsked
  }

  /** A new document starts with no weak topics, so whatever the hook leaves is well formed. */
  lemma SavedTopicsWellFormed(doc: QuizDoc, isNew: bool)
    requires isNew ==> doc.weakTopics == []
    requires WellFormedTopics(doc.weakTopics)
    ensures WellFormedTopics(PreSave(doc, isNew).weakTopics)
  {
    if isNew && |doc.answers| > 0 {
      forall i | 0 <= i < |CalculateWeakTopics(doc.answers)| {
        WeakTopicBounds(doc.answers, i);
      }
    }
  }
}

=== FILE: quiz_results_route.dfy ===
/**
 * `POST /api/quiz-results` (backend/routes/quizResults.js): the request body's
 * six fields are checked in a fixed order, and the request is refused with the
 * names of every missing field joined by ", ".
 */
module QuizResultsRoute {
  import opened Js

  datatype QuizRequest = QuizRequest(
    userId: JsValue,
    materialId: JsValue,
    materialTitle: JsValue,
    quizData: JsValue,
    answers: JsValue,
    timeSpent: JsValue)

  /** The six required fields, declared in checking order. */
  datatype FieldName = UserId | MaterialId | MaterialTitle | QuizData | Answers | TimeSpent

  /** A field's place in the checking order. */
  function Rank(f: FieldName): nat {
    match f
    case UserId => 0
    case MaterialId => 1
    case MaterialTitle => 2
    case QuizData => 3
    case Answers => 4
    case TimeSpent => 5
  }

  /** The name reported for a field. */
  function Label(f: FieldName): string {
    match f
    case UserId => "userId"
    case MaterialId => "materialId"
    case MaterialTitle => "materialTitle"
    case QuizData => "quizData"
    case Answers => "answers"
    case TimeSpent => "timeSpent"
  }

  const CHECK_ORDER: seq<FieldName> := [UserId, MaterialId, MaterialTitle, QuizData, Answers, TimeSpent]

  function Field(req: QuizRequest, f: FieldName): JsValue {
    match f
    case UserId => req.userId
    case MaterialId => req.materialId
    case MaterialTitle => req.materialTitle
    case QuizData => req.quizData
    case Answers => req.answers
    case TimeSpent => req.timeSpent
  }

  /** The first five fields are missing when falsy; `timeSpent` only when `== null`. */
  predicate Missing(req: QuizRequest, f: FieldName) {
    if f == TimeSpent then IsNullish(Field(req, f)) else !Truthy(Field(req, f))
  }

  predicate Ascending(fs: seq<FieldName>) {
    forall a, b :: 0 <= a < b < |fs| ==> Rank(fs[a]) < Rank(fs[b])
  }

  /** The missing fields among `fs`, in the order of `fs`. */
  function MissingAmong(req: QuizRequest, fs: seq<FieldName>): (r: seq<FieldName>)
    ensures forall f :: f in r <==> f in fs && Missing(req, f)
    ensures Ascending(fs) ==> Ascending(r)
  {
    if |fs| == 0 then []
    else
      var rest := MissingAmong(req, fs[1..]);
      if Missing(req, fs[0]) then
        HeadBelowRest(fs, rest);
        [fs[0]] + rest
      else rest
  }

  /** In an ascending list the head ranks below every field drawn from the tail. */
  lemma HeadBelowRest(fs: seq<FieldName>, rest: seq<FieldName>)
    requires |fs| > 0
    requires forall f :: f in rest ==> f in fs[1..]
    ensures Ascending(fs) ==> forall f :: f in rest ==> Rank(fs[0]) < Rank(f)
  {
    if Ascending(fs) {
      forall f | f in rest ensures Rank(fs[0]) < Rank(f) {
        var k :| 0 <= k < |fs[1..]| && fs[1..][k] == f;
        assert fs[k + 1] == f;
      }
    }
  }

  /**
   * `missingFields`: exactly the missing fields, each once, in the order
   * userId, materialId, materialTitle, quizData, answers, timeSpent.
   */
  function MissingFields(req: QuizRequest): (r: seq<FieldName>)
    ensures forall f :: f in r <==> Missing(req, f)
    ensures Ascending(r)
  {
    assert forall f: FieldName :: f in CHECK_ORDER by {
      forall f: FieldName ensures f in CHECK_ORDER {
        assert CHECK_ORDER[Rank(f)] == f;
      }
    }
    MissingAmong(req, CHECK_ORDER)
  }

  /** `parts.join(", ")`. */
  function JoinComma(parts: seq<string>): string {
    if |parts| == 0 then ""
    else if |parts| == 1 then parts[0]
    else parts[0] + ", " + JoinComma(parts[1..])
  }

  /** The refusal's message. */
  function MissingMessage(missing: seq<FieldName>): string {
    "Missing required fields: " + JoinComma(seq(|missing|, i requires 0 <= i < |missing| => Label(missing[i])))
  }

  /** The route's validation step: the request passes on, or is refused with the message. */
  function Validate(req: QuizRequest): (r: Result<QuizRequest, string>)
    ensures r.Ok? <==> forall f :: !Missing(req, f)
    ensures r.Ok? ==> r.value == req
    ensures r.Err? ==> r.error == MissingMessage(MissingFields(req))
  {
    var missing := MissingFields(req);
    if |missing| > 0 then
      assert missing[0] in missing;
      Err(MissingMessage(missing))
    else Ok(req)
  }

  /** Zero seconds spent is a present `timeSpent`. */
  lemma ZeroTimeSpentAccepted(req: QuizRequest)
    requires req.timeSpent == Num(0)
    ensures TimeSpent !in MissingFields(req)
  {
  }

  /** An empty answers array is truthy, so it passes the check. */
  lemma EmptyAnswersAccepted(req: QuizRequest)
    requires req.answers == Composite(0)
    ensures Answers !in MissingFields(req)
  {
  }

  /** Every falsy id is reported, `""` and `0` included. */
  lemma FalsyIdReported(req: QuizRequest)
    requires req.userId in {Str(""), Num(0), Null, Undefined, Bool(false)}
    ensures UserId in MissingFields(req)
    ensures Validate(req).Err?
  {
  }

  lemma {:induction false} NothingFiltered(req: QuizRequest, fs: seq<FieldName>)
    requires forall f :: Missing(req, f)
    ensures MissingAmong(req, fs) == fs
  {
    if |fs| > 0 {
      NothingFiltered(req, fs[1..]);
      assert fs == [fs[0]] + fs[1..];
    }
  }

  /** An empty body names all six fields, in checking order. */
  lemma EmptyBodyNamesAll()
    ensures MissingFields(QuizRequest(Undefined, Undefined, Undefined, Undefined, Undefined, Undefined)) == CHECK_ORDER
  {
    NothingFiltered(QuizRequest(Undefined, Undefined, Undefined, Undefined, Undefined, Undefined), CHECK_ORDER);
  }
}

=== FILE: quiz_view.dfy ===
/**
 * The quiz screen's logic (frontend/src/components/Quiz.jsx): moving between
 * questions, the score shown on the results page, the answer records and the
 * summary block sent to the quiz-results route. The selections are the
 * component's `selectedAnswers` object, keyed by question index.
 */
module QuizView {
  import opened Js
  import opened JsText
  import opened Grouping
  import Q = QuizResultModel

  /** One generated question; an absent topic is the empty string. */
  datatype Question = Question(question: string, correctAnswer: string, topic: string)

  type Selections = map<int, string>

  // ---------------------------------------------------------------
  // Navigation
  // ---------------------------------------------------------------

  /** `handleNext`: one step forward unless on the last question. */
  function Next(current: int, count: nat): (r: int)
    requires 0 <= current < count
    ensures 0 <= r < count
    ensures r == current <==> current == count - 1
    ensures r != current ==> r == current + 1
  {
    if current < count - 1 then current + 1 else current
  }

  /** `handlePrevious`: one step back unless on the first question. */
  function Previous(current: int, count: nat): (r: int)
    requires 0 <= current < count
    ensures 0 <= r < count
    ensures r == current <==> current == 0
    ensures r != current ==> r == current - 1
  {
    if current > 0 then current - 1 else current
  }

  /** Every selection belongs to a question of the quiz. */
  predicate KeysInRange(selected: Selections, count: nat) {
    forall k :: k in selected ==> 0 <= k < count
  }

  /** `handleAnswerSelect`: records the answer for the question on screen. */
  function Select(selected: Selections, current: int, answer: string): (r: Selections)
    ensures current in r && r[current] == answer
    ensures forall k :: k in selected && k != current ==> k in r && r[k] == selected[k]
    ensures forall k :: k in r ==> k in selected || k == current
  {
    selected[current := answer]
  }

  /** Selecting on a question reached by navigation keeps every key in range. */
  lemma SelectKeepsRange(selected: Selections, count: nat, current: int, answer: string)
    requires KeysInRange(selected, count) && 0 <= current < count
    ensures KeysInRange(Select(selected, current, answer), count)
  {
  }

  /** The submit button's guard: as many selections as questions. */
  predicate SubmitEnabled(selected: Selections, count: nat) {
    |selected.Keys| == count
  }

  function Indices(count: nat): (s: set<int>)
    ensures forall i :: i in s <==> 0 <= i < count
    ensures |s| == count
  {
    if count == 0 then {}
    else
      var s := Indices(count - 1);
      assert count - 1 !in s;
      s + {count - 1}
  }

  lemma SubsetCard(a: set<int>, b: set<int>)
    requires a <= b
    ensures |a| <= |b|
  {
    assert b == a + (b - a);
    assert a * (b - a) == {};
  }

  /** With every key in range, submitting is enabled exactly when every question is answered. */
  lemma SubmitEnabledIffAllAnswered(selected: Selections, count: nat)
    requires KeysInRange(selected, count)
    ensures SubmitEnabled(selected, count) <==> forall i :: 0 <= i < count ==> i in selected
  {
    var all := Indices(count);
    assert selected.Keys <= all;
    if forall i :: 0 <= i < count ==> i in selected {
      assert selected.Keys == all;
    } else {
      var i :| 0 <= i < count && i !in selected;
      assert selected.Keys <= all - {i};
      SubsetCard(selected.Keys, all - {i});
    }
  }

  // ---------------------------------------------------------------
  // Scoring and the answer records
  // ---------------------------------------------------------------

  /** `selectedAnswers[index] === q.correctAnswer`. */
  predicate Hit(quiz: seq<Question>, selected: Selections, i: nat)
    requires i < |quiz|
  {
    i in selected && selected[i] == quiz[i].correctAnswer
  }

  function ScoreUpTo(quiz: seq<Question>, selected: Selections, k: nat): (n: nat)
    requires k <= |quiz|
    ensures n <= k
    ensures n == k <==> forall i :: 0 <= i < k ==> Hit(quiz, selected, i)
    ensures n == 0 <==> forall i :: 0 <= i < k ==> !Hit(quiz, selected, i)
  {
    if k == 0 then 0 else ScoreUpTo(quiz, selected, k - 1) + (if Hit(quiz, selected, k - 1) then 1 else 0)
  }

  /** `calculateScore`: how many questions have the correct answer selected. */
  function CalculateScore(quiz: seq<Question>, selected: Selections): (n: nat)
    ensures n <= |quiz|
    ensures n == |quiz| <==> forall i :: 0 <= i < |quiz| ==> Hit(quiz, selected, i)
    ensures n == 0 <==> forall i :: 0 <= i < |quiz| ==> !Hit(quiz, selected, i)
  {
    ScoreUpTo(quiz, selected, |quiz|)
  }

  /** `selectedAnswers[index] || null`: an empty selection counts as none. */
  function UserAnswer(selected: Selections, i: int): (r: Option<string>)
    ensures r.Some? <==> i in selected && selected[i] != ""
    ensures r.Some? ==> r.value == selected[i]
  {
    if i in selected && selected[i] != "" then Some(selected[i]) else None
  }

  function AnswerFor(quiz: seq<Question>, selected: Selections, i: nat): Q.Answer
    requires i < |quiz|
  {
    var user := UserAnswer(selected, i);
    Q.Answer(i + 1, quiz[i].question, user, quiz[i].correctAnswer,
      user == Some(quiz[i].correctAnswer),
      if quiz[i].topic == "" then Q.DEFAULT_TOPIC else quiz[i].topic, 0)
  }

  /**
   * `answersArray`: one record per question in order, numbered from 1; an
   * unanswered question has no selected answer and is not correct; the topic
   * is never empty and groups the same way the backend groups it.
   */
  function BuildAnswers(quiz: seq<Question>, selected: Selections): (r: seq<Q.Answer>)
    ensures |r| == |quiz|
    ensures forall i :: 0 <= i < |r| ==> r[i].questionNumber == i + 1 && r[i].question == quiz[i].question
    ensures forall i :: 0 <= i < |r| ==> r[i].selectedAnswer == UserAnswer(selected, i)
    ensures forall i :: 0 <= i < |r| ==> (r[i].isCorrect <==> i in selected && selected[i] != "" && selected[i] == quiz[i].correctAnswer)
    ensures forall i :: 0 <= i < |r| && i !in selected ==> r[i].selectedAnswer.None? && !r[i].isCorrect
    ensures forall i :: 0 <= i < |r| ==> r[i].topic != "" && Q.TopicOf(r[i]) == r[i].topic
    ensures forall i :: 0 <= i < |r| && quiz[i].topic != "" ==> r[i].topic == quiz[i].topic
  {
    seq(|quiz|, i requires 0 <= i < |quiz| => AnswerFor(quiz, selected, i))
  }

  /** No question has an empty correct answer. */
  predicate AnswersNonEmpty(quiz: seq<Question>) {
    forall i :: 0 <= i < |quiz| ==> quiz[i].correctAnswer != ""
  }

  lemma {:induction false} ScoreAgreesUpTo(quiz: seq<Question>, selected: Selections, k: nat)
    requires AnswersNonEmpty(quiz) && k <= |quiz|
    ensures Total(BuildAnswers(quiz, selected)[..k], Q.CorrectPoint) == ScoreUpTo(quiz, selected, k)
  {
    if k > 0 {
      var r := BuildAnswers(quiz, selected);
      ScoreAgreesUpTo(quiz, selected, k - 1);
      assert r[..k][..k - 1] == r[..k - 1];
    }
  }

  /**
   * When every correct answer is a non-empty string, the count sent as
   * `correctAnswers` is the score the results page shows.
   */
  lemma ScoreAgrees(quiz: seq<Question>, selected: Selections)
    requires AnswersNonEmpty(quiz)
    ensures Q.NumCorrect(BuildAnswers(quiz, selected)) == CalculateScore(quiz, selected)
  {
    ScoreAgreesUpTo(quiz, selected, |quiz|);
    assert BuildAnswers(quiz, selected)[..|quiz|] == BuildAnswers(quiz, selected);
  }

  /** An empty correct answer is never matched by a record, though the page counts an empty selection for it. */
  lemma EmptyCorrectAnswerDisagrees()
    ensures CalculateScore([Question("q", "", "")], map[0 := ""]) == 1
    ensures Q.NumCorrect(BuildAnswers([Question("q", "", "")], map[0 := ""])) == 0
  {
    var quiz := [Question("q", "", "")];
    var r := BuildAnswers(quiz, map[0 := ""]);
    assert !r[0].isCorrect;
    assert r[..0] == [];
    assert Hit(quiz, map[0 := ""], 0);
  }

  // ---------------------------------------------------------------
  // The payload
  // ---------------------------------------------------------------

  /** The payload's `quizData`: counts from the records, a rounded percentage and "medium". */
  function PayloadQuizData(quiz: seq<Question>, answers: seq<Q.Answer>): (d: Q.QuizData)
    requires |quiz| > 0 && |answers| == |quiz|
    ensures d.totalQuestions == Some(|quiz|) && d.correctAnswers == Some(Q.NumCorrect(answers))
    ensures 0 <= d.correctAnswers.value <= d.totalQuestions.value
    ensures 2 * |quiz| * d.score <= 200 * d.correctAnswers.value + |quiz| < 2 * |quiz| * (d.score + 1)
    ensures Q.ValidQuizData(d)
  {
    var c := Q.NumCorrect(answers);
    PercentRange(c, |quiz|);
    Q.QuizData(Some(|quiz|), Some(c), Percent(c, |quiz|), "medium")
  }

  /** `Math.floor((Date.now() - startTime) / 1000)`: whole seconds elapsed. */
  function SecondsSpent(startTime: int, now: int): (s: int)
    ensures 1000 * s <= now - startTime < 1000 * (s + 1)
    ensures now >= startTime ==> s >= 0
  {
    (now - startTime) / 1000
  }

  /**
   * The client-side missing-field filter over (name, value) pairs: a value is
   * flagged when null, undefined, or an empty array (`Composite(0)`).
   */
  function FlaggedFields(fields: seq<(string, JsValue)>): (r: seq<string>)
    ensures forall i :: 0 <= i < |fields| && Flagged(fields[i].1) ==> fields[i].0 in r
    ensures forall j :: 0 <= j < |r| ==> exists i :: 0 <= i < |fields| && fields[i].0 == r[j] && Flagged(fields[i].1)
    ensures r == [] <==> forall i :: 0 <= i < |fields| ==> !Flagged(fields[i].1)
  {
    if |fields| == 0 then []
    else
      var rest := FlaggedFields(fields[1..]);
      var r := if Flagged(fields[0].1) then [fields[0].0] + rest else rest;
      assert forall j :: 0 <= j < |r| ==> exists i :: 0 <= i < |fields| && fields[i].0 == r[j] && Flagged(fields[i].1) by {
        forall j | 0 <= j < |r| ensures exists i :: 0 <= i < |fields| && fields[i].0 == r[j] && Flagged(fields[i].1) {
          if Flagged(fields[0].1) && j == 0 {
            assert fields[0].0 == r[0];
          } else {
            var jj := if Flagged(fields[0].1) then j - 1 else j;
            assert r[j] == rest[jj];
            var i :| 0 <= i < |fields[1..]| && fields[1..][i].0 == rest[jj] && Flagged(fields[1..][i].1);
            assert fields[i + 1] == fields[1..][i];
          }
        }
      }
      assert forall i :: 1 <= i < |fields| ==> fields[i] == fields[1..][i - 1];
      r
  }

  predicate Flagged(v: JsValue) {
    IsNullish(v) || v == Composite(0)
  }

  /** `Math.floor(Math.random() * 1000)`: a whole number from 0 to 999. */
  type Draw = d: nat | d < 1000

  /**
   * The fields `saveResultsToDB` checks: the fixed user id 1234, the material id
   * or a random number, the title or `Material-<random>`, and the answers array.
   * The material id and title props are strings, empty when absent. The id and
   * the title each make their own random draw, passed in as parameters.
   */
  function CheckedFields(materialId: string, materialTitle: string, idDraw: Draw, titleDraw: Draw,
                         answers: seq<Q.Answer>): seq<(string, JsValue)> {
    [("userId", Num(1234)),
     ("materialId", if materialId != "" then Str(materialId) else Num(idDraw)),
     ("materialTitle", Str(if materialTitle != "" then materialTitle else "Material-" + IntToString(titleDraw))),
     ("answersArray", Composite(|answers|))]
  }

  /** For a non-empty quiz the client-side check never fires: every checked value is filled in. */
  lemma NothingFlaggedForAQuiz(quiz: seq<Question>, selected: Selections, materialId: string, materialTitle: string, idDraw: Draw, titleDraw: Draw)
    requires |quiz| > 0
    ensures FlaggedFields(CheckedFields(materialId, materialTitle, idDraw, titleDraw, BuildAnswers(quiz, selected))) == []
  {
    var fields := CheckedFields(materialId, materialTitle, idDraw, titleDraw, BuildAnswers(quiz, selected));
    assert forall i :: 0 <= i < |fields| ==> !Flagged(fields[i].1);
    var r := FlaggedFields(fields);

  }

  /** An empty answers array is what the check exists for. */
  lemma EmptyAnswersFlagged(materialId: string, materialTitle: string, idDraw: Draw, titleDraw: Draw)
    ensures "answersArray" in FlaggedFields(CheckedFields(materialId, materialTitle, idDraw, titleDraw, []))
  {
    assert CheckedFields(materialId, materialTitle, idDraw, titleDraw, [])[3] == ("answersArray", Composite(0));
  }
}

=== FILE: schedule.dfy ===
/**
 * A generated study plan and the progress made through it
 * (backend/models/Schedule.js): the plan's shape, the progress defaults,
 * `completeSession`, which records a finished slot and may close a day and
 * retire the plan, and the `getCurrentStatus` projection. Timestamps are
 * integers handed in by the caller.
 */
module ScheduleModel {
  import opened Js
  import opened Grouping
  import opened SeqSets

  datatype PlanSession = PlanSession(
    title: string,
    duration: int,
    sessionType: string,
    topics: seq<string>,
    description: string,
    priority: string)

  datatype Day = Day(day: int, date: string, sessions: seq<PlanSession>, dailyGoal: string, totalMinutes: int)

  datatype Milestone = Milestone(day: int, milestone: string, assessment: string)

  datatype Settings = Settings(availableHoursPerDay: int, targetDate: Option<int>, difficulty: string, learningStyle: string)

  datatype CompletionRecord = CompletionRecord(day: int, sessionIndex: int, completedAt: int)

  /** A started slot as the request body gave it; the schema declares no type for these. */
  datatype StartRecord = StartRecord(day: JsValue, sessionIndex: JsValue, startedAt: int)

  datatype Progress = Progress(
    currentDay: int,
    completedDays: seq<int>,
    completedSessions: seq<CompletionRecord>,
    startedSessions: seq<StartRecord>,
    percentComplete: int)

  datatype Schedule = Schedule(
    userId: string,
    materialId: string,
    materialTitle: string,
    totalEstimatedHours: int,
    recommendedDaysNeeded: int,
    plan: seq<Day>,
    studyTips: seq<string>,
    milestones: seq<Milestone>,
    settings: Settings,
    progress: Progress,
    active: bool,
    startedAt: int,
    completedAt: Option<int>)

  /** The progress defaults: day 1, nothing done, 0 percent. */
  function InitialProgress(): Progress {
    Progress(1, [], [], [], 0)
  }

  /** A schedule as the schema's defaults leave it when first created at time `now`. */
  function NewSchedule(
    userId: string, materialId: string, materialTitle: string,
    totalEstimatedHours: int, recommendedDaysNeeded: int, plan: seq<Day>,
    studyTips: seq<string>, milestones: seq<Milestone>, settings: Settings, now: int): Schedule
  {
    Schedule(userId, materialId, materialTitle, totalEstimatedHours, recommendedDaysNeeded, plan,
      studyTips, milestones, settings, InitialProgress(), true, now, None)
  }

  /** The day numbers of a plan, in plan order. */
  function DayNumbers(plan: seq<Day>): (ns: seq<int>)
    ensures |ns| == |plan| && forall i :: 0 <= i < |plan| ==> ns[i] == plan[i].day
  {
    seq(|plan|, i requires 0 <= i < |plan| => plan[i].day)
  }

  /** `plan[i]` is the first day numbered `d`, the one `Array.prototype.find` returns. */
  predicate FirstNumbered(plan: seq<Day>, d: int, i: int) {
    0 <= i < |plan| && plan[i].day == d && forall j :: 0 <= j < i ==> plan[j].day != d
  }

  /** `schedule.find(d => d.day === day)` as an index; `|plan|` when no day has that number. */
  function FindDay(plan: seq<Day>, d: int): (i: nat)
    ensures i <= |plan|
    ensures i < |plan| ==> FirstNumbered(plan, d, i)
    ensures i == |plan| ==> d !in DayNumbers(plan)
  {
    if |plan| == 0 then 0
    else if plan[0].day == d then 0
    else
      var i := FindDay(plan[1..], d);
      assert DayNumbers(plan) == [plan[0].day] + DayNumbers(plan[1..]);
      i + 1
  }

  /** At most one index is the first day with a given number. */
  lemma FirstNumberedUnique(plan: seq<Day>, d: int, i: int, j: int)
    requires FirstNumbered(plan, d, i) && FirstNumbered(plan, d, j)
    ensures i == j
  {
  }

  function SessionCount(d: Day): int {
    |d.sessions|
  }

  /** `schedule.reduce((sum, day) => sum + day.sessions.length, 0)`. */
  function TotalSessions(plan: seq<Day>): int {
    Total(plan, SessionCount)
  }

  function RecordDay(c: CompletionRecord): int {
    c.day
  }

  /** `completedSessions.filter(s => s.day === day)`. */
  function RecordsFor(records: seq<CompletionRecord>, d: int): seq<CompletionRecord> {
    Select(records, RecordDay, d)
  }

  /** Every session of day `d` has a completion record: the first day numbered `d` has no more sessions than `d` has records. */
  predicate DayFinished(plan: seq<Day>, records: seq<CompletionRecord>, d: int) {
    exists i :: 0 <= i < |plan| && FirstNumbered(plan, d, i) && |RecordsFor(records, d)| >= |plan[i].sessions|
  }

  /**
   * `completeSession(day, sessionIndex)` at time `now`. The source divides by the
   * plan's total session count without a guard, so the plan must hold a session.
   */
  function CompleteSession(s: Schedule, day: int, sessionIndex: int, now: int): (r: Schedule)
    requires TotalSessions(s.plan) > 0
    ensures r.progress.completedSessions == s.progress.completedSessions + [CompletionRecord(day, sessionIndex, now)]
    ensures r.(progress := s.progress, active := s.active, completedAt := s.completedAt) == s
    ensures r.progress.startedSessions == s.progress.startedSessions
    ensures day in r.progress.completedDays <==>
      day in s.progress.completedDays || DayFinished(s.plan, r.progress.completedSessions, day)
    ensures r.progress.completedDays == s.progress.completedDays
      || r.progress.completedDays == s.progress.completedDays + [day]
    ensures day in s.progress.completedDays ==> r.progress.completedDays == s.progress.completedDays
    ensures r.progress.currentDay ==
      if r.progress.completedDays == s.progress.completedDays then s.progress.currentDay else day + 1
    ensures r.progress.percentComplete == Percent(|s.progress.completedSessions| + 1, TotalSessions(s.plan))
    ensures |r.progress.completedDays| >= |s.plan| ==> !r.active && r.completedAt == Some(now)
    ensures |r.progress.completedDays| < |s.plan| ==> r.active == s.active && r.completedAt == s.completedAt
  {
    var records := s.progress.completedSessions + [CompletionRecord(day, sessionIndex, now)];
    var i := FindDay(s.plan, day);
    var closes := i < |s.plan| && |RecordsFor(records, day)| >= |s.plan[i].sessions|
      && day !in s.progress.completedDays;
    var days := if closes then s.progress.completedDays + [day] else s.progress.completedDays;
    var current := if closes then day + 1 else s.progress.currentDay;
    FinishedAtFirst(s.plan, records, day);
    var p := s.progress.(
      currentDay := current,
      completedDays := days,
      completedSessions := records,
      percentComplete := Percent(|records|, TotalSessions(s.plan)));
    if |days| >= |s.plan| then s.(progress := p, active := false, completedAt := Some(now))
    else s.(progress := p)
  }

  /** `DayFinished` is decided at the day `FindDay` returns. */
  lemma FinishedAtFirst(plan: seq<Day>, records: seq<CompletionRecord>, d: int)
    ensures var i := FindDay(plan, d);
      DayFinished(plan, records, d) <==> i < |plan| && |RecordsFor(records, d)| >= |plan[i].sessions|
  {
    var i := FindDay(plan, d);
    if DayFinished(plan, records, d) {
      var k :| 0 <= k < |plan| && FirstNumbered(plan, d, k) && |RecordsFor(records, d)| >= |plan[k].sessions|;
      FirstNumberedUnique(plan, d, i, k);
    }
  }

  /** What `completeSession` keeps true: completed days are distinct day numbers of the plan, and the percentage tracks the records. */
  predicate ProgressInvariant(s: Schedule) {
    && NoRepeats(s.progress.completedDays)
    && (forall k :: 0 <= k < |s.progress.completedDays| ==> s.progress.completedDays[k] in DayNumbers(s.plan))
    && (TotalSessions(s.plan) > 0 ==>
         s.progress.percentComplete == Percent(|s.progress.completedSessions|, TotalSessions(s.plan)))
  }

  /** A fresh schedule satisfies the invariant. */
  lemma NewScheduleInvariant(
    userId: string, materialId: string, materialTitle: string,
    totalEstimatedHours: int, recommendedDaysNeeded: int, plan: seq<Day>,
    studyTips: seq<string>, milestones: seq<Milestone>, settings: Settings, now: int)
    ensures ProgressInvariant(NewSchedule(userId, materialId, materialTitle, totalEstimatedHours,
      recommendedDaysNeeded, plan, studyTips, milestones, settings, now))
  {
    if TotalSessions(plan) > 0 {
      PercentOfNone(TotalSessions(plan));
    }
  }

  /** Completing a session keeps the invariant: a day is only ever added once, and only if the plan has it. */
  lemma CompletePreservesInvariant(s: Schedule, day: int, sessionIndex: int, now: int)
    requires TotalSessions(s.plan) > 0 && ProgressInvariant(s)
    ensures ProgressInvariant(CompleteSession(s, day, sessionIndex, now))
  {
    var r := CompleteSession(s, day, sessionIndex, now);
    if r.progress.completedDays != s.progress.completedDays {
      var k :| 0 <= k < |s.plan| && FirstNumbered(s.plan, day, k)
        && |RecordsFor(r.progress.completedSessions, day)| >= |s.plan[k].sessions|;
      assert DayNumbers(s.plan)[k] == day;
    }
  }

  /** A day number the plan lacks only adds the record and moves the percentage (while the plan is not yet finished). */
  lemma AbsentDayOnlyRecords(s: Schedule, day: int, sessionIndex: int, now: int)
    requires TotalSessions(s.plan) > 0
    requires day !in DayNumbers(s.plan) && |s.progress.completedDays| < |s.plan|
    ensures CompleteSession(s, day, sessionIndex, now) == s.(progress := s.progress.(
      completedSessions := s.progress.completedSessions + [CompletionRecord(day, sessionIndex, now)],
      percentComplete := Percent(|s.progress.completedSessions| + 1, TotalSessions(s.plan))))
  {
  }

  /** Under the invariant the percentage never goes down. */
  lemma PercentNeverDrops(s: Schedule, day: int, sessionIndex: int, now: int)
    requires TotalSessions(s.plan) > 0 && ProgressInvariant(s)
    ensures CompleteSession(s, day, sessionIndex, now).progress.percentComplete >= s.progress.percentComplete
  {
    var n := |s.progress.completedSessions|;
    PercentMonotone(n, n + 1, TotalSessions(s.plan));
  }

  /** Two calls for the same slot leave two identical (day, index) records: there is no deduplication. */
  lemma RepeatRecordsTwice(s: Schedule, day: int, sessionIndex: int, t1: int, t2: int)
    requires TotalSessions(s.plan) > 0
    ensures var r := CompleteSession(CompleteSession(s, day, sessionIndex, t1), day, sessionIndex, t2);
      var n := |s.progress.completedSessions|;
      && |r.progress.completedSessions| == n + 2
      && r.progress.completedSessions[..n] == s.progress.completedSessions
      && r.progress.completedSessions[n].day == r.progress.completedSessions[n + 1].day == day
      && r.progress.completedSessions[n].sessionIndex == r.progress.completedSessions[n + 1].sessionIndex == sessionIndex
  {
  }

  /** A plan that reuses a day number can never be retired: its completed days are distinct plan day numbers, too few to reach the day count. */
  lemma RepeatedDayNumberNeverRetires(s: Schedule, day: int, sessionIndex: int, now: int, i: nat, j: nat)
    requires TotalSessions(s.plan) > 0 && ProgressInvariant(s)
    requires i < j < |s.plan| && s.plan[i].day == s.plan[j].day
    ensures var r := CompleteSession(s, day, sessionIndex, now);
      r.active == s.active && r.completedAt == s.completedAt
  {
    var r := CompleteSession(s, day, sessionIndex, now);
    CompletePreservesInvariant(s, day, sessionIndex, now);
    var numbers := DayNumbers(s.plan);
    RepeatShrinks(numbers, i, j);
    forall k | 0 <= k < |r.progress.completedDays| ensures r.progress.completedDays[k] in Elems(numbers) {
    }
    DistinctInside(r.progress.completedDays, Elems(numbers));
  }

  /**
   * The terminal state: once the completed days reach the day count, every plan
   * day is among them, so a further completion only adds its record. The current
   * day and the completed days stay where they are and the plan stays retired.
   */
  lemma RetiredStaysPut(s: Schedule, day: int, sessionIndex: int, now: int)
    requires TotalSessions(s.plan) > 0 && ProgressInvariant(s)
    requires |s.progress.completedDays| >= |s.plan|
    ensures var r := CompleteSession(s, day, sessionIndex, now);
      && r.progress.completedDays == s.progress.completedDays
      && r.progress.currentDay == s.progress.currentDay
      && !r.active && r.completedAt == Some(now)
  {
    var done := s.progress.completedDays;
    var numbers := DayNumbers(s.plan);
    if day !in done {
      forall k | 0 <= k < |done| ensures done[k] in Elems(numbers) {
      }
      assert Elems(done) == Elems(numbers) by {
        ElemsBound(done);
        ElemsBound(numbers);
        assert Elems(numbers) == Elems(done) + (Elems(numbers) - Elems(done));
      }
      forall k | 0 <= k < |s.plan| ensures s.plan[k].day != day {
        assert numbers[k] in Elems(numbers);
      }
    }
  }

  /** A (day number, session index) pair, the coordinates `completeSession` receives. */
  datatype Slot = Slot(day: int, index: int)

  function SlotOf(c: CompletionRecord): Slot {
    Slot(c.day, c.sessionIndex)
  }

  function RecordSlots(records: seq<CompletionRecord>): (ss: seq<Slot>)
    ensures |ss| == |records| && forall i :: 0 <= i < |records| ==> ss[i] == SlotOf(records[i])
  {
    seq(|records|, i requires 0 <= i < |records| => SlotOf(records[i]))
  }

  /** Some day with that number has a session at that index. */
  predicate ValidSlot(plan: seq<Day>, sl: Slot) {
    exists i :: 0 <= i < |plan| && plan[i].day == sl.day && 0 <= sl.index < |plan[i].sessions|
  }

  /** The `n` slots of day number `d`. */
  function DaySlots(d: int, n: nat): (r: set<Slot>)
    ensures forall sl :: sl in r <==> sl.day == d && 0 <= sl.index < n
    ensures |r| == n
  {
    if n == 0 then {} else DaySlots(d, n - 1) + {Slot(d, n - 1)}
  }

  /** Every valid slot of the plan; there are no more of them than planned sessions. */
  function PlanSlots(plan: seq<Day>): (r: set<Slot>)
    ensures forall sl :: sl in r <==> ValidSlot(plan, sl)
    ensures |r| <= TotalSessions(plan)
  {
    if |plan| == 0 then {}
    else
      var init := plan[..|plan| - 1];
      var last := plan[|plan| - 1];
      var r := PlanSlots(init) + DaySlots(last.day, |last.sessions|);
      PlanSlotsStep(plan, r);
      r
  }

  lemma PlanSlotsStep(plan: seq<Day>, r: set<Slot>)
    requires |plan| > 0
    requires forall sl :: sl in r <==>
      ValidSlot(plan[..|plan| - 1], sl) || sl in DaySlots(plan[|plan| - 1].day, |plan[|plan| - 1].sessions|)
    ensures forall sl :: sl in r <==> ValidSlot(plan, sl)
  {
    var init := plan[..|plan| - 1];
    forall sl | ValidSlot(plan, sl) ensures sl in r {
      var i :| 0 <= i < |plan| && plan[i].day == sl.day && 0 <= sl.index < |plan[i].sessions|;
      if i < |plan| - 1 {
        assert init[i] == plan[i];
      }
    }
    forall sl | sl in r ensures ValidSlot(plan, sl) {
      if ValidSlot(init, sl) {
        var i :| 0 <= i < |init| && init[i].day == sl.day && 0 <= sl.index < |init[i].sessions|;
        assert plan[i] == init[i];
      } else {
        assert plan[|plan| - 1].day == sl.day;
      }
    }
  }

  /** With distinct day numbers the slots are exactly as many as the planned sessions. */
  lemma {:induction false} PlanSlotsExact(plan: seq<Day>)
    requires NoRepeats(DayNumbers(plan))
    ensures |PlanSlots(plan)| == TotalSessions(plan)
  {
    if |plan| > 0 {
      var init := plan[..|plan| - 1];
      var last := plan[|plan| - 1];
      assert DayNumbers(init) == DayNumbers(plan)[..|plan| - 1];
      PlanSlotsExact(init);
      var a, b := PlanSlots(init), DaySlots(last.day, |last.sessions|);
      forall sl | sl in a ensures sl !in b {
        var i :| 0 <= i < |init| && init[i].day == sl.day && 0 <= sl.index < |init[i].sessions|;
        assert DayNumbers(plan)[i] != DayNumbers(plan)[|plan| - 1];
      }
      assert a * b == {};
    }
  }

  /** With distinct, valid (day, index) records the percentage stays within 0 to 100. */
  lemma PercentWithinRange(s: Schedule, day: int, sessionIndex: int, now: int)
    requires TotalSessions(s.plan) > 0
    requires var records := s.progress.completedSessions + [CompletionRecord(day, sessionIndex, now)];
      && NoRepeats(RecordSlots(records))
      && forall k :: 0 <= k < |records| ==> ValidSlot(s.plan, SlotOf(records[k]))
    ensures 0 <= CompleteSession(s, day, sessionIndex, now).progress.percentComplete <= 100
  {
    var records := s.progress.completedSessions + [CompletionRecord(day, sessionIndex, now)];
    DistinctInside(RecordSlots(records), PlanSlots(s.plan));
    PercentRange(|records|, TotalSessions(s.plan));
  }

  /** Once every slot of a plan with distinct day numbers has exactly one record, the percentage is 100. */
  lemma PercentFullWhenEverySlotDone(s: Schedule, day: int, sessionIndex: int, now: int)
    requires TotalSessions(s.plan) > 0 && NoRepeats(DayNumbers(s.plan))
    requires var records := s.progress.completedSessions + [CompletionRecord(day, sessionIndex, now)];
      && NoRepeats(RecordSlots(records))
      && (forall k :: 0 <= k < |records| ==> ValidSlot(s.plan, SlotOf(records[k])))
      && (forall sl :: ValidSlot(s.plan, sl) ==> sl in RecordSlots(records))
    ensures CompleteSession(s, day, sessionIndex, now).progress.percentComplete == 100
  {
    var records := s.progress.completedSessions + [CompletionRecord(day, sessionIndex, now)];
    EverySlotOnce(s.plan, records);
    PercentOfAll(TotalSessions(s.plan));
  }

  /** Distinct records covering exactly the plan's slots number as many as the plan's sessions. */
  lemma EverySlotOnce(plan: seq<Day>, records: seq<CompletionRecord>)
    requires NoRepeats(DayNumbers(plan)) && NoRepeats(RecordSlots(records))
    requires forall k :: 0 <= k < |records| ==> ValidSlot(plan, SlotOf(records[k]))
    requires forall sl :: ValidSlot(plan, sl) ==> sl in RecordSlots(records)
    ensures |records| == TotalSessions(plan)
  {
    var slots := RecordSlots(records);
    assert Elems(slots) == PlanSlots(plan);
    ElemsBound(slots);
    PlanSlotsExact(plan);
  }

  function OneSessionDay(): Day {
    Day(1, "", [PlanSession("", 0, "reading", [], "", "")], "", 0)
  }

  /** Completing the only session of a one-session plan twice reports 200 percent. */
  lemma DuplicatePassesHundred(s: Schedule, t1: int, t2: int)
    requires s.plan == [OneSessionDay()] && s.progress.completedSessions == []
    ensures TotalSessions(s.plan) == 1
    ensures CompleteSession(CompleteSession(s, 1, 0, t1), 1, 0, t2).progress.percentComplete == 200
  {
    assert s.plan[..0] == [];
    assert Total(s.plan, SessionCount) == Total(s.plan[..0], SessionCount) + SessionCount(s.plan[0]);
  }

  /** What `getCurrentStatus` reports. */
  datatype Status = Status(
    currentDay: int,
    totalDays: nat,
    completedDays: nat,
    percentComplete: int,
    isComplete: bool,
    nextSession: Option<PlanSession>,
    daysRemaining: int,
    totalSessions: int,
    completedSessions: nat)

  /**
   * `getCurrentStatus`: a read-only projection. The next session is the first
   * session of the first day numbered `currentDay`, if that day exists and has one.
   */
  function GetCurrentStatus(s: Schedule): (st: Status)
    ensures st.currentDay == s.progress.currentDay && st.percentComplete == s.progress.percentComplete
    ensures st.totalDays == |s.plan| && st.completedDays == |s.progress.completedDays|
    ensures st.daysRemaining == st.totalDays - st.completedDays
    ensures st.totalSessions == TotalSessions(s.plan) && st.completedSessions == |s.progress.completedSessions|
    ensures st.isComplete <==> !s.active && s.completedAt.Some?
    ensures st.nextSession.Some? <==>
      exists i :: 0 <= i < |s.plan| && FirstNumbered(s.plan, s.progress.currentDay, i) && s.plan[i].sessions != []
    ensures forall i :: 0 <= i < |s.plan| && FirstNumbered(s.plan, s.progress.currentDay, i) && s.plan[i].sessions != [] ==>
      st.nextSession == Some(s.plan[i].sessions[0])
  {
    var i := FindDay(s.plan, s.progress.currentDay);
    var next := if i < |s.plan| && s.plan[i].sessions != [] then Some(s.plan[i].sessions[0]) else None;
    Status(
      s.progress.currentDay,
      |s.plan|,
      |s.progress.completedDays|,
      s.progress.percentComplete,
      !s.active && s.completedAt.Some?,
      next,
      |s.plan| - |s.progress.completedDays|,
      TotalSessions(s.plan),
      |s.progress.completedSessions|)
  }

  /** A fresh schedule reports day 1, nothing done, 0 percent, not complete, and every day remaining. */
  lemma FreshStatus(
    userId: string, materialId: string, materialTitle: string,
    totalEstimatedHours: int, recommendedDaysNeeded: int, plan: seq<Day>,
    studyTips: seq<string>, milestones: seq<Milestone>, settings: Settings, now: int)
    ensures var st := GetCurrentStatus(NewSchedule(userId, materialId, materialTitle, totalEstimatedHours,
      recommendedDaysNeeded, plan, studyTips, milestones, settings, now));
      && st.currentDay == 1 && st.completedDays == 0 && st.completedSessions == 0
      && st.percentComplete == 0 && !st.isComplete && st.daysRemaining == |plan|
  {
  }

  /** Under the invariant there are never more completed days than days. */
  lemma DaysRemainingNonNegative(s: Schedule)
    requires ProgressInvariant(s)
    ensures GetCurrentStatus(s).daysRemaining >= 0
  {
    var numbers := DayNumbers(s.plan);
    forall k | 0 <= k < |s.progress.completedDays| ensures s.progress.completedDays[k] in Elems(numbers) {
    }
    DistinctInside(s.progress.completedDays, Elems(numbers));
    ElemsBound(numbers);
  }

  /** For an active schedule, a completion call reports the plan complete exactly when the last missing day closes. */
  lemma CompleteReportsRetirement(s: Schedule, day: int, sessionIndex: int, now: int)
    requires TotalSessions(s.plan) > 0 && s.active
    ensures var r := CompleteSession(s, day, sessionIndex, now);
      GetCurrentStatus(r).isComplete <==> |r.progress.completedDays| >= |s.plan|
  {
  }

  /** The worked plan: day 1 with two sessions, day 2 with one. */
  function TwoDayPlan(): seq<Day> {
    [ Day(1, "", [PlanSession("a", 30, "reading", [], "", "high"), PlanSession("b", 30, "practice", [], "", "medium")], "", 60),
      Day(2, "", [PlanSession("c", 30, "quiz", [], "", "low")], "", 30) ]
  }

  lemma TwoDayTotal()
    ensures TotalSessions(TwoDayPlan()) == 3
  {
    var p := TwoDayPlan();
    assert p[..1][..0] == [] && p[..1] == [p[0]];
    assert Total(p[..1], SessionCount) == 2;
  }

  /** Finishing day 1's two sessions closes day 1, moves on to day 2 and reports 67 percent. */
  lemma TwoDayScenarioFirstDay(s: Schedule, t1: int, t2: int)
    requires s.plan == TwoDayPlan() && s.progress == InitialProgress() && s.active
    ensures TotalSessions(s.plan) == 3
    ensures var s2 := CompleteSession(CompleteSession(s, 1, 0, t1), 1, 1, t2);
      && s2.progress.completedDays == [1] && s2.progress.currentDay == 2
      && s2.progress.percentComplete == 67 && s2.active
  {
    TwoDayTotal();
    var c1, c2 := CompletionRecord(1, 0, t1), CompletionRecord(1, 1, t2);
    SelectSnoc([], c1, RecordDay, 1);
    assert [] + [c1] == [c1];
    SelectSnoc([c1], c2, RecordDay, 1);
    assert |RecordsFor([c1], 1)| == 1;
    assert [c1] + [c2] == [c1, c2];
    assert |RecordsFor([c1, c2], 1)| == 2;
    assert FindDay(s.plan, 1) == 0;
  }

  /** Then finishing day 2's session closes the plan at 100 percent. */
  lemma TwoDayScenarioSecondDay(s: Schedule, t3: int)
    requires s.plan == TwoDayPlan() && s.active
    requires s.progress.completedDays == [1] && |s.progress.completedSessions| == 2
    requires forall k :: 0 <= k < 2 ==> s.progress.completedSessions[k].day == 1
    ensures TotalSessions(s.plan) == 3
    ensures var s3 := CompleteSession(s, 2, 0, t3);
      && s3.progress.completedDays == [1, 2] && s3.progress.currentDay == 3
      && s3.progress.percentComplete == 100 && !s3.active && s3.completedAt == Some(t3)
      && GetCurrentStatus(s3).isComplete
  {
    TwoDayTotal();
    var before := s.progress.completedSessions;
    var c3 := CompletionRecord(2, 0, t3);
    SelectNone(before, RecordDay, 2);
    SelectSnoc(before, c3, RecordDay, 2);
    assert |RecordsFor(before + [c3], 2)| == 1;
    assert FindDay(s.plan, 2) == 1 by { assert s.plan[1..][0].day == 2; }
    PercentOfAll(3);
  }
}

=== FILE: schedule_json.dfy ===
/**
 * The boundary between the generator's free-form reply and a stored plan
 * (backend/routes/schedule.js): slicing the JSON object out of the reply,
 * checking the parsed value's shape, and filling in missing day numbers and
 * dates. `JSON.parse` itself is a parameter: the model starts from its result.
 */
module ScheduleJson {
  import opened Js
  import opened JsText

  /** A parsed JSON value. Numbers are integral here. */
  datatype Json =
    | JNull
    | JBool(b: bool)
    | JNum(n: int)
    | JStr(s: string)
    | JArr(items: seq<Json>)
    | JObj(fields: map<string, Json>)

  /** `v.key`: the member's value, or `None` for `undefined` (absent, or `v` is no object). */
  function Get(v: Json, key: string): Option<Json> {
    if v.JObj? && key in v.fields then Some(v.fields[key]) else None
  }

  /** Truthiness of a member read, where `None` is `undefined`. */
  predicate Present(v: Option<Json>) {
    match v
    case None => false
    case Some(JNull) => false
    case Some(JBool(b)) => b
    case Some(JNum(n)) => n != 0
    case Some(JStr(s)) => s != ""
    case Some(JArr(_)) => true
    case Some(JObj(_)) => true
  }

  predicate IsArray(v: Option<Json>) {
    v.Some? && v.value.JArr?
  }

  datatype ScheduleError =
    | NoJsonObject
    | Unparsable
    | MissingScheduleArray
    | EmptySchedule
    | MissingSessions
    | NullDay

  /** `s.indexOf(c)`: the first position of `c`, or -1. */
  function IndexOf(s: string, c: char): (i: int)
    ensures -1 <= i < |s|
    ensures i == -1 <==> c !in s
    ensures i >= 0 ==> s[i] == c && c !in s[..i]
  {
    if c !in s then -1 else FirstIndex(s, c)
  }

  /** `s.lastIndexOf(c)`: the last position of `c`, or -1. */
  function LastIndexOf(s: string, c: char): (i: int)
    ensures -1 <= i < |s|
    ensures i == -1 <==> c !in s
    ensures i >= 0 ==> s[i] == c && c !in s[i + 1..]
  {
    if |s| == 0 then -1
    else if s[|s| - 1] == c then |s| - 1
    else
      var i := LastIndexOf(s[..|s| - 1], c);
      LastIndexStep(s, c, i);
      i
  }

  /** The last character is not `c`, so the answer for the prefix is the answer for `s`. */
  lemma LastIndexStep(s: string, c: char, i: int)
    requires |s| > 0 && s[|s| - 1] != c
    requires -1 <= i < |s| - 1
    requires i == -1 <==> c !in s[..|s| - 1]
    requires i >= 0 ==> s[i] == c && c !in s[..|s| - 1][i + 1..]
    ensures i == -1 <==> c !in s
    ensures i >= 0 ==> c !in s[i + 1..]
  {
    var n := |s| - 1;
    var p := s[..n];
    if i == -1 {
      forall k | 0 <= k < |s| ensures s[k] != c {
        if k < n { assert p[k] == s[k]; }
      }
    } else {
      assert s[i] in s;
      forall k | i + 1 <= k < |s| ensures s[k] != c {
        if k < n { assert p[i + 1..][k - i - 1] == s[k]; }
      }
      var t := s[i + 1..];
      forall k | 0 <= k < |t| ensures t[k] != c {
        assert t[k] == s[i + 1 + k];
      }
    }
  }

  /** `s.substring(a, b)` for in-range indices: the slice between them, the arguments swapped when `a > b`. */
  function Substring(s: string, a: nat, b: nat): string
    requires a <= |s| && b <= |s|
  {
    if a <= b then s[a..b] else s[b..a]
  }

  /**
   * The first '{' to the last '}' of the (fence-stripped, trimmed) reply, inclusive:
   * `cleanJson.substring(firstBrace, lastBrace + 1)`.
   */
  function ExtractObject(text: string): (r: Result<string, ScheduleError>)
    ensures r.Err? <==> '{' !in text || '}' !in text
    ensures r.Err? ==> r.error == NoJsonObject
    ensures r.Ok? && IndexOf(text, '{') < LastIndexOf(text, '}') ==>
      && StartsWith(r.value, "{") && EndsWith(r.value, "}")
      && r.value == text[IndexOf(text, '{')..LastIndexOf(text, '}') + 1]
    ensures r.Ok? && IndexOf(text, '{') > LastIndexOf(text, '}') ==> '{' !in r.value && '}' !in r.value
  {
    var first := IndexOf(text, '{');
    var last := LastIndexOf(text, '}');
    if first == -1 || last == -1 then Err(NoJsonObject)
    else
      var slice := Substring(text, first, last + 1);
      SliceFacts(text, first, last);
      Ok(slice)
  }

  lemma SliceFacts(text: string, first: int, last: int)
    requires first == IndexOf(text, '{') >= 0 && last == LastIndexOf(text, '}') >= 0
    ensures first < last ==> StartsWith(Substring(text, first, last + 1), "{") && EndsWith(Substring(text, first, last + 1), "}")
    ensures first > last ==> '{' !in Substring(text, first, last + 1) && '}' !in Substring(text, first, last + 1)
  {
    var slice := Substring(text, first, last + 1);
    if first > last {
      if first == last + 1 {
        assert slice == [];
      } else {
        assert slice == text[last + 1..first];
        forall k | 0 <= k < |slice| ensures slice[k] != '{' && slice[k] != '}' {
          assert slice[k] == text[..first][last + 1 + k];
          assert slice[k] == text[last + 1..][k];
        }
      }
    }
  }

  /**
   * The shape check on the parsed reply: a non-empty `schedule` array whose first
   * day carries a `sessions` array. Only the first day is checked.
   */
  function ValidateSchedule(data: Json): (r: Result<seq<Json>, ScheduleError>)
    ensures r.Ok? ==> (Get(data, "schedule") == Some(JArr(r.value)) && r.value != []
      && r.value[0] != JNull && IsArray(Get(r.value[0], "sessions")))
    ensures r == Err(MissingScheduleArray) <==> !IsArray(Get(data, "schedule"))
    ensures r == Err(EmptySchedule) <==> Get(data, "schedule") == Some(JArr([]))
    ensures r == Err(NullDay) <==> (IsArray(Get(data, "schedule")) && |Get(data, "schedule").value.items| > 0
      && Get(data, "schedule").value.items[0] == JNull)
    ensures r == Err(MissingSessions) <==> (IsArray(Get(data, "schedule")) && |Get(data, "schedule").value.items| > 0
      && Get(data, "schedule").value.items[0] != JNull && !IsArray(Get(Get(data, "schedule").value.items[0], "sessions")))
    ensures (IsArray(Get(data, "schedule")) && |Get(data, "schedule").value.items| > 0
      && Get(data, "schedule").value.items[0] != JNull && IsArray(Get(Get(data, "schedule").value.items[0], "sessions")))
      ==> r == Ok(Get(data, "schedule").value.items)
    ensures r.Err? ==> r.error in {MissingScheduleArray, EmptySchedule, NullDay, MissingSessions}
  {
    var schedule := Get(data, "schedule");
    if !Present(schedule) || !IsArray(schedule) then Err(MissingScheduleArray)
    else if |schedule.value.items| == 0 then Err(EmptySchedule)
    else
      var firstDay := schedule.value.items[0];
      if firstDay == JNull then Err(NullDay)
      else if !Present(Get(firstDay, "sessions")) || !IsArray(Get(firstDay, "sessions")) then Err(MissingSessions)
      else Ok(schedule.value.items)
  }

  /** Only the first day is checked: a later day without sessions passes. */
  lemma OnlyFirstDayChecked()
    ensures ValidateSchedule(JObj(map["schedule" := JArr([JObj(map["sessions" := JArr([])]), JObj(map[])])])).Ok?
  {
  }

  /** A reply whose only '}' comes before its '{' yields the text between them, which holds no brace. */
  lemma SwappedSliceExample()
    ensures ExtractObject("}5{") == Ok("5")
  {
    var t := "}5{";
    assert t[0] == '}' && t[1] == '5' && t[2] == '{';
    assert IndexOf(t, '{') == 2;
    assert LastIndexOf(t, '}') == 0;
    assert t[1..2] == "5";
  }

  /** Different positions have different decimal names. */
  lemma IndexKeysDistinct(i: nat, j: nat)
    requires NatToString(i) == NatToString(j)
    ensures i == j
  {
    ParsePrinted(i);
    ParsePrinted(j);
  }

  /** `k` is an array index below `n` as a property name: a decimal numeral with no leading zero. */
  predicate IsIndexKey(k: string, n: nat) {
    && |k| > 0 && (forall j :: 0 <= j < |k| ==> IsDigit(k[j]))
    && (k[0] == '0' ==> |k| == 1)
    && ParseDigits(k) < n
  }

  /** Each item under its decimal position, `"0"`, `"1"`, …: the own keys of an array or a string. */
  function IndexMap(items: seq<Json>): (m: map<string, Json>)
    ensures forall i: nat :: i < |items| ==> NatToString(i) in m && m[NatToString(i)] == items[i]
    ensures forall k :: k in m ==> IsIndexKey(k, |items|)
  {
    if |items| == 0 then map[]
    else
      var n := |items| - 1;
      var m := IndexMap(items[..n]);
      var m' := m[NatToString(n) := items[n]];
      IndexMapValues(items, m, m');
      IndexMapKeys(items, m, m');
      m'
  }

  /** Adding the last item under its own key keeps the earlier items where they were. */
  lemma IndexMapValues(items: seq<Json>, m: map<string, Json>, m': map<string, Json>)
    requires |items| > 0 && m' == m[NatToString(|items| - 1) := items[|items| - 1]]
    requires forall i: nat :: i < |items| - 1 ==> NatToString(i) in m && m[NatToString(i)] == items[i]
    ensures forall i: nat :: i < |items| ==> NatToString(i) in m' && m'[NatToString(i)] == items[i]
  {
    forall i: nat | i < |items| - 1 ensures m'[NatToString(i)] == m[NatToString(i)] {
      OtherKey(i, |items| - 1);
    }
  }

  /** Adding the last item adds only its own key. */
  lemma IndexMapKeys(items: seq<Json>, m: map<string, Json>, m': map<string, Json>)
    requires |items| > 0 && m' == m[NatToString(|items| - 1) := items[|items| - 1]]
    requires forall k :: k in m ==> IsIndexKey(k, |items| - 1)
    ensures forall k :: k in m' ==> IsIndexKey(k, |items|)
  {
    var n := |items| - 1;
    forall k | k in m' ensures IsIndexKey(k, n + 1) {
      if k == NatToString(n) {
        PrintedIsIndexKey(n);
      } else {
        assert k in m && IsIndexKey(k, n);
        IndexKeyBelow(k, n);
      }
    }
  }

  lemma IndexKeyBelow(k: string, n: nat)
    requires IsIndexKey(k, n)
    ensures IsIndexKey(k, n + 1)
  {
  }

  /** The printed position `n` is an index key below `n + 1`. */
  lemma PrintedIsIndexKey(n: nat)
    ensures IsIndexKey(NatToString(n), n + 1)
  {
    ParsePrinted(n);
    if n == 0 {
      assert NatToString(0) == "0";
    }
  }

  lemma OtherKey(i: nat, n: nat)
    requires i < n
    ensures NatToString(i) != NatToString(n)
  {
    if NatToString(i) == NatToString(n) {
      IndexKeysDistinct(i, n);
    }
  }

  /** A string's characters, each as a one-character string. */
  function Chars(s: string): (cs: seq<Json>)
    ensures |cs| == |s| && forall i :: 0 <= i < |s| ==> cs[i] == JStr([s[i]])
  {
    seq(|s|, i requires 0 <= i < |s| => JStr([s[i]]))
  }

  /**
   * `{ ...v }`: an object's own members; an array's items and a string's
   * characters under their index keys; nothing from a number, boolean or null.
   */
  function Spread(v: Json): (m: map<string, Json>)
    ensures v.JObj? ==> m == v.fields
    ensures v.JArr? ==> forall i: nat :: i < |v.items| ==> NatToString(i) in m && m[NatToString(i)] == v.items[i]
    ensures v.JStr? ==> forall i: nat :: i < |v.s| ==> NatToString(i) in m && m[NatToString(i)] == JStr([v.s[i]])
    ensures v.JArr? ==> forall k :: k in m ==> IsIndexKey(k, |v.items|)
    ensures v.JStr? ==> forall k :: k in m ==> IsIndexKey(k, |v.s|)
    ensures !v.JObj? && !v.JArr? && !v.JStr? ==> m == map[]
  {
    match v
    case JObj(fields) => fields
    case JArr(items) => IndexMap(items)
    case JStr(text) => IndexMap(Chars(text))
    case _ => map[]
  }

  /** `{ ...day, date: day.date || dateFor(index), day: day.day || index + 1 }` for a non-null day. */
  function NormaliseDay(d: Json, index: nat, dateFor: nat -> string): Json
    requires d != JNull
  {
    var date := if Present(Get(d, "date")) then Get(d, "date").value else JStr(dateFor(index));
    var number := if Present(Get(d, "day")) then Get(d, "day").value else JNum(index + 1);
    JObj(Spread(d)["date" := date]["day" := number])
  }

  /** `d2` is day `index` after normalisation: numbered and dated, everything else as it was. */
  ghost predicate NormalisedFrom(d: Json, index: nat, dateFor: nat -> string, d2: Json) {
    && d2.JObj?
    && Get(d2, "day") == (if Present(Get(d, "day")) then Get(d, "day") else Some(JNum(index + 1)))
    && Get(d2, "date") == (if Present(Get(d, "date")) then Get(d, "date") else Some(JStr(dateFor(index))))
    && Present(Get(d2, "day"))
    && forall k :: k != "day" && k != "date" ==> Get(d2, k) == (if k in Spread(d) then Some(Spread(d)[k]) else None)
  }

  /**
   * The `map` over the days. Reading `.date` of a null day throws, which the
   * surrounding handler reports as a parse failure.
   */
  function NormaliseDays(days: seq<Json>, dateFor: nat -> string): (r: Result<seq<Json>, ScheduleError>)
    ensures r.Err? <==> JNull in days
    ensures r.Err? ==> r.error == NullDay
    ensures r.Ok? ==> |r.value| == |days| && forall i :: 0 <= i < |days| ==> NormalisedFrom(days[i], i, dateFor, r.value[i])
  {
    if JNull in days then Err(NullDay)
    else
      var r := seq(|days|, i requires 0 <= i < |days| => NormaliseDay(days[i], i, dateFor));
      assert forall i :: 0 <= i < |days| ==> NormalisedFrom(days[i], i, dateFor, r[i]) by {
        forall i | 0 <= i < |days| ensures NormalisedFrom(days[i], i, dateFor, r[i]) {
          NormaliseDayFacts(days[i], i, dateFor);
        }
      }
      Ok(r)
  }

  lemma NormaliseDayFacts(d: Json, index: nat, dateFor: nat -> string)
    requires d != JNull
    ensures NormalisedFrom(d, index, dateFor, NormaliseDay(d, index, dateFor))
  {
  }

  /** A string day keeps its characters under index keys and gains a number and a date. */
  lemma StringDaySpreads(dateFor: nat -> string)
    ensures var d := NormaliseDay(JStr("ab"), 1, dateFor);
      && Get(d, "0") == Some(JStr("a")) && Get(d, "1") == Some(JStr("b"))
      && Get(d, "day") == Some(JNum(2)) && Get(d, "date") == Some(JStr(dateFor(1)))
  {
    assert NatToString(0) == "0" && NatToString(1) == "1";
    var text := "ab";
    assert [text[0]] == "a" && [text[1]] == "b";
  }

  /** Normalising twice changes nothing more: every day already has a truthy number and the date it got. */
  lemma NormaliseIdempotent(days: seq<Json>, dateFor: nat -> string)
    requires NormaliseDays(days, dateFor).Ok?
    ensures var once := NormaliseDays(days, dateFor).value;
      NormaliseDays(once, dateFor) == Ok(once)
  {
    var once := NormaliseDays(days, dateFor).value;
    assert JNull !in once by {
      forall i | 0 <= i < |once| ensures once[i] != JNull {
        assert NormalisedFrom(days[i], i, dateFor, once[i]);
      }
    }
    var twice := NormaliseDays(once, dateFor).value;
    forall i | 0 <= i < |once| ensures twice[i] == once[i] {
      assert NormalisedFrom(once[i], i, dateFor, twice[i]);
      assert NormalisedFrom(days[i], i, dateFor, once[i]);
      assert twice[i].fields == once[i].fields by {
        forall k | true ensures Get(twice[i], k) == Get(once[i], k) {
        }
        MapsAgree(twice[i].fields, once[i].fields);
      }
    }
    assert twice == once;
  }

  lemma MapsAgree(a: map<string, Json>, b: map<string, Json>)
    requires forall k :: Get(JObj(a), k) == Get(JObj(b), k)
    ensures a == b
  {
    forall k | k in a ensures k in b && a[k] == b[k] {
      assert Get(JObj(a), k) == Some(a[k]);
    }
    forall k | k in b ensures k in a {
      assert Get(JObj(b), k) == Some(b[k]);
    }
  }

  datatype RouteError = FilePathRequired | ParseFailed(cause: ScheduleError)

  /**
   * The parsing half of `POST /api/schedule`: the file path check that comes before
   * any other work, then slicing, parsing (`parse`), shape checking and normalising.
   * The result is the parsed object with its `schedule` replaced by the normalised days.
   */
  function ParseReply(filePath: JsValue, reply: string, parse: string -> Option<Json>, dateFor: nat -> string): (r: Result<Json, RouteError>)
    ensures !Truthy(filePath) ==> r == Err(FilePathRequired)
    ensures r.Ok? ==> r.value.JObj? && IsArray(Get(r.value, "schedule"))
    ensures r.Ok? ==> ExtractObject(reply).Ok? && parse(ExtractObject(reply).value).Some?
    ensures r.Ok? ==> var parsed := parse(ExtractObject(reply).value).value;
      && ValidateSchedule(parsed).Ok?
      && var days := ValidateSchedule(parsed).value;
      && |Get(r.value, "schedule").value.items| == |days|
      && (forall i :: 0 <= i < |days| ==> NormalisedFrom(days[i], i, dateFor, Get(r.value, "schedule").value.items[i]))
      && (forall k :: k != "schedule" ==> Get(r.value, k) == Get(parsed, k))
    ensures Truthy(filePath) && ExtractObject(reply).Err? ==> r == Err(ParseFailed(NoJsonObject))
    ensures Truthy(filePath) && ExtractObject(reply).Ok? && parse(ExtractObject(reply).value).None?
      ==> r == Err(ParseFailed(Unparsable))
    ensures Truthy(filePath) && ExtractObject(reply).Ok? && parse(ExtractObject(reply).value).Some? ==>
      var parsed := parse(ExtractObject(reply).value).value;
      && (ValidateSchedule(parsed).Err? ==> r == Err(ParseFailed(ValidateSchedule(parsed).error)))
      && (ValidateSchedule(parsed).Ok? && JNull in ValidateSchedule(parsed).value ==> r == Err(ParseFailed(NullDay)))
      && (ValidateSchedule(parsed).Ok? && JNull !in ValidateSchedule(parsed).value ==> r.Ok?)
  {
    if !Truthy(filePath) then Err(FilePathRequired)
    else
      match ExtractObject(reply)
      case Err(e) => Err(ParseFailed(e))
      case Ok(text) =>
        match parse(text)
        case None => Err(ParseFailed(Unparsable))
        case Some(parsed) =>
          match ValidateSchedule(parsed)
          case Err(e) => Err(ParseFailed(e))
          case Ok(days) =>
            match NormaliseDays(days, dateFor)
            case Err(e) => Err(ParseFailed(e))
            case Ok(normalised) => Ok(JObj(parsed.fields["schedule" := JArr(normalised)]))
  }
}

=== FILE: schedule_start.dfy ===
/**
 * Starting a plan slot (backend/routes/scheduleProgress.js): the request's
 * `day` and `sessionIndex` arrive as raw JSON values, the schedule is looked
 * up by id, and a start record is appended unless one for the same pair is
 * already there. The lookup's outcome is passed in.
 *
 * That is the route as intended. As written, it reads
 * `schedule.progress.startedSessions`, a path the plan schema does not
 * declare, so the read yields `undefined`, `.some` throws, and every request
 * that reaches a plan ends in the handler's 500 with nothing saved
 * (`StartSessionAsWritten`).
 */
module ScheduleStartRoute {
  import opened Js
  import opened ScheduleModel

  datatype StartError = MissingFields | ScheduleNotFound | StartFailed

  /** `!day && !sessionIndex && day !== 0 && sessionIndex !== 0`. */
  predicate StartRejected(day: JsValue, sessionIndex: JsValue) {
    !Truthy(day) && !Truthy(sessionIndex) && !StrictEquals(day, Num(0)) && !StrictEquals(sessionIndex, Num(0))
  }

  /** A start record for `(day, sessionIndex)` exists, compared with `===`. */
  predicate AlreadyStarted(records: seq<StartRecord>, day: JsValue, sessionIndex: JsValue) {
    exists k :: 0 <= k < |records| && StrictEquals(records[k].day, day) && StrictEquals(records[k].sessionIndex, sessionIndex)
  }

  /** No two start records share a pair. */
  predicate UniqueStarts(records: seq<StartRecord>) {
    forall i, j :: 0 <= i < j < |records| ==>
      !(StrictEquals(records[i].day, records[j].day) && StrictEquals(records[i].sessionIndex, records[j].sessionIndex))
  }

  /** `POST /:id/start-session` as intended, where `found` is what `findById` returned. */
  function StartSession(found: Option<Schedule>, day: JsValue, sessionIndex: JsValue, now: int): (r: Result<Schedule, StartError>)
    ensures r == Err(MissingFields) <==> StartRejected(day, sessionIndex)
    ensures r == Err(ScheduleNotFound) <==> !StartRejected(day, sessionIndex) && found.None?
    ensures r.Ok? <==> !StartRejected(day, sessionIndex) && found.Some?
    ensures r.Ok? ==> found.Some? && r.value.(progress := found.value.progress) == found.value
    ensures r.Ok? ==> r.value.progress.(startedSessions := found.value.progress.startedSessions) == found.value.progress
    ensures r.Ok? && !day.Composite? && !sessionIndex.Composite? ==>
      AlreadyStarted(r.value.progress.startedSessions, day, sessionIndex)
    ensures r.Ok? && AlreadyStarted(found.value.progress.startedSessions, day, sessionIndex) ==> r.value == found.value
    ensures r.Ok? && !AlreadyStarted(found.value.progress.startedSessions, day, sessionIndex) ==>
      r.value.progress.startedSessions == found.value.progress.startedSessions + [StartRecord(day, sessionIndex, now)]
  {
    if StartRejected(day, sessionIndex) then Err(MissingFields)
    else if found.None? then Err(ScheduleNotFound)
    else
      var s := found.value;
      var started := s.progress.startedSessions;
      if AlreadyStarted(started, day, sessionIndex) then Ok(s)
      else
        var started' := started + [StartRecord(day, sessionIndex, now)];
        assert started'[|started|] == StartRecord(day, sessionIndex, now);
        Ok(s.(progress := s.progress.(startedSessions := started')))
  }

  /** The reply, and the schedule written back by `save()`, if any. */
  datatype StartEffect = StartEffect(reply: Result<Schedule, StartError>, saved: Option<Schedule>)

  /**
   * `POST /:id/start-session` as written: the validation and the lookup answer
   * as intended, and past them the read of the undeclared `startedSessions`
   * throws before anything is saved, which the catch reports as a 500.
   */
  function StartSessionAsWritten(found: Option<Schedule>, day: JsValue, sessionIndex: JsValue, now: int): (r: StartEffect)
    ensures r.saved.None?
    ensures r.reply.Err?
    ensures r.reply == Err(MissingFields) <==> StartRejected(day, sessionIndex)
    ensures r.reply == Err(ScheduleNotFound) <==> !StartRejected(day, sessionIndex) && found.None?
    ensures r.reply == Err(StartFailed) <==> !StartRejected(day, sessionIndex) && found.Some?
  {
    if StartRejected(day, sessionIndex) then StartEffect(Err(MissingFields), None)
    else if found.None? then StartEffect(Err(ScheduleNotFound), None)
    else StartEffect(Err(StartFailed), None)
  }

  /**
   * Wherever the intended route starts a session, the route as written fails
   * with a 500 and stores nothing; the two agree on every refusal before that.
   */
  lemma AsWrittenNeverStarts(found: Option<Schedule>, day: JsValue, sessionIndex: JsValue, now: int)
    ensures var w := StartSessionAsWritten(found, day, sessionIndex, now);
      var r := StartSession(found, day, sessionIndex, now);
      && (r.Ok? <==> w.reply == Err(StartFailed))
      && (r.Err? ==> w.reply == r)
      && (r.Ok? && !AlreadyStarted(found.value.progress.startedSessions, day, sessionIndex) ==>
            |r.value.progress.startedSessions| == |found.value.progress.startedSessions| + 1 && w.saved.None?)
  {
  }

  /** One truthy value, or a literal 0, in either field is enough to pass validation. */
  lemma OneValueSuffices(day: JsValue, sessionIndex: JsValue)
    requires Truthy(day) || Truthy(sessionIndex) || day == Num(0) || sessionIndex == Num(0)
    ensures !StartRejected(day, sessionIndex)
  {
  }

  /** Day 0 with no index passes; an empty string with a null index does not. */
  lemma ValidationExamples()
    ensures !StartRejected(Num(0), Undefined)
    ensures StartRejected(Str(""), Null)
    ensures StartRejected(Bool(false), Undefined)
  {
  }

  /**
   * Starting the same primitive pair again is a no-op, whatever the clock says.
   * (A parsed array or object is a fresh reference that `===` never matches.)
   */
  lemma StartIdempotent(s: Schedule, day: JsValue, sessionIndex: JsValue, t1: int, t2: int)
    requires !day.Composite? && !sessionIndex.Composite?
    requires StartSession(Some(s), day, sessionIndex, t1).Ok?
    ensures var s1 := StartSession(Some(s), day, sessionIndex, t1).value;
      StartSession(Some(s1), day, sessionIndex, t2) == Ok(s1)
  {
  }

  /** An array in the request body is appended on every call: there is no deduplication for it. */
  lemma CompositeNeverDeduplicated(s: Schedule, day: JsValue, sessionIndex: JsValue, now: int)
    requires day.Composite?
    ensures var r := StartSession(Some(s), day, sessionIndex, now);
      r.Ok? && |r.value.progress.startedSessions| == |s.progress.startedSessions| + 1
  {
  }

  /** Starting keeps at most one record per pair. */
  lemma StartKeepsUnique(s: Schedule, day: JsValue, sessionIndex: JsValue, now: int)
    requires UniqueStarts(s.progress.startedSessions)
    requires StartSession(Some(s), day, sessionIndex, now).Ok?
    ensures UniqueStarts(StartSession(Some(s), day, sessionIndex, now).value.progress.startedSessions)
  {
    var before := s.progress.startedSessions;
    if !AlreadyStarted(before, day, sessionIndex) {
      var after := StartSession(Some(s), day, sessionIndex, now).value.progress.startedSessions;
      forall i, j | 0 <= i < j < |after|
        ensures !(StrictEquals(after[i].day, after[j].day) && StrictEquals(after[i].sessionIndex, after[j].sessionIndex))
      {
        if j == |before| {
          assert after[i] == before[i];
        }
      }
    }
  }
}

=== FILE: schedule_store.dfy ===
/**
 * The schedules collection as a sequence of documents, and the three routes
 * that write to it: saving a plan after deactivating earlier active plans
 * for the same (user, material) pair (backend/routes/progress.js and
 * backend/routes/schedule.js), and marking a plan slot complete
 * (backend/routes/schedule.js). A document's id is its position; a lookup's
 * outcome is passed in as that position.
 */
module ScheduleStore {
  import opened Js
  import opened JsText
  import opened Grouping
  import opened ScheduleModel

  predicate ForPair(s: Schedule, userId: string, materialId: string) {
    s.userId == userId && s.materialId == materialId
  }

  /** No two active schedules belong to the same (user, material) pair. */
  predicate AtMostOneActive(store: seq<Schedule>) {
    forall i, j :: 0 <= i < j < |store| && store[i].active && store[j].active ==>
      !ForPair(store[j], store[i].userId, store[i].materialId)
  }

  /** `updateMany({ userId, materialId, active: true }, { active: false })`. */
  function Deactivate(store: seq<Schedule>, userId: string, materialId: string): (r: seq<Schedule>)
    ensures |r| == |store|
    ensures forall i :: 0 <= i < |r| ==> r[i].(active := store[i].active) == store[i]
    ensures forall i :: 0 <= i < |r| ==> (r[i].active <==> store[i].active && !ForPair(store[i], userId, materialId))
  {
    seq(|store|, i requires 0 <= i < |store| =>
      if ForPair(store[i], userId, materialId) then store[i].(active := false) else store[i])
  }

  /** `findOne({ userId, materialId, active: true })`: the first active schedule of the pair, or `|store|`. */
  function FindActive(store: seq<Schedule>, userId: string, materialId: string): (i: nat)
    ensures i <= |store|
    ensures i < |store| ==> store[i].active && ForPair(store[i], userId, materialId)
    ensures forall j :: 0 <= j < i ==> !(store[j].active && ForPair(store[j], userId, materialId))
  {
    if |store| == 0 then 0
    else if store[0].active && ForPair(store[0], userId, materialId) then 0
    else 1 + FindActive(store[1..], userId, materialId)
  }

  /** Deactivating, then inserting an active schedule for the same pair, leaves it the pair's only active one. */
  lemma DeactivateThenInsert(store: seq<Schedule>, s: Schedule)
    requires AtMostOneActive(store)
    ensures var r := Deactivate(store, s.userId, s.materialId) + [s];
      && AtMostOneActive(r)
      && forall i :: 0 <= i < |store| && ForPair(r[i], s.userId, s.materialId) ==> !r[i].active
  {
    var d := Deactivate(store, s.userId, s.materialId);
    var r := d + [s];
    forall i, j | 0 <= i < j < |r| && r[i].active && r[j].active
      ensures !ForPair(r[j], r[i].userId, r[i].materialId)
    {
      if j < |store| {
        assert r[i] == store[i].(active := true) && r[j] == store[j].(active := true);
      } else {
        assert r[i] == store[i].(active := true);
      }
    }
  }

  /** Replacing one document by a version that is no more active, for the same pair, keeps the property. */
  lemma ReplaceKeepsOneActive(store: seq<Schedule>, i: nat, s: Schedule)
    requires AtMostOneActive(store) && i < |store|
    requires ForPair(s, store[i].userId, store[i].materialId) && (s.active ==> store[i].active)
    ensures AtMostOneActive(store[i := s])
  {
  }

  /** A session in a plan never outnumbers the plan's total. */
  lemma {:induction false} DayWithinTotal(plan: seq<Day>, i: nat)
    requires i < |plan|
    ensures TotalSessions(plan) >= |plan[i].sessions|
  {
    var init := plan[..|plan| - 1];
    if i < |plan| - 1 {
      DayWithinTotal(init, i);
      assert init[i] == plan[i];
    }
    NonNegativeTotal(init);
  }

  lemma {:induction false} NonNegativeTotal(plan: seq<Day>)
    ensures TotalSessions(plan) >= 0
  {
    if |plan| > 0 {
      NonNegativeTotal(plan[..|plan| - 1]);
    }
  }

  // ---------------------------------------------------------------
  // POST /api/progress/schedule/save
  // ---------------------------------------------------------------

  datatype SaveError = ValidationFailed

  /** The store after the call, and the new schedule's status or the save error. */
  datatype Saved = Saved(store: seq<Schedule>, status: Result<Status, SaveError>)

  /**
   * Deactivate the pair's active schedules, then insert a new one. The body's
   * `scheduleData` names no schema path, so strict mode drops it and the plan
   * is stored empty. The schema's `required` strings reject "" (and absence,
   * which is modelled as ""); the deactivation has already happened when the
   * save fails.
   */
  function SaveFromProgress(store: seq<Schedule>, userId: string, materialId: string, materialTitle: string,
                            settings: Settings, now: int): (r: Saved)
    ensures r.status.Err? <==> userId == "" || materialId == "" || materialTitle == ""
    ensures r.status.Err? ==> r.store == Deactivate(store, userId, materialId)
    ensures r.status.Ok? ==> |r.store| == |store| + 1 && r.store[..|store|] == Deactivate(store, userId, materialId)
    ensures r.status.Ok? ==>
      var s := r.store[|store|];
      && ForPair(s, userId, materialId) && s.materialTitle == materialTitle && s.settings == settings
      && s.plan == [] && s.progress == InitialProgress() && s.active && s.startedAt == now
      && r.status.value == GetCurrentStatus(s)
  {
    var deactivated := Deactivate(store, userId, materialId);
    if userId == "" || materialId == "" || materialTitle == "" then Saved(deactivated, Err(ValidationFailed))
    else
      var s := NewSchedule(userId, materialId, materialTitle, 0, 0, [], [], [], settings, now);
      Saved(deactivated + [s], Ok(GetCurrentStatus(s)))
  }

  /** A successful save leaves exactly one active schedule for its pair, the new one. */
  lemma SaveFromProgressKeepsOneActive(store: seq<Schedule>, userId: string, materialId: string,
                                       materialTitle: string, settings: Settings, now: int)
    requires AtMostOneActive(store)
    ensures var r := SaveFromProgress(store, userId, materialId, materialTitle, settings, now);
      && AtMostOneActive(r.store)
      && forall i :: 0 <= i < |store| && ForPair(r.store[i], userId, materialId) ==> !r.store[i].active
  {
    var r := SaveFromProgress(store, userId, materialId, materialTitle, settings, now);
    if r.status.Ok? {
      DeactivateThenInsert(store, r.store[|store|]);
    }
  }

  /** The status returned by a successful save: nothing planned, nothing done, not complete. */
  lemma SavedFromProgressIsEmpty(store: seq<Schedule>, userId: string, materialId: string,
                                 materialTitle: string, settings: Settings, now: int)
    requires userId != "" && materialId != "" && materialTitle != ""
    ensures var st := SaveFromProgress(store, userId, materialId, materialTitle, settings, now).status;
      && st.Ok? && st.value.totalDays == 0 && st.value.totalSessions == 0
      && st.value.currentDay == 1 && st.value.percentComplete == 0 && !st.value.isComplete
      && st.value.nextSession.None?
  {
  }

  // ---------------------------------------------------------------
  // POST /api/schedule: the database half
  // ---------------------------------------------------------------

  /** The request fields the save uses; `None` is an absent field, "" an empty string. */
  datatype GenerateRequest = GenerateRequest(
    userId: Option<string>,
    materialId: string,
    materialTitle: string,
    availableHoursPerDay: Option<int>,
    targetDate: Option<int>,
    difficulty: Option<string>,
    learningStyle: Option<string>,
    saveToDatabase: bool)

  /** The parsed plan's top-level fields; `None` stands for absent or falsy. */
  datatype GeneratedData = GeneratedData(
    totalEstimatedHours: Option<int>,
    recommendedDaysNeeded: Option<int>,
    plan: Option<seq<Day>>,
    studyTips: Option<seq<string>>,
    milestones: Option<seq<Milestone>>)

  const DEFAULT_USER := "default_user"
  const UNTITLED := "Untitled Material"

  /** The user id after the destructuring default, which applies only to an absent field. */
  function RequestUser(req: GenerateRequest): string {
    req.userId.GetOr(DEFAULT_USER)
  }

  /** `materialId || \`material_${Date.now()}\``. */
  function MaterialIdFor(req: GenerateRequest, now: int): (id: string)
    ensures id != ""
    ensures req.materialId != "" ==> id == req.materialId
    ensures req.materialId == "" ==> StartsWith(id, "material_")
  {
    if req.materialId != "" then req.materialId else "material_" + IntToString(now)
  }

  /** `targetDate ? new Date(targetDate) : null`: a falsy date, 0, is stored as null. */
  function StoredDate(t: Option<int>): Option<int> {
    if t == Some(0) then None else t
  }

  /** The document `new Schedule({...})` builds, with every default applied. */
  function GeneratedSchedule(req: GenerateRequest, data: GeneratedData, now: int): (s: Schedule)
    ensures s.userId == RequestUser(req) && s.materialId == MaterialIdFor(req, now)
    ensures s.materialTitle != "" && (req.materialTitle != "" ==> s.materialTitle == req.materialTitle)
    ensures s.totalEstimatedHours == (if data.totalEstimatedHours.Some? then data.totalEstimatedHours.value else 0)
    ensures s.recommendedDaysNeeded == (if data.recommendedDaysNeeded.Some? then data.recommendedDaysNeeded.value else 0)
    ensures data.plan.Some? ==> s.plan == data.plan.value
    ensures data.plan.None? ==> s.plan == []
    ensures data.studyTips.Some? ==> s.studyTips == data.studyTips.value
    ensures data.studyTips.None? ==> s.studyTips == []
    ensures data.milestones.Some? ==> s.milestones == data.milestones.value
    ensures data.milestones.None? ==> s.milestones == []
    ensures s.settings.availableHoursPerDay == req.availableHoursPerDay.GetOr(2)
    ensures s.settings.difficulty == req.difficulty.GetOr("medium")
    ensures s.settings.learningStyle == req.learningStyle.GetOr("balanced")
    ensures s.settings.targetDate.Some? <==> req.targetDate.Some? && req.targetDate.value != 0
    ensures s.settings.targetDate.Some? ==> s.settings.targetDate == req.targetDate
    ensures s.progress == InitialProgress() && s.active && s.completedAt.None? && s.startedAt == now
  {
    NewSchedule(
      RequestUser(req),
      MaterialIdFor(req, now),
      if req.materialTitle != "" then req.materialTitle else UNTITLED,
      data.totalEstimatedHours.GetOr(0),
      data.recommendedDaysNeeded.GetOr(0),
      data.plan.GetOr([]),
      data.studyTips.GetOr([]),
      data.milestones.GetOr([]),
      Settings(req.availableHoursPerDay.GetOr(2), StoredDate(req.targetDate), req.difficulty.GetOr("medium"),
        req.learningStyle.GetOr("balanced")),
      now)
  }

  /** The store after the database half, and whether the new document was stored. */
  datatype GeneratedSave = GeneratedSave(store: seq<Schedule>, stored: bool)

  /**
   * With `saveToDatabase`, deactivate the pair's active schedules (filtered on
   * the material id as sent), then insert the defaulted document. Only the user
   * id can still fail the `required` check; a failed save is logged and swallowed.
   */
  function SaveGenerated(store: seq<Schedule>, req: GenerateRequest, data: GeneratedData, now: int): (r: GeneratedSave)
    ensures !req.saveToDatabase ==> r == GeneratedSave(store, false)
    ensures r.stored <==> req.saveToDatabase && RequestUser(req) != ""
    ensures |r.store| >= |store|
    ensures req.saveToDatabase ==> r.store[..|store|] == Deactivate(store, RequestUser(req), req.materialId)
    ensures req.saveToDatabase && !r.stored ==> r.store == Deactivate(store, RequestUser(req), req.materialId)
    ensures r.stored ==> r.store == Deactivate(store, RequestUser(req), req.materialId) + [GeneratedSchedule(req, data, now)]
  {
    if !req.saveToDatabase then GeneratedSave(store, false)
    else
      var deactivated := Deactivate(store, RequestUser(req), req.materialId);
      if RequestUser(req) == "" then GeneratedSave(deactivated, false)
      else GeneratedSave(deactivated + [GeneratedSchedule(req, data, now)], true)
  }

  /**
   * A stored plan is the only active one for its pair, provided that, when the
   * material id was generated from the clock, no active plan already carries it.
   */
  lemma SaveGeneratedKeepsOneActive(store: seq<Schedule>, req: GenerateRequest, data: GeneratedData, now: int)
    requires AtMostOneActive(store)
    requires req.materialId == "" ==>
      forall i :: 0 <= i < |store| ==> !(store[i].active && ForPair(store[i], RequestUser(req), MaterialIdFor(req, now)))
    ensures AtMostOneActive(SaveGenerated(store, req, data, now).store)
  {
    var r := SaveGenerated(store, req, data, now);
    if r.stored {
      var s := GeneratedSchedule(req, data, now);
      var d := Deactivate(store, RequestUser(req), req.materialId);
      if req.materialId != "" {
        DeactivateThenInsert(store, s);
      } else {
        forall i, j | 0 <= i < j < |r.store| && r.store[i].active && r.store[j].active
          ensures !ForPair(r.store[j], r.store[i].userId, r.store[i].materialId)
        {
          assert r.store[i] == store[i].(active := true);
          if j < |store| {
            assert r.store[j] == store[j].(active := true);
          }
        }
      }
    }
  }

  /**
   * The response's `savedToDatabase` as written: `!!savedSchedule`, and the
   * variable is assigned before `save()` runs, so a save that threw still
   * reports true.
   */
  function ReportedSavedAsWritten(req: GenerateRequest): (b: bool)
    ensures b <==> req.saveToDatabase
  {
    req.saveToDatabase
  }

  /** An empty user id makes the save fail while the response claims it succeeded. */
  lemma ReportedSavedOverstates(store: seq<Schedule>, req: GenerateRequest, data: GeneratedData, now: int)
    requires req.saveToDatabase && req.userId == Some("")
    ensures ReportedSavedAsWritten(req) && !SaveGenerated(store, req, data, now).stored
  {
  }

  /** `savedToDatabase` as intended: set only once the save went through. */
  function ReportedSaved(r: GeneratedSave): (b: bool)
    ensures b <==> r.stored
  {
    r.stored
  }

  /** With the intended flag, a reported save is a stored document, the last one in the store. */
  lemma ReportedSavedMeansStored(store: seq<Schedule>, req: GenerateRequest, data: GeneratedData, now: int)
    ensures var r := SaveGenerated(store, req, data, now);
      ReportedSaved(r) <==> |r.store| == |store| + 1 && r.store[|store|] == GeneratedSchedule(req, data, now)
  {
  }

  // ---------------------------------------------------------------
  // POST /api/schedule/session/complete
  // ---------------------------------------------------------------

  /**
   * `OutsideModel` covers the inputs whose outcome rests on behaviour the model
   * leaves out: a `day` or `sessionIndex` that is not a number (Mongoose casts or
   * rejects it on save), and a plan with no sessions (the percentage divides by zero).
   */
  datatype CompleteError = MissingFields | ScheduleNotFound | OutsideModel

  datatype Completed = Completed(store: seq<Schedule>, status: Status)

  /** The body's check: `!scheduleId || day === undefined || sessionIndex === undefined`. */
  predicate CompleteRejected(scheduleId: JsValue, day: JsValue, sessionIndex: JsValue) {
    !Truthy(scheduleId) || day.Undefined? || sessionIndex.Undefined?
  }

  /** `found` is the position `findById` resolved, if any. */
  function CompleteRoute(store: seq<Schedule>, scheduleId: JsValue, found: Option<nat>,
                         day: JsValue, sessionIndex: JsValue, now: int): (r: Result<Completed, CompleteError>)
    requires found.Some? ==> found.value < |store|
    ensures r == Err(MissingFields) <==> CompleteRejected(scheduleId, day, sessionIndex)
    ensures r == Err(ScheduleNotFound) <==> !CompleteRejected(scheduleId, day, sessionIndex) && found.None?
    ensures r.Ok? ==> (
      && found.Some? && day.Num? && sessionIndex.Num?
      && TotalSessions(store[found.value].plan) > 0
      && r.value.store == store[found.value := CompleteSession(store[found.value], day.n, sessionIndex.n, now)]
      && r.value.status == GetCurrentStatus(r.value.store[found.value]))
    ensures (
      && found.Some? && !CompleteRejected(scheduleId, day, sessionIndex) && day.Num? && sessionIndex.Num?
      && TotalSessions(store[found.value].plan) > 0) ==> r.Ok?
  {
    if CompleteRejected(scheduleId, day, sessionIndex) then Err(MissingFields)
    else if found.None? then Err(ScheduleNotFound)
    else
      var i := found.value;
      if !day.Num? || !sessionIndex.Num? || TotalSessions(store[i].plan) <= 0 then Err(OutsideModel)
      else
        var s := CompleteSession(store[i], day.n, sessionIndex.n, now);
        Ok(Completed(store[i := s], GetCurrentStatus(s)))
  }

  /** Completing a slot through the route never breaks the one-active-plan rule. */
  lemma CompleteRouteKeepsOneActive(store: seq<Schedule>, scheduleId: JsValue, found: Option<nat>,
                                    day: JsValue, sessionIndex: JsValue, now: int)
    requires found.Some? ==> found.value < |store|
    requires AtMostOneActive(store)
    requires CompleteRoute(store, scheduleId, found, day, sessionIndex, now).Ok?
    ensures AtMostOneActive(CompleteRoute(store, scheduleId, found, day, sessionIndex, now).value.store)
  {
    var i := found.value;
    ReplaceKeepsOneActive(store, i, CompleteSession(store[i], day.n, sessionIndex.n, now));
  }

  /** A day of 0 passes the body check: only `undefined` is refused for `day`. */
  lemma DayZeroAccepted(store: seq<Schedule>, i: nat, now: int)
    requires i < |store| && TotalSessions(store[i].plan) > 0
    ensures CompleteRoute(store, Str("id"), Some(i), Num(0), Num(0), now).Ok?
  {
  }
}

=== FILE: schedule_view.dfy ===
/**
 * The schedule screen's helpers (frontend/src/components/Schedule.jsx): a
 * session's minutes printed as hours and minutes, and the icon and colour
 * looked up for a session type and a priority.
 */
module ScheduleView {
  import opened Js
  import opened JsText
  import Study = StudySessionModel

  /** JavaScript's `%`: the remainder takes the sign of the dividend. */
  function JsRem(a: int, b: int): (r: int)
    requires b > 0
    ensures a >= 0 ==> 0 <= r < b && r == a % b
    ensures a < 0 ==> -b < r <= 0 && r == -((-a) % b)
  {
    if a >= 0 then a % b else -((-a) % b)
  }

  predicate AllDigits(s: string) {
    forall i :: 0 <= i < |s| ==> IsDigit(s[i])
  }

  /** The template choice for a split duration. */
  function Render(hours: int, mins: int): string {
    if hours > 0 then
      if mins > 0 then IntToString(hours) + "h " + IntToString(mins) + "m" else IntToString(hours) + "h"
    else IntToString(mins) + "m"
  }

  lemma RenderFacts(hours: nat, mins: nat)
    ensures 'h' in Render(hours, mins) <==> hours > 0
    ensures 'm' in Render(hours, mins) <==> hours == 0 || mins > 0
    ensures ' ' in Render(hours, mins) <==> hours > 0 && mins > 0
  {
    var r := Render(hours, mins);
    var H, M := IntToString(hours), IntToString(mins);
    DigitsHaveNoLetters(H);
    DigitsHaveNoLetters(M);
    if hours > 0 && mins > 0 {
      assert r == H + "h " + M + "m";
      assert r[|H|] == 'h' && r[|H| + 1] == ' ' && r[|r| - 1] == 'm';
      assert forall i :: 0 <= i < |r| ==> r[i] in H || r[i] in M || r[i] in "h m" by {
        forall i | 0 <= i < |r| ensures r[i] in H || r[i] in M || r[i] in "h m" {
          if i < |H| { assert r[i] == H[i]; }
          else if i >= |H| + 2 && i < |r| - 1 { assert r[i] == M[i - |H| - 2]; }
        }
      }
    } else if hours > 0 {
      assert r == H + "h";
      assert r[|r| - 1] == 'h';
      assert forall i :: 0 <= i < |r| - 1 ==> r[i] == H[i];
    } else {
      assert r == M + "m";
      assert r[|r| - 1] == 'm';
      assert forall i :: 0 <= i < |r| - 1 ==> r[i] == M[i];
    }
  }

  /**
   * `formatDuration(minutes)`: whole hours by flooring, the rest by `%`;
   * "Hh Mm" when both are positive, "Hh" for exact hours, "Mm" otherwise.
   */
  function FormatDuration(minutes: int): (r: string)
    ensures minutes >= 0 ==> ('h' in r <==> minutes >= 60)
    ensures minutes >= 0 ==> ('m' in r <==> minutes < 60 || minutes % 60 != 0)
    ensures minutes >= 0 ==> (' ' in r <==> minutes >= 60 && minutes % 60 != 0)
  {
    var hours := minutes / 60;
    var mins := JsRem(minutes, 60);
    if minutes >= 0 then RenderFacts(hours, mins); Render(hours, mins) else Render(hours, mins)
  }

  lemma DigitsHaveNoLetters(s: string)
    requires AllDigits(s)
    ensures 'h' !in s && 'm' !in s && ' ' !in s
  {
    forall i | 0 <= i < |s| ensures s[i] != 'h' && s[i] != 'm' && s[i] != ' ' {
      assert IsDigit(s[i]);
    }
  }

  /** A non-empty run of decimal digits, read as a number. */
  function ReadNumber(s: string): (r: Option<nat>)
    ensures r.Some? <==> |s| > 0 && AllDigits(s)
  {
    if |s| > 0 && AllDigits(s) then Some(ParseDigits(s)) else None
  }

  /** Reads "Hh" and "M" on either side of the first space of "Hh Mm". */
  function ReadHoursMinutes(hp: string, mp: string): Option<nat> {
    if |hp| > 0 && hp[|hp| - 1] == 'h' && ReadNumber(hp[..|hp| - 1]).Some? && ReadNumber(mp).Some?
    then Some(60 * ReadNumber(hp[..|hp| - 1]).value + ReadNumber(mp).value)
    else None
  }

  /** Reads back "Hh Mm", "Hh" or "Mm" written with decimal digits. */
  function ParseDuration(s: string): Option<nat> {
    if |s| == 0 then None
    else
      var body := s[..|s| - 1];
      if s[|s| - 1] == 'h' then
        if ReadNumber(body).Some? then Some(60 * ReadNumber(body).value) else None
      else if s[|s| - 1] == 'm' then
        if AllDigits(body) then ReadNumber(body)
        else if ' ' in body then
          var k := FirstIndex(body, ' ');
          ReadHoursMinutes(body[..k], body[k + 1..])
        else None
      else None
  }

  /** `FirstIndex` finds the one occurrence that has none before it. */
  lemma FirstIndexIs(s: string, c: char, i: nat)
    requires i < |s| && s[i] == c && c !in s[..i]
    ensures FirstIndex(s, c) == i
  {
    var j := FirstIndex(s, c);
    assert forall k :: 0 <= k < i ==> s[..i][k] == s[k];
    assert forall k :: 0 <= k < j ==> s[..j][k] == s[k];
  }

  /** The first space of "Hh Mm" is the one after the 'h'. */
  lemma SpaceAfterHours(H: string, M: string)
    requires AllDigits(H)
    ensures var body := H + "h " + M;
      && ' ' in body && FirstIndex(body, ' ') == |H| + 1
      && body[..|H| + 1] == H + "h" && body[|H| + 2..] == M
  {
    var body := H + "h " + M;
    DigitsHaveNoLetters(H);
    assert body[|H| + 1] == ' ';
    assert body[..|H| + 1] == H + "h";
    FirstIndexIs(body, ' ', |H| + 1);
    assert body[|H| + 2..] == M;
  }

  lemma ReadBothDigits(H: string, M: string)
    requires |H| > 0 && AllDigits(H) && |M| > 0 && AllDigits(M)
    ensures ParseDuration(H + "h " + M + "m") == Some(60 * ParseDigits(H) + ParseDigits(M))
  {
    var s := H + "h " + M + "m";
    var body := H + "h " + M;
    assert s[..|s| - 1] == body && s[|s| - 1] == 'm';
    assert !AllDigits(body) by {
      assert body[|H|] == 'h';
    }
    SpaceAfterHours(H, M);
    ReadHoursThenMinutes(H, M);
    assert ParseDuration(s) == ReadHoursMinutes(body[..|H| + 1], body[|H| + 2..]);
  }

  lemma ReadHoursThenMinutes(H: string, M: string)
    requires |H| > 0 && AllDigits(H) && |M| > 0 && AllDigits(M)
    ensures ReadHoursMinutes(H + "h", M) == Some(60 * ParseDigits(H) + ParseDigits(M))
  {
    assert (H + "h")[..|H|] == H;
  }

  lemma ReadUnitDigits(D: string, unit: char)
    requires |D| > 0 && AllDigits(D) && unit in {'h', 'm'}
    ensures ParseDuration(D + [unit]) == Some(if unit == 'h' then 60 * ParseDigits(D) else ParseDigits(D))
  {
    var s := D + [unit];
    assert s[..|s| - 1] == D;
    assert s[|s| - 1] == unit;
  }

  lemma {:induction false} ReadRendered(hours: nat, mins: nat)
    ensures ParseDuration(Render(hours, mins)) == Some(if hours > 0 && mins == 0 then 60 * hours else if hours > 0 then 60 * hours + mins else mins)
  {
    if hours > 0 && mins > 0 {
      ReadHoursAndMinutes(hours, mins);
    } else if hours > 0 {
      ReadUnit(hours, 'h');
      assert Render(hours, mins) == NatToString(hours) + "h";
    } else {
      ReadUnit(mins, 'm');
      assert Render(hours, mins) == NatToString(mins) + "m";
    }
  }

  /** "<h>h <m>m" reads back as 60 * h + m. */
  lemma {:induction false} ReadHoursAndMinutes(hours: nat, mins: nat)
    requires hours > 0 && mins > 0
    ensures ParseDuration(Render(hours, mins)) == Some(60 * hours + mins)
  {
    var H, M := NatToString(hours), NatToString(mins);
    ParsePrinted(hours);
    ParsePrinted(mins);
    assert Render(hours, mins) == H + "h " + M + "m";
    ReadBothDigits(H, M);
  }

  /** A number followed by one unit letter reads back as that number scaled by the unit. */
  lemma {:induction false} ReadUnit(n: nat, unit: char)
    requires unit == 'h' || unit == 'm'
    ensures ParseDuration(NatToString(n) + [unit]) == Some(if unit == 'h' then 60 * n else n)
  {
    ParsePrinted(n);
    ReadUnitDigits(NatToString(n), unit);
  }

  /** Every non-negative duration reads back as the minutes it was printed from. */
  lemma {:induction false} FormatRoundTrip(minutes: nat)
    ensures ParseDuration(FormatDuration(minutes)) == Some(minutes)
  {
    var hours := minutes / 60;
    var mins := minutes % 60;
    assert FormatDuration(minutes) == Render(hours, mins);
    ReadRendered(hours, mins);
    assert minutes == 60 * hours + mins;
  }

  /** Printing is one-to-one on non-negative durations. */
  lemma FormatInjective(a: nat, b: nat)
    requires FormatDuration(a) == FormatDuration(b)
    ensures a == b
  {
    FormatRoundTrip(a);
    FormatRoundTrip(b);
  }

  /** Zero prints as "0m"; ninety as "1h 30m"; two hours as "2h". */
  lemma FormatExamples()
    ensures FormatDuration(0) == "0m"
    ensures FormatDuration(90) == "1h 30m"
    ensures FormatDuration(120) == "2h"
  {
    FormatZero();
    FormatNinety();
    FormatTwoHours();
  }

  lemma FormatZero()
    ensures FormatDuration(0) == "0m"
  {
    assert FormatDuration(0) == Render(0, 0);
    assert IntToString(0) == "0";
  }

  lemma FormatNinety()
    ensures FormatDuration(90) == "1h 30m"
  {
    assert JsRem(90, 60) == 30;
    assert FormatDuration(90) == Render(1, 30);
    assert IntToString(1) == "1";
    assert IntToString(30) == NatToString(3) + NatToString(0);
  }

  lemma FormatTwoHours()
    ensures FormatDuration(120) == "2h"
  {
    assert JsRem(120, 60) == 0;
    assert FormatDuration(120) == Render(2, 0);
    assert IntToString(2) == "2";
  }

  /** A negative input keeps only its truncated remainder, so -90 prints like -30. */
  lemma NegativeLosesHours()
    ensures FormatDuration(-90) == "-30m" == FormatDuration(-30)
  {
  }

  const DEFAULT_ICON := "\U{1F4DA}"
  const DEFAULT_COLOR := "#718096"

  const ICONS: map<string, string> := map[
    "reading" := "\U{1F4D6}",
    "practice" := "\U{270D}\U{FE0F}",
    "quiz" := "\U{1F3AF}",
    "review" := "\U{1F504}"]

  const COLORS: map<string, string> := map[
    "high" := "#f56565",
    "medium" := "#ed8936",
    "low" := "#48bb78"]

  /**
   * `getTypeIcon(type)`: the study-session types each have their own icon,
   * and every other string gets the books icon.
   */
  function TypeIcon(sessionType: string): (r: string)
    ensures r == DEFAULT_ICON <==> !Study.IsSessionType(sessionType)
  {
    if sessionType in ICONS then ICONS[sessionType] else DEFAULT_ICON
  }

  /** The four session types get four different icons. */
  lemma IconsDistinct(a: string, b: string)
    requires Study.IsSessionType(a) && Study.IsSessionType(b) && a != b
    ensures TypeIcon(a) != TypeIcon(b)
  {
  }

  /** `getPriorityColor(priority)`: high, medium and low have colours; anything else is grey. */
  function PriorityColor(priority: string): (r: string)
    ensures r == DEFAULT_COLOR <==> priority !in {"high", "medium", "low"}
  {
    if priority in COLORS then COLORS[priority] else DEFAULT_COLOR
  }
}

=== FILE: seq_sets.dfy ===
/**
 * Counting distinct elements: the facts that turn "no duplicates" into
 * "no more than there are slots".
 */
module SeqSets {

  /** No value occurs twice. */
  predicate NoRepeats<T(==)>(xs: seq<T>) {
    forall i, j :: 0 <= i < j < |xs| ==> xs[i] != xs[j]
  }

  function Elems<T>(xs: seq<T>): set<T> {
    set x | x in xs
  }

  /** A sequence has at most as many distinct values as entries, exactly as many when none repeats. */
  lemma {:induction false} ElemsBound<T>(xs: seq<T>)
    ensures |Elems(xs)| <= |xs|
    ensures NoRepeats(xs) ==> |Elems(xs)| == |xs|
  {
    if |xs| > 0 {
      var p := xs[..|xs| - 1];
      var x := xs[|xs| - 1];
      assert xs == p + [x];
      assert Elems(xs) == Elems(p) + {x};
      ElemsBound(p);
      if NoRepeats(xs) {
        assert NoRepeats(p);
        assert x !in Elems(p);
      }
    }
  }

  /** A repeated value leaves fewer distinct values than entries. */
  lemma RepeatShrinks<T>(xs: seq<T>, i: nat, j: nat)
    requires i < j < |xs| && xs[i] == xs[j]
    ensures |Elems(xs)| < |xs|
  {
    var rest := xs[..j] + xs[j + 1..];
    assert Elems(xs) == Elems(rest) by {
      assert xs == xs[..j] + [xs[j]] + xs[j + 1..];
      assert xs[j] == rest[i];
    }
    ElemsBound(rest);
  }

  lemma SubsetBound<T>(a: set<T>, b: set<T>)
    requires a <= b
    ensures |a| <= |b|
  {
    assert b == a + (b - a);
  }

  /** A sequence without repeats, drawn from a set, is no longer than the set is large. */
  lemma DistinctInside<T>(xs: seq<T>, b: set<T>)
    requires NoRepeats(xs)
    requires forall i :: 0 <= i < |xs| ==> xs[i] in b
    ensures |xs| <= |b|
  {
    ElemsBound(xs);
    SubsetBound(Elems(xs), b);
  }
}

=== FILE: stable_sort.dfy ===
/**
 * `array.sort((a, b) => key(a) - key(b))`: JavaScript's sort is stable, so the
 * result is ascending by key with equal keys left in their original order.
 * Modelled as insertion sort, with both halves of stability stated: the output
 * is sorted, and for every key the elements carrying it appear in input order.
 */
module StableSort {
  import opened Grouping

  predicate SortedBy<T>(s: seq<T>, key: T -> int) {
    forall i, j :: 0 <= i < j < |s| ==> key(s[i]) <= key(s[j])
  }

  /** The elements of `s` whose key is `k`, in order. */
  function WithKey<T>(s: seq<T>, key: T -> int, k: int): seq<T> {
    if |s| == 0 then []
    else (if key(s[0]) == k then [s[0]] else []) + WithKey(s[1..], key, k)
  }

  /** Places `x` in front of the first element whose key is at least its own. */
  function Insert<T>(x: T, s: seq<T>, key: T -> int): (r: seq<T>)
    ensures |r| == |s| + 1
    ensures key(r[0]) == key(x) || (|s| > 0 && key(r[0]) == key(s[0]))
  {
    if |s| == 0 then [x]
    else if key(x) <= key(s[0]) then [x] + s
    else [s[0]] + Insert(x, s[1..], key)
  }

  lemma {:induction false} InsertSorted<T>(x: T, s: seq<T>, key: T -> int)
    requires SortedBy(s, key)
    ensures SortedBy(Insert(x, s, key), key)
  {
    if |s| > 0 && key(x) > key(s[0]) {
      InsertSorted(x, s[1..], key);
      var t := Insert(x, s[1..], key);
      assert forall j :: 0 <= j < |t| ==> key(s[0]) <= key(t[j]) by {
        forall j | 0 <= j < |t| ensures key(s[0]) <= key(t[j]) {
          assert key(t[0]) <= key(t[j]) || j == 0;
        }
      }
      assert Insert(x, s, key) == [s[0]] + t;
    }
  }

  lemma {:induction false} InsertPermutes<T>(x: T, s: seq<T>, key: T -> int)
    ensures multiset(Insert(x, s, key)) == multiset(s) + multiset{x}
  {
    if |s| > 0 && key(x) > key(s[0]) {
      InsertPermutes(x, s[1..], key);
      assert s == [s[0]] + s[1..];
    }
  }

  lemma WithKeyCons<T>(a: T, t: seq<T>, key: T -> int, k: int)
    ensures WithKey([a] + t, key, k) == (if key(a) == k then [a] else []) + WithKey(t, key, k)
  {
    assert ([a] + t)[0] == a;
    assert ([a] + t)[1..] == t;
  }

  lemma {:induction false} InsertKeepsKeyOrder<T>(x: T, s: seq<T>, key: T -> int, k: int)
    ensures WithKey(Insert(x, s, key), key, k) == (if key(x) == k then [x] else []) + WithKey(s, key, k)
  {
    if |s| == 0 {
      WithKeyCons(x, [], key, k);
      assert Insert(x, s, key) == [x] + [];
    } else if key(x) <= key(s[0]) {
      assert Insert(x, s, key) == [x] + s;
      WithKeyCons(x, s, key, k);
    } else {
      var t := Insert(x, s[1..], key);
      assert Insert(x, s, key) == [s[0]] + t;
      InsertKeepsKeyOrder(x, s[1..], key, k);
      WithKeyCons(s[0], t, key, k);
      WithKeyCons(s[0], s[1..], key, k);
      assert s == [s[0]] + s[1..];
    }
  }

  /** The stable ascending sort of `s` by `key`. */
  function SortBy<T>(s: seq<T>, key: T -> int): (r: seq<T>)
    ensures |r| == |s|
    ensures SortedBy(r, key)
    ensures multiset(r) == multiset(s)
    ensures forall k :: WithKey(r, key, k) == WithKey(s, key, k)
  {
    if |s| == 0 then []
    else
      var t := SortBy(s[1..], key);
      InsertStep(s, t, key);
      Insert(s[0], t, key)
  }

  /** Inserting the head into the sorted tail sorts the whole. */
  lemma InsertStep<T>(s: seq<T>, t: seq<T>, key: T -> int)
    requires |s| > 0 && SortedBy(t, key) && multiset(t) == multiset(s[1..])
    requires forall k :: WithKey(t, key, k) == WithKey(s[1..], key, k)
    ensures SortedBy(Insert(s[0], t, key), key)
    ensures multiset(Insert(s[0], t, key)) == multiset(s)
    ensures forall k :: WithKey(Insert(s[0], t, key), key, k) == WithKey(s, key, k)
  {
    InsertSorted(s[0], t, key);
    InsertPermutes(s[0], t, key);
    assert s == [s[0]] + s[1..];
    forall k ensures WithKey(Insert(s[0], t, key), key, k) == WithKey(s, key, k) {
      InsertKeepsKeyOrder(s[0], t, key, k);
      WithKeyCons(s[0], s[1..], key, k);
    }
  }

  lemma {:induction false} InsertMember<T>(x: T, s: seq<T>, key: T -> int, e: T)
    requires e in Insert(x, s, key)
    ensures e == x || e in s
  {
    if |s| > 0 && key(x) > key(s[0]) {
      assert Insert(x, s, key) == [s[0]] + Insert(x, s[1..], key);
      if e != s[0] {
        InsertMember(x, s[1..], key, e);
      }
    }
  }

  /** `s.map(f)`: the projection of each entry, in order. */
  function Project<T, K>(s: seq<T>, f: T -> K): (ks: seq<K>)
    ensures |ks| == |s|
    ensures forall i :: 0 <= i < |s| ==> ks[i] == f(s[i])
  {
    seq(|s|, i requires 0 <= i < |s| => f(s[i]))
  }

  /** No two elements of `s` agree on `f`. */
  predicate DistinctBy<T, K(==)>(s: seq<T>, f: T -> K) {
    forall i, j :: 0 <= i < j < |s| ==> f(s[i]) != f(s[j])
  }

  lemma {:induction false} InsertDistinct<T, K>(x: T, s: seq<T>, key: T -> int, f: T -> K)
    requires DistinctBy(s, f)
    requires forall i :: 0 <= i < |s| ==> f(s[i]) != f(x)
    ensures DistinctBy(Insert(x, s, key), f)
  {
    var r := Insert(x, s, key);
    if |s| > 0 && key(x) > key(s[0]) {
      var tail := s[1..];
      assert DistinctBy(tail, f) by {
        forall i, j | 0 <= i < j < |tail| ensures f(tail[i]) != f(tail[j]) {
          assert tail[i] == s[i + 1] && tail[j] == s[j + 1];
        }
      }
      InsertDistinct(x, tail, key, f);
      var t := Insert(x, tail, key);
      assert r == [s[0]] + t;
      forall i, j | 0 <= i < j < |r| ensures f(r[i]) != f(r[j]) {
        assert r[j] == t[j - 1];
        if i == 0 {
          InsertMember(x, tail, key, t[j - 1]);
          if t[j - 1] != x {
            var m :| 0 <= m < |tail| && tail[m] == t[j - 1];
            assert s[m + 1] == t[j - 1];
          }
        } else {
          assert r[i] == t[i - 1];
        }
      }
    } else if |s| > 0 {
      assert r == [x] + s;
      forall i, j | 0 <= i < j < |r| ensures f(r[i]) != f(r[j]) {
        if i > 0 {
          assert r[i] == s[i - 1] && r[j] == s[j - 1];
        } else {
          assert r[j] == s[j - 1];
        }
      }
    }
  }

  /** Sorting never makes two elements agree on a projection they all differed on before. */
  lemma {:induction false} SortKeepsDistinct<T, K>(s: seq<T>, key: T -> int, f: T -> K)
    requires DistinctBy(s, f)
    ensures DistinctBy(SortBy(s, key), f)
  {
    if |s| > 0 {
      var tail := s[1..];
      assert DistinctBy(tail, f) by {
        forall i, j | 0 <= i < j < |tail| ensures f(tail[i]) != f(tail[j]) {
          assert tail[i] == s[i + 1] && tail[j] == s[j + 1];
        }
      }
      SortKeepsDistinct(tail, key, f);
      var t := SortBy(tail, key);
      forall i | 0 <= i < |t| ensures f(t[i]) != f(s[0]) {
        assert t[i] in multiset(t);
        assert t[i] in multiset(tail);
        var m :| 0 <= m < |tail| && tail[m] == t[i];
        assert s[m + 1] == t[i];
      }
      InsertDistinct(s[0], t, key, f);
    }
  }

  lemma {:induction false} InsertTotal<T>(x: T, s: seq<T>, key: T -> int, w: T -> int)
    ensures Total(Insert(x, s, key), w) == w(x) + Total(s, w)
  {
    var r := Insert(x, s, key);
    if |s| == 0 {
      assert r == [] + [x];
    } else if key(x) <= key(s[0]) {
      TotalAppend([x], s, w);
      assert [x] == [] + [x];
    } else {
      InsertTotal(x, s[1..], key, w);
      TotalAppend([s[0]], Insert(x, s[1..], key), w);
      TotalAppend([s[0]], s[1..], w);
      assert s == [s[0]] + s[1..];
      assert [s[0]] == [] + [s[0]];
    }
  }

  /** Sorting preserves every sum taken over the elements. */
  lemma {:induction false} SortTotal<T>(s: seq<T>, key: T -> int, w: T -> int)
    ensures Total(SortBy(s, key), w) == Total(s, w)
  {
    if |s| > 0 {
      SortTotal(s[1..], key, w);
      InsertTotal(s[0], SortBy(s[1..], key), key, w);
      TotalAppend([s[0]], s[1..], w);
      assert s == [s[0]] + s[1..];
      assert [s[0]] == [] + [s[0]];
    }
  }

  /** Equal-key elements appear in increasing `rank`. */
  predicate TiesRanked<T>(s: seq<T>, key: T -> int, rank: T -> int) {
    forall i, j :: 0 <= i < j < |s| && key(s[i]) == key(s[j]) ==> rank(s[i]) < rank(s[j])
  }

  lemma {:induction false} InsertTiesRanked<T>(x: T, s: seq<T>, key: T -> int, rank: T -> int)
    requires TiesRanked(s, key, rank)
    requires forall i :: 0 <= i < |s| ==> rank(x) < rank(s[i])
    ensures TiesRanked(Insert(x, s, key), key, rank)
  {
    var r := Insert(x, s, key);
    if |s| == 0 {
    } else if key(x) <= key(s[0]) {
      assert r == [x] + s;
      forall i, j | 0 <= i < j < |r| && key(r[i]) == key(r[j]) ensures rank(r[i]) < rank(r[j]) {
        assert r[j] == s[j - 1];
        if i > 0 {
          assert r[i] == s[i - 1];
        }
      }
    } else {
      var tail := s[1..];
      InsertTiesRanked(x, tail, key, rank);
      var t := Insert(x, tail, key);
      assert r == [s[0]] + t;
      forall i, j | 0 <= i < j < |r| && key(r[i]) == key(r[j]) ensures rank(r[i]) < rank(r[j]) {
        assert r[j] == t[j - 1];
        if i == 0 {
          InsertMember(x, tail, key, t[j - 1]);
          if t[j - 1] != x {
            var m :| 0 <= m < |tail| && tail[m] == t[j - 1];
            assert s[m + 1] == t[j - 1];
          }
        } else {
          assert r[i] == t[i - 1];
        }
      }
    }
  }

  /**
   * Stability in terms of any rank that strictly increases along the input:
   * after sorting, elements with equal keys still appear in increasing rank.
   */
  lemma {:induction false} SortTiesRanked<T>(s: seq<T>, key: T -> int, rank: T -> int)
    requires forall i, j :: 0 <= i < j < |s| ==> rank(s[i]) < rank(s[j])
    ensures TiesRanked(SortBy(s, key), key, rank)
  {
    if |s| > 0 {
      var tail := s[1..];
      SortTiesRanked(tail, key, rank);
      var t := SortBy(tail, key);
      forall i | 0 <= i < |t| ensures rank(s[0]) < rank(t[i]) {
        assert t[i] in multiset(t);
        assert t[i] in multiset(tail);
        var m :| 0 <= m < |tail| && tail[m] == t[i];
        assert s[m + 1] == t[i];
      }
      InsertTiesRanked(s[0], t, key, rank);
    }
  }
}

=== FILE: study_session.dfy ===
/**
 * One logged study session (backend/models/StudySession.js): its schema
 * constraints, the completion rule that fixes the actual duration, and the
 * `durationDifference` virtual. Times are millisecond timestamps; durations
 * are whole minutes.
 */
module StudySessionModel {
  import opened Js

  const MS_PER_MINUTE := 60000
  const MAX_NOTES := 2000

  /** The schema's `sessionType` enum. */
  predicate IsSessionType(t: string) {
    t in {"reading", "practice", "quiz", "review"}
  }

  /** Self-ratings; each is optional and, when given, between 0 and 5. */
  datatype Performance = Performance(understood: Option<int>, difficulty: Option<int>)

  predicate RatingOk(r: Option<int>) {
    r.None? || 0 <= r.value <= 5
  }

  datatype StudySession = StudySession(
    userId: string,
    materialId: string,
    materialTitle: string,
    sessionType: string,
    scheduledDay: Option<int>,
    planned: int,
    actual: Option<int>,
    startTime: int,
    endTime: Option<int>,
    completed: bool,
    topics: seq<string>,
    notes: Option<string>,
    performance: Option<Performance>)

  /** What the schema's validators accept on save (`required` rejects the empty string). */
  predicate Valid(s: StudySession) {
    && s.userId != "" && s.materialId != "" && s.materialTitle != ""
    && IsSessionType(s.sessionType)
    && (s.notes.None? || |s.notes.value| <= MAX_NOTES)
    && (s.performance.None? || (RatingOk(s.performance.value.understood) && RatingOk(s.performance.value.difficulty)))
  }

  /** `duration.actual` is truthy: present and not zero. */
  predicate HasActual(s: StudySession) {
    s.actual.Some? && s.actual.value != 0
  }

  /**
   * `completeSession`: with an end time the actual duration is the elapsed time
   * rounded to the nearest minute; without one a missing or zero actual duration
   * falls back to the planned one.
   */
  function CompleteSession(s: StudySession): (r: StudySession)
    ensures r.completed
    ensures r.(actual := s.actual, completed := s.completed) == s
    ensures s.endTime.Some? ==> (r.actual.Some? &&
      var elapsed := s.endTime.value - s.startTime;
      -MS_PER_MINUTE < 2 * (r.actual.value * MS_PER_MINUTE - elapsed) <= MS_PER_MINUTE)
    ensures s.endTime.None? && HasActual(s) ==> r.actual == s.actual
    ensures s.endTime.None? && !HasActual(s) ==> r.actual == Some(s.planned)
  {
    var actual :=
      if s.endTime.Some? then Some(RoundDiv(s.endTime.value - s.startTime, MS_PER_MINUTE))
      else if !HasActual(s) then Some(s.planned)
      else s.actual;
    s.(actual := actual, completed := true)
  }

  /** An end time at or after the start gives a non-negative duration. */
  lemma ForwardClockNonNegative(s: StudySession)
    requires s.endTime.Some? && s.endTime.value >= s.startTime
    ensures CompleteSession(s).actual.value >= 0
  {
    RoundDivRange(s.endTime.value - s.startTime, MS_PER_MINUTE, s.endTime.value - s.startTime);
  }

  /** There is no clamp: an end time two minutes before the start records -2 minutes. */
  lemma BackwardClockGoesNegative(s: StudySession)
    requires s.endTime == Some(s.startTime - 2 * MS_PER_MINUTE)
    ensures CompleteSession(s).actual == Some(-2)
  {
    RoundDivExact(-2, MS_PER_MINUTE);
  }

  /** Completing an already completed session changes nothing. */
  lemma CompleteIdempotent(s: StudySession)
    ensures CompleteSession(CompleteSession(s)) == CompleteSession(s)
  {
  }

  /** A session ended 125 seconds after it started lasted 2 minutes. */
  lemma CompleteScenario(s: StudySession)
    requires s.endTime == Some(s.startTime + 125000)
    ensures CompleteSession(s).actual == Some(2)
  {
  }

  /** `durationDifference`: actual minus planned when both are truthy, otherwise 0. */
  function DurationDifference(s: StudySession): (d: int)
    ensures d != 0 ==> HasActual(s) && s.planned != 0 && s.actual.value == s.planned + d
    ensures HasActual(s) && s.planned != 0 ==> s.actual.value == s.planned + d
  {
    if HasActual(s) && s.planned != 0 then s.actual.value - s.planned else 0
  }

  /** A session that fell back to its planned duration shows no difference. */
  lemma FallbackHasNoDifference(s: StudySession)
    requires s.endTime.None? && !HasActual(s)
    ensures DurationDifference(CompleteSession(s)) == 0
  {
  }
}

=== FILE: summary_view.dfy ===
/**
 * The summary screen's line classifier (frontend/src/components/Summary.jsx):
 * the summary is split on '\n' and each line becomes a heading, a bullet, a
 * paragraph, or nothing.
 */
module SummaryView {
  import opened JsText

  /** What one line renders as; `Blank` is the `null` a blank line maps to. */
  datatype Slot = Heading(text: string) | Bullet(text: string) | Paragraph(text: string) | Blank

  /** `\d`: an ASCII digit. */
  predicate IsAsciiDigit(c: char) {
    '0' <= c <= '9'
  }

  /** The characters JavaScript's `.` does not match. */
  predicate IsLineTerminator(c: char) {
    c == '\n' || c == '\r' || c == '\U{2028}' || c == '\U{2029}'
  }

  /** The length of the longest prefix of `s` made of ASCII digits. */
  function DigitRun(s: string): (n: nat)
    ensures n <= |s|
    ensures forall i :: 0 <= i < n ==> IsAsciiDigit(s[i])
    ensures n < |s| ==> !IsAsciiDigit(s[n])
  {
    if |s| == 0 || !IsAsciiDigit(s[0]) then 0 else 1 + DigitRun(s[1..])
  }

  /** The length of the longest prefix of `s` made of '#'. */
  function HashRun(s: string): (n: nat)
    ensures n <= |s|
    ensures forall i :: 0 <= i < n ==> s[i] == '#'
    ensures n < |s| ==> s[n] != '#'
  {
    if |s| == 0 || s[0] != '#' then 0 else 1 + HashRun(s[1..])
  }

  /** `^\d+\.`: one or more digits, then a full stop. */
  predicate Numbered(line: string) {
    var n := DigitRun(line);
    1 <= n < |line| && line[n] == '.'
  }

  /** `^#{1,3}\s`: one to three '#', then white space. */
  predicate HashHeading(line: string) {
    var n := HashRun(line);
    1 <= n <= 3 && n < |line| && IsSpace(line[n])
  }

  /** `^\*\*.*\*\*$`: wrapped in "**", with no line terminator in between. */
  predicate Bold(line: string) {
    && |line| >= 4
    && line[0] == '*' && line[1] == '*' && line[|line| - 2] == '*' && line[|line| - 1] == '*'
    && forall i :: 2 <= i < |line| - 2 ==> !IsLineTerminator(line[i])
  }

  predicate IsHeading(line: string) {
    Numbered(line) || HashHeading(line) || Bold(line)
  }

  predicate IsMarker(c: char) {
    c == '-' || c == '\U{2022}'
  }

  /** `line.trim().startsWith('-') || line.trim().startsWith('•')`. */
  predicate IsBullet(line: string) {
    var t := Trim(line);
    |t| > 0 && IsMarker(t[0])
  }

  /** `line.replace(/[#*]/g, '')`. */
  function StripMarks(line: string): (r: string)
    ensures '#' !in r && '*' !in r
    ensures |r| == |line| - Count(line, '#') - Count(line, '*')
  {
    if |line| == 0 then ""
    else (if line[0] == '#' || line[0] == '*' then "" else [line[0]]) + StripMarks(line[1..])
  }

  /** `line.replace(/^[-•]\s*\/, '')`: a marker in the first column and the white space after it. */
  function StripMarker(line: string): (r: string)
    ensures |line| > 0 && IsMarker(line[0]) ==> r == TrimStart(line[1..])
    ensures !(|line| > 0 && IsMarker(line[0])) ==> r == line
  {
    if |line| > 0 && IsMarker(line[0]) then TrimStart(line[1..]) else line
  }

  /**
   * One line's slot: the heading test first, then the bullet test, then any
   * non-blank line is a paragraph kept as it is.
   */
  function Classify(line: string): (r: Slot)
    ensures r.Heading? <==> IsHeading(line)
    ensures r.Bullet? <==> !IsHeading(line) && IsBullet(line)
    ensures r.Paragraph? ==> r.text == line
    ensures r.Blank? <==> AllSpace(line)
  {
    BlankIsNothingElse(line);
    if IsHeading(line) then Heading(StripMarks(line))
    else if IsBullet(line) then Bullet(StripMarker(line))
    else if Trim(line) != "" then Paragraph(line)
    else Blank
  }

  /** A blank line passes neither test; every other line yields something. */
  lemma BlankIsNothingElse(line: string)
    ensures AllSpace(line) ==> !IsHeading(line) && !IsBullet(line)
    ensures Trim(line) == "" <==> AllSpace(line)
  {
    if AllSpace(line) && |line| > 0 {
      assert IsSpace(line[0]);
      assert !IsAsciiDigit(line[0]) && line[0] != '#' && line[0] != '*';
    }
  }

  /** `formatSummary(text)`: one slot per '\n'-separated line, in order. */
  function FormatSummary(text: string): (r: seq<Slot>)
    ensures |r| == Count(text, '\n') + 1
    ensures forall i :: 0 <= i < |r| ==> r[i] == Classify(Split(text, '\n')[i])
  {
    var lines := Split(text, '\n');
    seq(|lines|, i requires 0 <= i < |lines| => Classify(lines[i]))
  }

  /** Joining the lines back with '\n' gives the summary, so no text is lost between slots. */
  lemma SlotsCoverText(text: string)
    ensures Join(Split(text, '\n'), '\n') == text
    ensures |FormatSummary(text)| == |Split(text, '\n')|
  {
  }

  /** An indented bullet keeps its indentation and marker: only a first-column marker is stripped. */
  lemma IndentedBulletKept(line: string)
    requires |line| > 0 && line[0] == ' ' && !IsHeading(line) && IsBullet(line)
    ensures Classify(line) == Bullet(line)
  {
  }

  /** A first-column marker and the white space after it go. */
  lemma FirstColumnMarkerStripped(line: string)
    requires |line| > 0 && IsMarker(line[0])
    ensures Classify(line) == Bullet(TrimStart(line[1..]))
  {
    assert !IsSpace(line[0]);
    assert !AllSpace(line);
    assert TrimStart(line) == line;
    var t := Trim(line);
    assert t == TrimEnd(line) && t == line[..|t|];
    assert t[0] == line[0];
    assert IsBullet(line);
    assert !IsHeading(line) by {
      assert DigitRun(line) == 0 && HashRun(line) == 0;
    }
  }

  /** No line is both a heading and a bullet, so the order of the two tests never matters. */
  lemma HeadingAndBulletExclusive(line: string)
    requires IsHeading(line)
    ensures !IsBullet(line)
  {
    assert |line| > 0 && !IsSpace(line[0]) && !IsMarker(line[0]) by {
      if Numbered(line) {
        assert IsAsciiDigit(line[0]);
      } else if HashHeading(line) {
        assert line[0] == '#';
      }
    }
    assert TrimStart(line) == line;
    var t := TrimEnd(line);
    if |t| > 0 {
      assert t[0] == line[0];
    }
  }
}

=== FILE: user.dfy ===
/**
 * The user's statistics record and the study-streak rule
 * (backend/models/User.js). Calendar days are integer day numbers: the
 * source truncates both "now" and the last study timestamp to local midnight
 * and compares the two midnights, which for whole days is a difference of
 * day numbers.
 */
module UserModel {
  import opened Js

  datatype Stats = Stats(
    totalQuizzesTaken: nat,
    averageQuizScore: int,
    currentStreak: nat,
    longestStreak: nat,
    lastStudyDay: Option<int>)

  /** The stats a new user document starts with. */
  function InitialStats(): Stats {
    Stats(0, 0, 0, 0, None)
  }

  function Max(a: int, b: int): int {
    if a >= b then a else b
  }

  /** `updateStreak`, called when the user studies on calendar day `today`. */
  function UpdateStreak(st: Stats, today: int): (r: Stats)
    ensures r.lastStudyDay == Some(today)
    ensures r.longestStreak >= st.longestStreak && r.longestStreak >= r.currentStreak
    ensures r.totalQuizzesTaken == st.totalQuizzesTaken && r.averageQuizScore == st.averageQuizScore
  {
    var current :=
      match st.lastStudyDay
      case None => 1
      case Some(last) =>
        if today - last == 1 then st.currentStreak + 1
        else if today - last == 0 then st.currentStreak
        else 1;
    var longest := if current > st.longestStreak then current else st.longestStreak;
    st.(currentStreak := current, longestStreak := longest, lastStudyDay := Some(today))
  }

  /** With no earlier study day the streak starts at one. */
  lemma FirstStudyStartsStreak(st: Stats, today: int)
    requires st.lastStudyDay.None?
    ensures UpdateStreak(st, today).currentStreak == 1
    ensures UpdateStreak(st, today).longestStreak == Max(st.longestStreak, 1)
  {
  }

  /** Studying the calendar day after the last study day extends the streak by one. */
  lemma NextDayExtendsStreak(st: Stats, today: int)
    requires st.lastStudyDay == Some(today - 1)
    ensures UpdateStreak(st, today).currentStreak == st.currentStreak + 1
  {
  }

  /** A second study on the same calendar day leaves the streak alone. */
  lemma SameDayKeepsStreak(st: Stats, today: int)
    requires st.lastStudyDay == Some(today)
    ensures UpdateStreak(st, today).currentStreak == st.currentStreak
    ensures UpdateStreak(st, today).longestStreak == Max(st.longestStreak, st.currentStreak)
  {
  }

  /** Any other gap, a skipped day or a day before the last one, resets the streak to one. */
  lemma GapResetsStreak(st: Stats, today: int, last: int)
    requires st.lastStudyDay == Some(last) && today - last != 0 && today - last != 1
    ensures UpdateStreak(st, today).currentStreak == 1
    ensures UpdateStreak(st, today).longestStreak == Max(st.longestStreak, 1)
  {
  }

  /** Calling the rule twice on one day is the same as calling it once. */
  lemma UpdateStreakIdempotent(st: Stats, today: int)
    ensures UpdateStreak(UpdateStreak(st, today), today) == UpdateStreak(st, today)
  {
  }

  /** Study on `n` consecutive days starting at `first`. */
  function StudyRun(st: Stats, first: int, n: nat): Stats
    decreases n
  {
    if n == 0 then st else StudyRun(UpdateStreak(st, first), first + 1, n - 1)
  }

  /** Studying day after day from a fresh record makes both counters equal the number of days. */
  lemma {:induction false} ConsecutiveRunCounts(first: int, n: nat)
    requires n >= 1
    ensures StudyRun(InitialStats(), first, n).currentStreak == n
    ensures StudyRun(InitialStats(), first, n).longestStreak == n
    ensures StudyRun(InitialStats(), first, n).lastStudyDay == Some(first + n - 1)
  {
    RunExtends(UpdateStreak(InitialStats(), first), first + 1, n - 1);
  }

  lemma {:induction false} RunExtends(st: Stats, first: int, n: nat)
    requires st.lastStudyDay == Some(first - 1) && st.longestStreak == st.currentStreak
    ensures StudyRun(st, first, n).currentStreak == st.currentStreak + n
    ensures StudyRun(st, first, n).longestStreak == st.currentStreak + n
    ensures n > 0 ==> StudyRun(st, first, n).lastStudyDay == Some(first + n - 1)
    ensures n == 0 ==> StudyRun(st, first, n) == st
    decreases n
  {
    if n > 0 {
      RunExtends(UpdateStreak(st, first), first + 1, n - 1);
    }
  }

  /**
   * `progress.js` quiz submission: one more quiz, and the running average becomes
   * `Math.round((avg * count + score) / (count + 1))`; then the streak rule runs.
   */
  function RecordQuiz(st: Stats, score: int, today: int): (r: Stats)
    ensures r.totalQuizzesTaken == st.totalQuizzesTaken + 1
    ensures var c := st.totalQuizzesTaken + 1; var sum := st.averageQuizScore * st.totalQuizzesTaken + score;
      -c < 2 * (c * r.averageQuizScore - sum) <= c
    ensures var u := UpdateStreak(st, today);
      r.currentStreak == u.currentStreak && r.longestStreak == u.longestStreak && r.lastStudyDay == u.lastStudyDay
  {
    var count := st.totalQuizzesTaken + 1;
    var avg := RoundDiv(st.averageQuizScore * st.totalQuizzesTaken + score, count);
    UpdateStreak(st.(totalQuizzesTaken := count, averageQuizScore := avg), today)
  }

  /** The new running average lies between the old average and the new score, so it stays a percentage. */
  lemma RecordQuizAverageBetween(st: Stats, score: int, today: int)
    ensures var a := RecordQuiz(st, score, today).averageQuizScore;
      Max(st.averageQuizScore, score) >= a >= -Max(-st.averageQuizScore, -score)
  {
    var c := st.totalQuizzesTaken;
    var lo := -Max(-st.averageQuizScore, -score);
    var hi := Max(st.averageQuizScore, score);
    MulLeft(c, lo, st.averageQuizScore);
    MulLeft(c, st.averageQuizScore, hi);
    assert lo * (c + 1) <= st.averageQuizScore * c + score <= hi * (c + 1);
    RoundDivBetween(st.averageQuizScore * c + score, c + 1, lo, hi);
  }

  lemma {:induction false} RecordQuizAverageInRange(st: Stats, score: int, today: int)
    requires 0 <= st.averageQuizScore <= 100 && 0 <= score <= 100
    ensures 0 <= RecordQuiz(st, score, today).averageQuizScore <= 100
  {
    RecordQuizAverageBetween(st, score, today);
  }

  /** The worked example: days D, D+1 then D+4. */
  lemma StreakScenario(d: int)
    ensures var s1 := UpdateStreak(InitialStats(), d);
      var s2 := UpdateStreak(s1, d + 1);
      var s3 := UpdateStreak(s2, d + 4);
      && s1.currentStreak == 1 && s1.longestStreak == 1
      && s2.currentStreak == 2 && s2.longestStreak == 2
      && s3.currentStreak == 1 && s3.longestStreak == 2
  {
  }
}
